=== FILE: README.md ===
# Borsa market analysis core, in Dafny

This project models the deterministic core of the Borsa stock-market app: the
rules that score, label, sort and select instruments. Each rule is a pure
function over immutable data.

- `Stats`, `RiskEngine` and `Trend` (src/lib/analysisUtils.ts)
  - The per-stock risk engine `analyzeStock`.
  - Its statistics: RSI, volatility, SMA and Bollinger bands.
  - The 32-bit `hashString` and the trend reading `calculateTrend`.
- `Detective` (src/lib/detective/index.ts): the StockDetective rule scorer.
  - Its own RSI.
  - The trailing average volume.
  - `calculateRiskScore`, which gives points and ordered reasons.
- `RiskCard` (src/components/detective/RiskScoreCard.tsx): maps a score to SAFE, WARNING or DANGER.
- `Vigil` (src/lib/vigilUtils.ts): `analyzeGlobalMarkets`.
  - A vote over the TUR, UUP, VIX and NVDA proxies.
  - Social sentiment and the "whale" pass.
  - The BUY/SELL/NEUTRAL decision and the final risk level.
- `Social` (src/lib/socialMediaService.ts): the mock Twitter and Reddit signals.
- `Scanner` (src/hooks/useMarketAnalysis.ts)
  - The exchange filter and the analysed rows.
  - The comparator, including the trend composite, and the sort it drives.
  - The `handleSort` direction toggle.
- `Store` and `Portfolio` (src/store/marketStore.ts and src/app/portfolio/page.tsx): holdings transitions and the four portfolio totals.
- `AnalysisPage` (src/app/analysis/page.tsx): the anomaly filter and the trend predictions.
- `MockApi` (src/lib/api.ts)
  - `decimalPlaces`.
  - The random stock generator, with its draws as parameters.
  - Ticker-table population and the refresh behind `getMarketOverview` and `subscribeToTicker`.
  - `getHistory`.
  - The selection logic of `searchStocks`.
- Shared pieces
  - `Market`: the `Stock` record and `Array.prototype.find` by symbol.
  - `Lists`: filter, count, take, insertion-ordered dedup, reverse.
  - `Wrappers`: `Option`.

How the JavaScript is rendered:

- Prices are `real`.
- Integer quantities that wrap are written out.
  - `hashString` applies JavaScript's ToInt32 after `<< 5` and after `& h`.
  - `%` on a possibly negative seed is the truncating `JsRemainder`, not Dafny's Euclidean `%`.
- Every `Math.random()` draw is an explicit parameter.
  - Contracts state what holds when a draw lies in [0, 1).
- JavaScript truthiness is kept where the source relies on it.
  - `|| 100` on a zero base price.
  - `if (sma50)` on an average of 0.
  - `if (symbol)` on the empty string.
  - `!peRatio` on a P/E of 0.
  - `|| 1` on a zero divisor.
- `Math.sqrt` is never computed.
  - Standard deviations are carried squared, as variances.
  - `Stats.IsRoot` relates a variance to the root the source would print.
  - The Bollinger breakout test is decided exactly in squared form.
- Messages, reasons, hints and summaries are datatype tags carrying their numbers, not formatted strings.

## Model

| member | source | states |
|---|---|---|
| Stats.Rsi | src/lib/analysisUtils.ts:10-28 | RSI lies in [0,100]; it is 50 with fewer than period+1 points, and otherwise 100 exactly when none of the last `period` deltas is negative |
| Stats.RecentLossesZeroIff | src/lib/analysisUtils.ts:16-22 | the summed losses of the last k deltas vanish exactly when no recent step goes down (the `losses === 0` test) |
| Stats.RsiFormulaRange | src/lib/analysisUtils.ts:24-27 | with some loss, `100 - 100/(1+rs)` stays in [0,100) |
| Stats.VolatilitySquared | src/lib/analysisUtils.ts:30-36 | 0 for fewer than two points, otherwise exactly the population variance of the series (never negative) |
| Stats.SquaredDeviationsNonNegative | src/lib/analysisUtils.ts:34 | the sum of squared deviations from any centre is never negative |
| Stats.SquaredDeviationsExpand | src/lib/analysisUtils.ts:34 | the squared deviations from `m` equal the sum of squares minus `2m` times the sum plus `n m^2` |
| Stats.DeviationsBySquares | src/lib/analysisUtils.ts:33-34 | for a centre `mu` with `mu n` equal to the sum, the per-point squared deviation is the mean square minus `mu^2` |
| Stats.VarianceBySquares | src/lib/analysisUtils.ts:30-36 | the variance equals the mean of the squares minus the square of the mean: an independent formula for the same quantity |
| Stats.FlatSeriesHasNoVolatility | src/lib/analysisUtils.ts:30-36 | a constant series has volatility 0, and so does any square root of it |
| Stats.VarianceOfConstant | src/lib/analysisUtils.ts:33-34 | the variance of a constant series is 0 |
| Stats.RootUnique | src/lib/analysisUtils.ts:35 | the non-negative square root is unique, so carrying the variance loses nothing |
| Stats.Sma | src/lib/analysisUtils.ts:39-43 | the SMA is absent iff fewer than `period` points exist, and otherwise lies between the minimum and maximum of the last `period` values |
| Stats.MeanBetween | src/lib/analysisUtils.ts:42 | a mean lies between the smallest and the largest value averaged |
| Stats.Bollinger | src/lib/analysisUtils.ts:45-55 | the bands are absent exactly when the SMA is; otherwise their middle is the SMA and their variance is the population variance of the same window (so non-negative) |
| Stats.BandsBracketMiddle | src/lib/analysisUtils.ts:54 | lower ≤ SMA ≤ upper, and the bands are symmetric about the SMA |
| Stats.AboveUpperIffRoot | src/lib/analysisUtils.ts:92 | the squared breakout test agrees with `last > upper * 1.01` computed with the square root |
| RiskEngine.Moves | src/lib/analysisUtils.ts:77-81 | one relative move per step of a positive series, none for fewer than two points; each move is non-negative and, times the earlier price, gives the absolute size of the step |
| RiskEngine.StepMove | src/lib/analysisUtils.ts:79 | the relative step times the earlier price is the absolute step |
| RiskEngine.MaxOrZero | src/lib/analysisUtils.ts:75-80 | the running maximum starting from 0 bounds every move and is never negative |
| RiskEngine.Band | src/lib/analysisUtils.ts:111 | HIGH iff score > 75, MEDIUM iff 40 < score ≤ 75, LOW iff score ≤ 40 |
| RiskEngine.Cap | src/lib/analysisUtils.ts:110 | the capped score is at most 100; it equals the input unless that reaches 100 |
| RiskEngine.BandIgnoresCap | src/lib/analysisUtils.ts:110-111 | banding the uncapped score (as the source does) or the capped one gives the same level |
| RiskEngine.DedupHints | src/lib/analysisUtils.ts:64-112 | the deduplicated hint list is the RSI hint, then the volatility hint, then one `pump_risk` even when both the Bollinger and the pump rules fire |
| RiskEngine.DistinctHints | src/lib/analysisUtils.ts:63-112 | the hints have no duplicates and come in rule order: RSI, volatility, then pump_risk for the Bollinger or the pump rule |
| RiskEngine.ScoreFacts | src/lib/analysisUtils.ts:61-111 | for any firing of the rules the capped score lies in [20,100] and its band matches the thresholds |
| RiskEngine.QuietIffBase | src/lib/analysisUtils.ts:61-105 | the score stays at the base 20 exactly when no rule other than the point-free `rsi_low` fires |
| RiskEngine.Assess | src/lib/analysisUtils.ts:109-115 | for any rule outcomes: score in [20,100], level by the bands, hints distinct in rule order, base score iff only `rsi_low` is hinted |
| RiskEngine.AnalyzeStock | src/lib/analysisUtils.ts:57-116 | on a positive series: score in [20,100], level HIGH/MEDIUM/LOW by >75/>40, duplicate-free hints in rule order, and the reported RSI and volatility are those of the data |
| RiskEngine.ScoreOf | src/lib/analysisUtils.ts:61-110 | the reported score is min(20 + RSI points + 30·volatility + 25·breakout + 25·pump, 100) |
| RiskEngine.VolumeIgnored | src/lib/analysisUtils.ts:57-107 | the analysis does not depend on the volume argument |
| RiskEngine.ShortSeriesScoresBase | src/lib/analysisUtils.ts:57-116 | fewer than two points score exactly 20, LOW, with no hints |
| RiskEngine.FlatSeriesIsQuiet | src/lib/analysisUtils.ts:74-105 | a flat positive series fires neither the volatility, the breakout nor the pump rule, and has volatility 0 |
| RiskEngine.ShortFlatSeriesScoresBase | src/lib/analysisUtils.ts:10-105 | a flat series too short for an RSI reading scores the base with no hints |
| RiskEngine.LongFlatSeriesReadsOverbought | src/lib/analysisUtils.ts:22-66 | a flat series with an RSI reading has RSI 100 (no losses), so it scores 50 and MEDIUM |
| RiskEngine.LongFlatSeriesHints | src/lib/analysisUtils.ts:22-112 | that series' only hint is `rsi_high` |
| RiskEngine.QuietSeriesHints | src/lib/analysisUtils.ts:63-112 | when no price rule fires only the RSI rule contributes a hint |
| RiskEngine.FlatRsiIsFull | src/lib/analysisUtils.ts:16-22 | a constant series long enough for an RSI reading reads 100 |
| RiskEngine.PumpExample | src/lib/analysisUtils.ts:57-116 | `[100,102,104,106,108,130]` (the last step +20.4%, 130 > 1.2·102 four steps back) scores 75, MEDIUM, hints `[volatility_extreme, pump_risk]`, RSI 50 |
| RiskEngine.PumpExampleRules | src/lib/analysisUtils.ts:84-105 | on that series the volatility and pump rules fire, the breakout rule does not (too short), and RSI is 50 |
| RiskEngine.RsiPoints | src/lib/analysisUtils.ts:63-72 | 30 points iff RSI > 85, 15 iff 70 < RSI ≤ 85, none iff RSI ≤ 70 |
| RiskEngine.RsiHints | src/lib/analysisUtils.ts:63-72 | "rsi_high" exactly when the RSI rule scores, "rsi_low" iff RSI < 25, no hint iff 25 ≤ RSI ≤ 70 |
| RiskEngine.MaxOrZeroAbove | src/lib/analysisUtils.ts:74-82 | the loop's running maximum passes a non-negative limit iff some move does |
| RiskEngine.AverageMove | src/lib/analysisUtils.ts:74-82 | non-negative; for two or more prices the mean of the step moves, 0 for shorter series |
| RiskEngine.ExtremeVolatility | src/lib/analysisUtils.ts:84-87 | fires iff the average move exceeds 3% or some single move exceeds 7% |
| RiskEngine.BollingerBreakout | src/lib/analysisUtils.ts:89-95 | no breakout without a 20-period band; with one, for the root s of its variance, a breakout iff the last price exceeds (middle + 2s) * 1.01 |
| RiskEngine.PumpPattern | src/lib/analysisUtils.ts:97-105 | needs more than five prices; on positive prices it fires iff the last price over the one four steps back exceeds 1.2 |
| Trend.ToInt32 | src/lib/analysisUtils.ts:122-123 | the wrapped value is a signed 32-bit integer congruent to its input modulo 2^32 |
| Trend.ToInt32Congruent | src/lib/analysisUtils.ts:122-123 | inputs congruent modulo 2^32 wrap to the same value |
| Trend.HashRaw | src/lib/analysisUtils.ts:118-124 | the loop's hash stays a signed 32-bit value |
| Trend.HashRawIsWrappedPoly | src/lib/analysisUtils.ts:118-124 | the step-by-step wrapped hash equals the base-31 polynomial of the character codes wrapped once at the end |
| Trend.HashString | src/lib/analysisUtils.ts:118-126 | the hash is the signed 32-bit loop hash or its negation, non-negative, at most 2^31, and 2^31 exactly when the signed hash is -2^31 |
| Trend.HashOfEmpty | src/lib/analysisUtils.ts:119-125 | "" hashes to 0 and "A" to its code 65 |
| Trend.JsRemainder | src/lib/analysisUtils.ts:150 | JavaScript's `%` takes the sign of the dividend and is smaller than the divisor in magnitude |
| Trend.JsRemainderOdd | src/lib/analysisUtils.ts:150 | the truncating remainder is odd in the dividend |
| Trend.JsRemainderOfNegative | src/lib/analysisUtils.ts:150 | -7 % 20 is -7 in JavaScript, where a Euclidean remainder gives 13 |
| Trend.Seed | src/lib/analysisUtils.ts:143-148 | a non-empty symbol seeds with exactly its hash, in [0, 2^31]; otherwise the seed is the floor of 100 times the last price (the largest integer not above it), non-negative for a non-negative price |
| Trend.CalculateTrend | src/lib/analysisUtils.ts:128-154 | (Bullish, 0) below two points; otherwise Bullish iff last > first, and the confidence is the seed's JavaScript remainder by 20 plus 70, plus 10 when the SMA-50 confirms: for a symbol, the hash's remainder plus 70 (plus 10); for a negative seed, 70 (plus 10) minus the remainder of its magnitude; always at most 99 |
| Trend.SeedResidueDecides | src/lib/analysisUtils.ts:150-151 | two non-negative seeds congruent modulo 20 give the same reading |
| Trend.SymbolFixesConfidence | src/lib/analysisUtils.ts:136-151 | with a symbol, prices affect the confidence only through whether the confirmation bonus applies |
| Trend.BonusAddsTen | src/lib/analysisUtils.ts:136-151 | the confirmation bonus is worth exactly ten points and is never cut by the cap of 99 |
| Detective.DetectiveRsi | src/lib/detective/index.ts:87-107 | the detective's RSI equals the analysis RSI on every input and positive period: 50 below period+1 prices, 100 iff no recent fall, else in [0,100) |
| Detective.TrailingSlice | src/lib/detective/index.ts:110 | `slice(-period)` is the last `period` values, or all of them when there are fewer (or period is 0) |
| Detective.AvgVolume | src/lib/detective/index.ts:109-113 | the average volume is the mean of the trailing window and lies between its minimum and maximum |
| Detective.CalculateRiskScore | src/lib/detective/index.ts:115-159 | the score lies in [0,100], is the sum of the reasons' points, and the at most four reasons come in strictly increasing tiers: volume, RSI, ceiling, mismatch |
| Detective.ReasonsFacts | src/lib/detective/index.ts:123-158 | the tiers are worth at most 25+20+15+40 = 100, so the cap never changes the sum |
| Detective.ReasonsFired | src/lib/detective/index.ts:126-156 | each reason is present exactly when its rule fires (ratio > 3, 2 < ratio ≤ 3, RSI > 80, 70 < RSI ≤ 80, change > 9, suspicious P/E and change > 5) |
| Detective.NoAverageNoVolumeReason | src/lib/detective/index.ts:127-134 | without a positive average volume no volume reason is given |
| Detective.PointsByTier | src/lib/detective/index.ts:126-158 | the points of the reason list are the sum of the four tiers' points (volume 25/10, RSI 20/10, ceiling 15, mismatch 40) |
| Detective.MonotoneInRsi | src/lib/detective/index.ts:136-143 | raising the RSI with all else fixed never lowers the score |
| Detective.MonotoneInVolume | src/lib/detective/index.ts:126-134 | raising the volume with all else fixed never lowers the score |
| Detective.ZeroPeIsMissing | src/lib/detective/index.ts:153 | a reported P/E of 0 is scored exactly like a missing one |
| Detective.VolumeRatio | src/lib/detective/index.ts:127 | with a positive average the ratio times the average is the volume; otherwise 0 |
| Detective.SuspiciousPe | src/lib/detective/index.ts:153 | a P/E is sound exactly when it is reported and lies in (0, 50] |
| Detective.Reasons | src/lib/detective/index.ts:126-156 | each reason is in the list exactly when its rule's test passes |
| RiskCard.CardLabel | src/components/detective/RiskScoreCard.tsx:9-25 | DANGER iff score ≥ 80, WARNING iff 40 ≤ score < 80, SAFE iff score < 40 |
| RiskCard.LabelMonotone | src/components/detective/RiskScoreCard.tsx:9-25 | a higher score never gets a milder label |
| RiskCard.LabelBandEdges | src/components/detective/RiskScoreCard.tsx:15-20 | 39/40 and 79/80 fall on different sides of the bands |
| Vigil.TurMessages | src/lib/vigilUtils.ts:45-56 | TUR yields one first-section message exactly when it is listed: the drop message iff its vote is negative, the rally iff the vote is 3, the neutral one iff the vote is 0.5 |
| Vigil.VixMessages | src/lib/vigilUtils.ts:70-74 | the VIX alarm message appears exactly when VIX is listed above 20 |
| Vigil.TurPoints | src/lib/vigilUtils.ts:44-56 | 0 iff TUR is unlisted; negative iff its change is below -1.5; +3 iff above 1.5; +0.5 iff in between |
| Vigil.DollarPoints | src/lib/vigilUtils.ts:58-67 | -2 iff UUP is listed and rises above 0.5%; +2 iff it falls below -0.3%; 0 iff it is unlisted or in between |
| Vigil.VixPoints | src/lib/vigilUtils.ts:69-74 | -2 iff VIX is listed above 20; 0 otherwise |
| Vigil.TechPoints | src/lib/vigilUtils.ts:76-85 | +1 iff NVDA is listed and rises above 1.5%; -1 iff it falls below -2%; 0 iff it is unlisted or in between |
| Vigil.DollarMessages | src/lib/vigilUtils.ts:58-67 | the "dollar up" message iff the dollar votes against, "dollar down" iff it votes for, none iff it is silent |
| Vigil.TechMessages | src/lib/vigilUtils.ts:76-85 | the rally message iff NVDA votes for, the crash message iff it votes against, none iff it is silent |
| Vigil.ProxyScore | src/lib/vigilUtils.ts:44-85 | the four proxy votes together lie in [-8, 6] |
| Vigil.SocialMessages | src/lib/vigilUtils.ts:87-101 | a social message iff there are signals and their mean leaves [-0.3, 0.3]; it is negative iff the mean is below -0.3 |
| Vigil.FinalRisk | src/lib/vigilUtils.ts:138-153 | LOW iff BUY, EXTREME iff SELL, HIGH iff NEUTRAL with the VIX alarm |
| Vigil.TopIndex | src/lib/vigilUtils.ts:95 | the top signal has the largest volume and is the first such (a stable descending sort) |
| Vigil.Sentiment | src/lib/vigilUtils.ts:88-101 | without signals the sentiment is score 0 with the "Veri Yok" summary; with signals the score times the signal count is the total score (the mean), and the summary is the loudest signal's (the first of maximal volume) |
| Vigil.WhaleTargets | src/lib/vigilUtils.ts:107 | the first min(5, n) of the n non-proxy stocks, in input order: entry i is entry i of the non-proxy filter |
| Vigil.AlertsFor | src/lib/vigilUtils.ts:109-135 | a draw above 0.85 on a volume over 1000000, or below 0.1, yields exactly one alert naming the target (ICEBERG/HIGH above 0.85, else DARK_ROOM/MEDIUM); any other draw yields none |
| Vigil.ScanWhales | src/lib/vigilUtils.ts:109-135 | exactly one alert per target whose draw fires: as many alerts as firing targets, every alert is the alert of a firing target, and every firing target has its alert in the list |
| Vigil.ScanWhalesAppend | src/lib/vigilUtils.ts:109-135 | the targets are scanned in order: one more target appends its own alerts after the earlier ones |
| Vigil.Decide | src/lib/vigilUtils.ts:142-153 | BUY iff score ≥ 3, SELL iff score ≤ -3, NEUTRAL otherwise |
| Vigil.StrategyFor | src/lib/vigilUtils.ts:138-153 | ATTACK iff BUY, DEFENSE iff SELL, AMBUSH iff NEUTRAL |
| Vigil.Messages | src/lib/vigilUtils.ts:44-100 | a TUR message iff TUR is listed, and when it is, the drop, rally and neutral messages each appear iff TUR's vote is negative, 3 and 0.5; "dollar up" iff the dollar votes against and "dollar down" iff it votes for; the VIX alarm iff VIX > 20; the tech rally and crash iff NVDA votes + and -; a social message iff the average sentiment leaves [-0.3, 0.3] |
| Vigil.AnalyzeGlobalMarkets | src/lib/vigilUtils.ts:25-167 | score = proxy votes + social average + 0.5 per ICEBERG; BUY gives LOW and SELL EXTREME; under NEUTRAL the risk is HIGH iff VIX > 20, else MEDIUM; the alerts are the whale scan of the first five non-proxy stocks, the messages are those of the four proxies and the social mood in section order (at most 5), and the strategy follows the decision |
| Vigil.MessageFacts | src/lib/vigilUtils.ts:45-100 | the messages come in the order TUR, UUP, VIX, NVDA, social, at most one each |
| Vigil.TurContribution | src/lib/vigilUtils.ts:45-56 | a listed TUR adds exactly one of -3, +3, +0.5 and a message that comes first; an absent TUR adds neither |
| Vigil.AlertsNameTargets | src/lib/vigilUtils.ts:107-135 | every alert names a listed non-proxy stock |
| Vigil.NoSignalsNoSentiment | src/lib/vigilUtils.ts:88-163 | with no signals the report's sentiment is {0, "Veri Yok"} |
| Vigil.ProxiesOnlyReport | src/lib/vigilUtils.ts:25-167 | a market of proxies alone with no signals has no whale targets, scores exactly the proxy vote, and its risk follows the decision and the VIX alarm |
| Vigil.TurDropWithVixAlarm | src/lib/vigilUtils.ts:45-149 | TUR at -2% and VIX at 25: score -5, SELL, EXTREME, messages [TUR drop, VIX alarm] |
| Vigil.BuyOverridesVixAlarm | src/lib/vigilUtils.ts:70-144 | TUR +2%, UUP -0.5%, VIX 25: score 3, BUY, and LOW risk overriding the VIX-forced HIGH |
| Social.TwitterScore | src/lib/socialMediaService.ts:22-31 | -0.8 below -2%, 0.9 above +2%, 0.1 in between; so it lies in [-1,1] and is negative iff the change is below -2% |
| Social.TwitterSummary | src/lib/socialMediaService.ts:22-31 | the summary matches the score: panic iff negative, euphoria iff 0.9, mixed iff 0.1 |
| Social.RedditScore | src/lib/socialMediaService.ts:43 | 0.4 below -1%, 0.6 otherwise |
| Social.TwitterVolume | src/lib/socialMediaService.ts:36 | for a draw in [0,1) the Twitter volume lies in [1000,5999] |
| Social.RedditVolume | src/lib/socialMediaService.ts:47 | for a draw in [0,1) the Reddit volume lies in [0,1999] |
| Social.GetSocialSignals | src/lib/socialMediaService.ts:12-53 | exactly two signals, Twitter then Reddit, scored by TwitterScore and RedditScore; Twitter's summary follows its score band; Reddit's summary is "buy the dip" iff the change is below -1%, else "meme hype"; Twitter's topics are the bearish pair iff the change is negative; volumes in range for unit draws |
| Social.ScoresMonotone | src/lib/socialMediaService.ts:22-43 | both scores are non-decreasing in the price change |
| Social.AverageMood | src/lib/socialMediaService.ts:22-43 | the pair's average mood is negative iff the change is below -2% |
| Scanner.SelectExchange | src/hooks/useMarketAnalysis.ts:23-26 | 'ALL' is the identity; an exchange keeps exactly its stocks, one entry per stock on it, as an order-preserving sub-list |
| Scanner.AnalyzeRow | src/hooks/useMarketAnalysis.ts:28-37 | each row keeps its stock, carries the risk engine's analysis of its history and the trend engine's confidence for its symbol, and reads Bullish iff the history is short or rises first to last |
| Scanner.AnalyzedMarket | src/hooks/useMarketAnalysis.ts:20-38 | row i is the analysed row of the i-th selected stock, one per stock, in order |
| Scanner.StrLessTransitive | src/hooks/useMarketAnalysis.ts:70-71 | JavaScript's string `<` is transitive |
| Scanner.StrLessTotal | src/hooks/useMarketAnalysis.ts:70-71 | any two distinct strings are ordered one way or the other |
| Scanner.KeyLessTrichotomy | src/hooks/useMarketAnalysis.ts:49-72 | two keys with neither below the other are equal |
| Scanner.Compare | src/hooks/useMarketAnalysis.ts:70-72 | the comparator returns -1, 0 or 1: 0 iff the keys are equal, -1 iff the first belongs earlier in the chosen direction |
| Scanner.CompareAntisymmetric | src/hooks/useMarketAnalysis.ts:70-72 | swapping the arguments negates the comparison |
| Scanner.CompareTransitive | src/hooks/useMarketAnalysis.ts:70-72 | "not after" is transitive |
| Scanner.Insert | src/hooks/useMarketAnalysis.ts:43-72 | insertion adds exactly the new row |
| Scanner.InsertOrdered | src/hooks/useMarketAnalysis.ts:70-72 | insertion into an ordered list keeps it ordered |
| Scanner.SortRows | src/hooks/useMarketAnalysis.ts:43-72 | the sort returns a permutation of its input whose adjacent rows are in comparator order |
| Scanner.AdjacentIsSorted | src/hooks/useMarketAnalysis.ts:70-72 | adjacent order extends to every pair |
| Scanner.SortRowsSorted | src/hooks/useMarketAnalysis.ts:43-72 | the sorted rows are a sorted permutation of the input |
| Scanner.SortStable | src/hooks/useMarketAnalysis.ts:72 | rows sharing a key value keep their relative input order |
| Scanner.AscendingUnique | src/hooks/useMarketAnalysis.ts:70-71 | two ascending arrangements of the same tie-free rows are equal |
| Scanner.AscReversesDesc | src/hooks/useMarketAnalysis.ts:70-71 | with no ties the ascending output is exactly the descending output reversed |
| Scanner.AscSortAscends | src/hooks/useMarketAnalysis.ts:70-71 | the 'asc' output is ascending by the key and a permutation of the input |
| Scanner.DescSortDescends | src/hooks/useMarketAnalysis.ts:70-71 | the 'desc' output, read backwards, is ascending by the key and a permutation of the input |
| Scanner.TrendDescBullishFirst | src/hooks/useMarketAnalysis.ts:62-67 | sorting by trend descending puts every Bullish row before every Bearish one, since confidence ≤ 99 < 1000 |
| Scanner.HandleSort | src/hooks/useMarketAnalysis.ts:76-81 | the new key is the selected one; the direction is ascending iff the same key was descending |
| Scanner.HandleSortTwice | src/hooks/useMarketAnalysis.ts:76-81 | selecting a key twice restores the configuration exactly when it was already sorted by that key |
| Scanner.SortedMarket | src/hooks/useMarketAnalysis.ts:41-74 | the scanner's result is the analysed rows, permuted into comparator order |
| Store.AddHolding | src/store/marketStore.ts:53-57 | appends the new lot at the end, keeps the prefix, changes nothing outside the holdings |
| Store.RemoveHolding | src/store/marketStore.ts:59-63 | keeps exactly the lots of other symbols, every one of them (one entry per kept lot), in their order, changing nothing outside the holdings |
| Store.ResetPortfolio | src/store/marketStore.ts:65-67 | the holdings become empty and nothing else changes |
| Store.AddNeverMerges | src/store/marketStore.ts:55 | adding a lot raises that symbol's lot count by one and leaves every other symbol's count alone |
| Store.RemoveIdempotent | src/store/marketStore.ts:61 | removing a symbol twice equals removing it once |
| Store.RemoveAbsentIsNoop | src/store/marketStore.ts:61 | removing a symbol no lot carries changes nothing |
| Store.RemoveAfterAdd | src/store/marketStore.ts:53-63 | removing the symbol just added undoes the add together with the earlier lots of that symbol |
| Store.RemoveCommutes | src/store/marketStore.ts:59-63 | removals of two symbols commute |
| Store.ResetForgets | src/store/marketStore.ts:53-67 | a reset forgets any earlier add or remove |
| Portfolio.PortfolioTotals | src/app/portfolio/page.tsx:17-24 | gain = value - cost; the percentage is 0 unless the cost is positive, then gain·100/cost, positive iff value > cost and negative iff value < cost |
| Portfolio.PortfolioValue | src/app/portfolio/page.tsx:17-20 | with non-negative prices and quantities the market value is non-negative |
| Portfolio.TotalCost | src/app/portfolio/page.tsx:22 | with non-negative buy prices and quantities the cost is non-negative |
| Portfolio.GainPercent | src/app/portfolio/page.tsx:24 | 0 unless the cost is positive, then gain·100/cost, positive iff the gain is, negative iff the gain is |
| Portfolio.EmptyPortfolio | src/app/portfolio/page.tsx:17-24 | no holdings give four zeros |
| Portfolio.AddHoldingTotals | src/app/portfolio/page.tsx:17-22 | an added lot raises the cost by its cost and the value by its market value |
| Portfolio.ValueOfListedLots | src/app/portfolio/page.tsx:17-20 | dropping the lots with no listed stock leaves the value unchanged |
| Portfolio.UnlistedLotsAreWorthless | src/app/portfolio/page.tsx:17-23 | unlisted lots are worth 0, so the gain is minus their cost |
| Portfolio.AtCostNoGain | src/app/portfolio/page.tsx:17-24 | lots listed at their buying price show no gain and 0% |
| AnalysisPage.Anomalies | src/app/analysis/page.tsx:19-27 | keeps exactly the anomalous stocks, one entry per anomalous stock, as an order-preserving sub-list |
| AnalysisPage.AnomalySymmetric | src/app/analysis/page.tsx:21 | negating the change percent does not change the verdict |
| AnalysisPage.AnomalyMonotone | src/app/analysis/page.tsx:20-26 | more volume or a wider move never clears the flag |
| AnalysisPage.AnomalyExamples | src/app/analysis/page.tsx:20-26 | -5.5% alone flags; 3% flags only with volume above 500000; 2% never flags |
| AnalysisPage.PageTrend | src/app/analysis/page.tsx:31 | Bullish iff the last price exceeds the first |
| AnalysisPage.PageConfidence | src/app/analysis/page.tsx:32 | for a draw in [0,1) the confidence lies in [70,99] |
| AnalysisPage.Predictions | src/app/analysis/page.tsx:29-35 | one prediction per stock in order, its trend read from the history, its confidence in [70,99] for unit draws |
| AnalysisPage.ConfidenceBelowHundred | src/app/analysis/page.tsx:32 | the confidence never reaches 100; draws 0 and 0.999 give 70 and 99 |
| AnalysisPage.PageTrendAgreesWithEngine | src/app/analysis/page.tsx:31 | for two or more prices the page's trend equals the risk engine's reading |
| AnalysisPage.PageTrendOnSinglePrice | src/app/analysis/page.tsx:31 | on one price the page reads Bearish where the engine's reading is Bullish |
| MockApi.DecimalPlaces | src/lib/api.ts:371-375 | 6 below 0.01, 4 in [0.01,1), 2 from 1 |
| MockApi.DecimalPlacesNonIncreasing | src/lib/api.ts:371-375 | a dearer price never shows more decimals |
| MockApi.EffectiveBase | src/lib/api.ts:321 | a present non-zero base price is used; a missing or zero one gives exactly 100 |
| MockApi.IsVolatile | src/lib/api.ts:323 | a name containing "High Volatility" is risky, and so is every symbol the chart treats as risky |
| MockApi.OpenPrice | src/lib/api.ts:334-336 | for a positive base and a unit draw the open lies in [0.995·base, 1.005·base) |
| MockApi.Walk | src/lib/api.ts:344-351 | one history point per draw, each at least 0.000001 |
| MockApi.PercentVariation | src/lib/api.ts:323-326 | for a unit draw the variation lies in ±7.5%, and in ±2.5% for a normal stock |
| MockApi.Move | src/lib/api.ts:326-331 | the change is its percentage of the base, the percentage in [-7.5,7.5) for a unit draw |
| MockApi.DayHigh | src/lib/api.ts:339-341 | the high is at least price, open and previous close |
| MockApi.DayLow | src/lib/api.ts:340-342 | the low is positive and at most price, open and previous close |
| MockApi.Volume | src/lib/api.ts:360 | for a unit draw the volume lies in [1000000,9999999] |
| MockApi.Generate | src/lib/api.ts:320-369 | identity fields copied; TRY iff BIST; prevClose is the effective base; 20 history points starting at the price, each ≥ 0.000001; price, change and volume bounds |
| MockApi.ChangeIsPercentOfClose | src/lib/api.ts:327-334 | the change is changePercent per cent of the previous close |
| MockApi.HistoryStepsBounded | src/lib/api.ts:344-351 | each history point is within 1% (4% when risky) of the one before it |
| MockApi.Populate | src/lib/api.ts:309-318 | a table entry keeps its symbol and exchange and, for a non-zero base price, opens at that price |
| MockApi.ThyaoListedAt285 | src/lib/api.ts:303-318 | THYAO's first listing has previous close 285 |
| MockApi.RefreshAsWritten | src/lib/api.ts:378-392 | the refresh as written keeps each stock's symbol and exchange, in order, and re-centres every stock on 100 |
| MockApi.RefreshForgetsBasePrice | src/lib/api.ts:320-381 | a refreshed stock as written has previous close 100 and price below 107.5, whatever its earlier price |
| MockApi.Refresh | src/lib/api.ts:320-321 | the corrected refresh, re-centring on the stock's own previous close, keeps symbol, exchange and a non-zero previous close |
| MockApi.RefreshKeepsBasePrice | src/lib/api.ts:309-381 | under the corrected refresh a listed stock keeps its table base price over any run of refreshes |
| MockApi.GetMarketOverview | src/lib/api.ts:378-382 | one regenerated stock per table entry, same symbols and exchanges in the same order, each with previous close 100 |
| MockApi.OverviewMatchesCorrectedRefresh | src/lib/api.ts:320-382 | the overview agrees with the corrected refresh on an entry exactly when that entry's previous close is 100 or 0 |
| MockApi.PointCount | src/lib/api.ts:405-420 | 5M=10, 1H=24, 1D=48, 1W=7, 1M=30, 1Y=52, 5Y=60, 20 for any other range |
| MockApi.RangeVolatility | src/lib/api.ts:411-420 | the per-step volatility of a range lies in [0.005,0.4] before the risk multiplier |
| MockApi.Drift | src/lib/api.ts:422-430 | one point per draw, each the one before (the start for the first) moved by (draw - 0.5)·volatility of itself |
| MockApi.GetHistory | src/lib/api.ts:394-433 | the chart has exactly the range's point count |
| MockApi.DriftPositive | src/lib/api.ts:422-430 | a walk from a positive price with volatility at most 1.6 and unit draws stays positive |
| MockApi.HistoryPositive | src/lib/api.ts:399-432 | for a table of positive previous closes every chart point is positive |
| MockApi.SearchSelection | src/lib/api.ts:435-454 | selects only table entries; a non-empty query selects exactly the entries whose lower-cased symbol or name contains it, every one of them, in table order; the empty query selects, for every exchange, exactly the first five of that exchange's entries, with the exchanges in the order BIST, NASDAQ, CRYPTO |
| MockApi.DefaultSampleShape | src/lib/api.ts:439-448 | the default view restricted to any one exchange is the first five of that exchange's table entries, in table order; the exchanges come BIST, NASDAQ, CRYPTO and the view holds at most fifteen stocks |
| MockApi.GroupFilter | src/lib/api.ts:442-446 | filtering three single-exchange groups laid end to end by one exchange gives back that exchange's group |
| MockApi.SymbolSearchFinds | src/lib/api.ts:450-453 | searching for a stock's own symbol, in any case, finds it |
| MockApi.SearchStocks | src/lib/api.ts:435-454 | one regenerated stock per selected entry, with the same symbols in the same order, each with previous close 100 |
| Market.FindStock | src/lib/vigilUtils.ts:32 | the result is the first stock carrying the symbol, or none when no stock carries it |
| Lists.Dedup | src/lib/analysisUtils.ts:112 | `Array.from(new Set(xs))`: no duplicates, the same elements, listed in the order of their first occurrence in the input |
| Lists.DedupOfDistinct | src/lib/analysisUtils.ts:112 | deduplicating a duplicate-free list returns it unchanged |
| Lists.DedupAppendSeen | src/lib/analysisUtils.ts:112 | appending an element already present leaves the result unchanged |
| Lists.DedupAppendFresh | src/lib/analysisUtils.ts:112 | appending a new element puts it last |
| Lists.Filter | src/store/marketStore.ts:61 | keeps exactly the elements satisfying the test, every occurrence (as many as are counted), in order |
| Lists.FilterIdempotent | src/store/marketStore.ts:61 | filtering twice with one test equals filtering once |

## Left out

- `Math.sqrt`: no square root is computed.
  - Volatility and the Bollinger half-width are carried as variances.
  - `Stats.IsRoot` ties a variance to its root.
  - The breakout test is decided in squared form, shown equivalent by `Stats.AboveUpperIffRoot`.
- IEEE-754 behaviour (rounding, NaN, Infinity).
  - Prices are `real`.
  - `RiskEngine.AnalyzeStock` requires positive prices, since a zero price would divide by zero.
  - `Detective.DetectiveRsi` requires a period of at least 1, since period 0 gives 0/0.
  - `Detective.AvgVolume` requires a non-empty list, since the source divides by 0 there.
- `toFixed`/`parseFloat` display rounding in the generator and in message texts. Generated fields are kept unrounded, so the first history point equals the price.
- Timers and the network.
  - The `setTimeout` delays and the `setInterval` ticker.
  - The detective's fetching `analyzeStock`/`getWatchlistAnalysis`.
  - The store's `fetchStocks`, `startLiveUpdates` and persistence.
  - The Alpaca route.
- `Math.random` and `new Date()`.
  - Draws are parameters.
  - Distributions are not modelled.
  - Whale alert timestamps and description texts are dropped.
- Message and strategy texts: they are tags carrying the numbers they print.
- `toLowerCase`: Unicode case folding is not modelled. It is a function parameter of `MockApi.SearchSelection`.
- Characters: Dafny strings are sequences of Unicode scalar values, while JavaScript strings are sequences of UTF-16 code units. For a character outside the Basic Multilingual Plane, `charCodeAt` sees two surrogates and the model sees one value. So `Trend.HashStep` and `Scanner.StrLess` can differ from `charCodeAt` and JavaScript's `<` on such characters. Every symbol in the ticker table is ASCII, where the two agree.
- The in-place `socialSignals.sort` mutation of the caller's array. Only its first element is modelled (`Vigil.TopIndex`).
- `getHistory`'s initial `volatility` assignment: it is overwritten by every branch of the switch, so it is not modelled.
- The large ticker tables of src/lib/api.ts: only THYAO appears, as an example.
- Rendering: all JSX, charts, colour and label maps.
- Stats.Sma: states bounds by the window's minimum and maximum, not the exact mean.
- MockApi.GetHistory: states only the point count; `MockApi.HistoryPositive` adds positivity for listed stocks.

## Findings

| source | as written | input that shows it | evidently intended | confidence | as-written member | corrected member |
|---|---|---|---|---|---|---|
| src/lib/api.ts:320-382 | `getMarketOverview`, the ticker and the search regenerate the stored `Stock` records. Those records carry no `basePrice`, so `base.basePrice \|\| 100` re-centres every refreshed stock on 100 | THYAO, listed at its table base 285 (`MockApi.ThyaoListedAt285`): after one refresh its previous close is 100 and its price is below 107.5 | re-centre on the stock's own reference price, its previous close, as `getHistory` does at line 400 | not executed | MockApi.RefreshForgetsBasePrice | MockApi.RefreshKeepsBasePrice |

The overview, the ticker and the search (`MockApi.GetMarketOverview`, `MockApi.SearchStocks`) are modelled as written, on `MockApi.RefreshAsWritten`. The corrected refresh is `MockApi.Refresh`, and `MockApi.OverviewMatchesCorrectedRefresh` says on which stocks the two agree.

=== FILE: analysis_page.dfy ===
/** The two lists of the analysis page (src/app/analysis/page.tsx): the
    anomaly filter over today's moves and the per-stock trend predictions,
    whose confidence is one random draw per stock, passed in. */
module AnalysisPage {
  import opened Wrappers
  import opened Lists
  import opened Market
  import Trend

  const StrongMove: real := 5.0
  const MildMove: real := 2.0
  const VolumeSpike: int := 500000

  function AbsReal(x: real): (r: real)
    ensures r >= 0.0 && (r == x || r == -x)
  {
    if x < 0.0 then -x else x
  }

  /** A pump-and-dump signal: a move beyond 5% either way, or beyond 2% on
      more than half a million shares. */
  predicate IsAnomaly(s: Stock) {
    var move := AbsReal(s.changePercent);
    move > StrongMove || (move > MildMove && s.volume > VolumeSpike)
  }

  function AnomalyTest(): Stock -> bool { (s: Stock) => IsAnomaly(s) }

  /** `anomalies`: the anomalous stocks, in listing order. */
  function Anomalies(stocks: seq<Stock>): (r: seq<Stock>)
    ensures forall s :: s in r <==> s in stocks && IsAnomaly(s)
    ensures IsSubsequence(r, stocks)
    ensures |r| == Count(stocks, AnomalyTest())
  {
    Filter(stocks, AnomalyTest())
  }

  /** The same move up or down is judged alike. */
  lemma AnomalySymmetric(s: Stock)
    ensures IsAnomaly(s) <==> IsAnomaly(s.(changePercent := -s.changePercent))
  {
  }

  /** Raising the volume or widening the move never clears the flag. */
  lemma AnomalyMonotone(s: Stock, volume: int, changePercent: real)
    requires volume >= s.volume && AbsReal(changePercent) >= AbsReal(s.changePercent)
    ensures IsAnomaly(s) ==> IsAnomaly(s.(volume := volume, changePercent := changePercent))
  {
  }

  /** The thresholds at work: 5.5% alone flags, 3% needs the volume spike,
      and a 2% move never flags. */
  lemma AnomalyExamples(s: Stock)
    ensures IsAnomaly(s.(changePercent := -5.5))
    ensures IsAnomaly(s.(changePercent := 3.0, volume := 600000))
    ensures !IsAnomaly(s.(changePercent := 3.0, volume := 500000))
    ensures !IsAnomaly(s.(changePercent := 2.0))
  {
  }

  /** Listing the same stocks again adds nothing to the anomalies: running
      the filter on its own output gives it back. */
  lemma AnomaliesIdempotent(stocks: seq<Stock>)
    ensures Anomalies(Anomalies(stocks)) == Anomalies(stocks)
  {
    FilterIdempotent(stocks, AnomalyTest());
  }

  datatype Prediction = Prediction(stock: Stock, trend: Trend.Direction, confidence: int)

  /** Last versus first price. On an empty history both reads are
      `undefined` and the comparison is false, so the reading is Bearish. */
  function PageTrend(history: seq<real>): (d: Trend.Direction)
    ensures d == Trend.Bullish <==> |history| > 0 && history[|history| - 1] > history[0]
  {
    if |history| > 0 && history[|history| - 1] > history[0] then Trend.Bullish else Trend.Bearish
  }

  /** `Math.floor(r * 30) + 70`. */
  function PageConfidence(draw: real): (c: int)
    ensures 0.0 <= draw < 1.0 ==> 70 <= c <= 99
  {
    (draw * 30.0).Floor + 70
  }

  /** `predictions`: one entry per stock, in the same order, with one draw
      per stock. */
  function Predictions(stocks: seq<Stock>, draws: seq<real>): (r: seq<Prediction>)
    requires |draws| == |stocks|
    ensures |r| == |stocks|
    ensures forall i :: 0 <= i < |r| ==> r[i].stock == stocks[i]
    ensures forall i :: 0 <= i < |r| ==> r[i].trend == PageTrend(stocks[i].history)
    ensures forall i :: 0 <= i < |r| && 0.0 <= draws[i] < 1.0 ==> 70 <= r[i].confidence <= 99
  {
    seq(|stocks|, i requires 0 <= i < |stocks| =>
      Prediction(stocks[i], PageTrend(stocks[i].history), PageConfidence(draws[i])))
  }

  /** The confidence never reaches 100, even for the largest draws below 1. */
  lemma ConfidenceBelowHundred(draw: real)
    requires 0.0 <= draw < 1.0
    ensures PageConfidence(draw) != 100
    ensures PageConfidence(0.0) == 70 && PageConfidence(0.999) == 99
  {
  }

  /** For two or more prices the page and the risk engine's trend agree on
      the direction; on a single price the page says Bearish where the
      engine's short-series default says Bullish. */
  lemma PageTrendAgreesWithEngine(history: seq<real>, symbol: string)
    requires |history| >= 2
    ensures PageTrend(history) == Trend.CalculateTrend(history, Some(symbol)).trend
  {
  }

  lemma PageTrendOnSinglePrice(price: real, symbol: Option<string>)
    ensures PageTrend([price]) == Trend.Bearish
    ensures Trend.CalculateTrend([price], symbol).trend == Trend.Bullish
  {
  }
}

=== FILE: detective.dfy ===
/** The rule scorer of the `StockDetective` class (src/lib/detective/index.ts):
    its own RSI, a trailing average volume, and `calculateRiskScore`, which
    adds points for a volume anomaly, an overbought RSI, a ceiling move and a
    valuation/price mismatch, and lists one reason per fired rule. */
module Detective {
  import opened Wrappers
  import opened Stats

  // ------------------------------------------------------------------ RSI

  /** The detective's `calculateRSI`: it walks the last `period` deltas
      oldest first and tests the average loss rather than the total. For
      `period` 0 the source divides 0 by 0, so a period of at least one is
      required. It computes the same value as `Stats.Rsi`. */
  method DetectiveRsi(prices: seq<real>, period: nat) returns (r: real)
    requires period >= 1
    ensures r == Rsi(prices, period)
    ensures 0.0 <= r <= 100.0
    ensures |prices| < period + 1 ==> r == 50.0
    ensures |prices| >= period + 1 ==> (r == 100.0 <==> NoRecentFall(prices, period))
  {
    var n := |prices|;
    if n < period + 1 {
      return 50.0;
    }
    var gains, losses := 0.0, 0.0;
    var i := n - period;
    while i < n
      invariant n - period <= i <= n
      invariant gains + RecentGains(prices, n - i) == RecentGains(prices, period)
      invariant losses + RecentLosses(prices, n - i) == RecentLosses(prices, period)
    {
      var diff := prices[i] - prices[i - 1];
      if diff >= 0.0 {
        gains := gains + diff;
      } else {
        losses := losses + (-diff);
      }
      i := i + 1;
    }
    var p := period as real;
    var avgGain, avgLoss := gains / p, losses / p;
    ZeroQuotient(losses, p);
    if avgLoss == 0.0 {
      return 100.0;
    }
    r := 100.0 - 100.0 / (1.0 + avgGain / avgLoss);
  }

  lemma ZeroQuotient(x: real, p: real)
    requires p > 0.0
    ensures x / p == 0.0 <==> x == 0.0
  {
    if x / p == 0.0 {
      assert x == x / p * p;
    }
  }

  // --------------------------------------------------------- avg volume

  /** `volumes.slice(-period)`: the last `period` values, all of them when
      there are fewer, and also all of them for a period of 0 (`slice(-0)`
      is `slice(0)`). */
  function TrailingSlice(volumes: seq<real>, period: nat): (w: seq<real>)
    ensures period == 0 || |volumes| <= period ==> w == volumes
    ensures 0 < period <= |volumes| ==> |w| == period
    ensures forall i :: 0 <= i < |w| ==> w[i] == volumes[|volumes| - |w| + i]
  {
    if period == 0 || period >= |volumes| then volumes else volumes[|volumes| - period..]
  }

  /** `calculateAvgVolume`: the mean of the trailing slice, summed front to
      back. An empty list gives 0/0 in the source, so the list must not be
      empty. */
  method AvgVolume(volumes: seq<real>, period: nat) returns (avg: real)
    requires |volumes| > 0
    ensures avg == Mean(TrailingSlice(volumes, period))
    ensures Min(TrailingSlice(volumes, period)) <= avg <= Max(TrailingSlice(volumes, period))
  {
    var w := TrailingSlice(volumes, period);
    var sum := 0.0;
    var i := 0;
    while i < |w|
      invariant 0 <= i <= |w|
      invariant sum == Sum(w[..i])
    {
      assert w[..i + 1][..i] == w[..i];
      sum := sum + w[i];
      i := i + 1;
    }
    assert w[..|w|] == w;
    avg := sum / (|w| as real);
    MeanBetween(w);
  }

  // --------------------------------------------------------- risk score

  datatype Reason =
    | AbnormalVolume       // volume more than 3x its average
    | HighVolume           // volume more than 2x its average
    | RsiSaturated         // RSI above 80
    | RsiHigh              // RSI above 70
    | CeilingMove          // change above 9%
    | FundamentalMismatch  // rally of a loss-making or very expensive stock

  /** The inputs of `calculateRiskScore`; a P/E that was not reported is
      `None`. */
  datatype RiskInput = RiskInput(
    price: real,
    volume: real,
    avgVolume: real,
    rsi: real,
    changePercent: real,
    peRatio: Option<real>)

  datatype RiskVerdict = RiskVerdict(score: int, reasons: seq<Reason>)

  const ScoreCap: int := 100

  function Points(r: Reason): int {
    match r
    case AbnormalVolume => 25
    case HighVolume => 10
    case RsiSaturated => 20
    case RsiHigh => 10
    case CeilingMove => 15
    case FundamentalMismatch => 40
  }

  /** The rule a reason belongs to: volume, RSI, ceiling, mismatch. */
  function Tier(r: Reason): nat {
    match r
    case AbnormalVolume => 0
    case HighVolume => 0
    case RsiSaturated => 1
    case RsiHigh => 1
    case CeilingMove => 2
    case FundamentalMismatch => 3
  }

  function TotalPoints(reasons: seq<Reason>): int
    decreases |reasons|
  {
    if |reasons| == 0 then 0 else Points(reasons[0]) + TotalPoints(reasons[1..])
  }

  /** `avgVolume > 0 ? volume / avgVolume : 0`: how many times the average
      volume traded, 0 when there is no positive average. */
  function VolumeRatio(d: RiskInput): (r: real)
    ensures d.avgVolume > 0.0 ==> r * d.avgVolume == d.volume
    ensures d.avgVolume <= 0.0 ==> r == 0.0
  {
    if d.avgVolume > 0.0 then d.volume / d.avgVolume else 0.0
  }

  /** `!peRatio || peRatio < 0 || peRatio > 50`: a missing P/E, and a P/E of
      exactly 0 (falsy), count like a loss-making one. */
  function SuspiciousPe(pe: Option<real>): (b: bool)
    ensures !b <==> pe.Some? && 0.0 < pe.value <= 50.0
  {
    pe.None? || pe.value == 0.0 || pe.value < 0.0 || pe.value > 50.0
  }

  function VolumeReasons(d: RiskInput): seq<Reason> {
    var ratio := VolumeRatio(d);
    if ratio > 3.0 then [AbnormalVolume] else if ratio > 2.0 then [HighVolume] else []
  }

  function RsiReasons(d: RiskInput): seq<Reason> {
    if d.rsi > 80.0 then [RsiSaturated] else if d.rsi > 70.0 then [RsiHigh] else []
  }

  function CeilingReasons(d: RiskInput): seq<Reason> {
    if d.changePercent > 9.0 then [CeilingMove] else []
  }

  function MismatchReasons(d: RiskInput): seq<Reason> {
    if SuspiciousPe(d.peRatio) && d.changePercent > 5.0 then [FundamentalMismatch] else []
  }

  /** The reasons in the order the rules push them: each rule adds a reason
      exactly when its test passes. */
  function Reasons(d: RiskInput): (rs: seq<Reason>)
    ensures AbnormalVolume in rs <==> VolumeRatio(d) > 3.0
    ensures HighVolume in rs <==> 2.0 < VolumeRatio(d) <= 3.0
    ensures RsiSaturated in rs <==> d.rsi > 80.0
    ensures RsiHigh in rs <==> 70.0 < d.rsi <= 80.0
    ensures CeilingMove in rs <==> d.changePercent > 9.0
    ensures FundamentalMismatch in rs <==> SuspiciousPe(d.peRatio) && d.changePercent > 5.0
  {
    var a, b, c, e := VolumeReasons(d), RsiReasons(d), CeilingReasons(d), MismatchReasons(d);
    assert forall x :: x in a + b + c + e <==> x in a || x in b || x in c || x in e;
    a + b + c + e
  }

  /** Each reason appears in a strictly later tier than the one before it. */
  predicate TiersIncrease(rs: seq<Reason>) {
    forall i, j :: 0 <= i < j < |rs| ==> Tier(rs[i]) < Tier(rs[j])
  }

  predicate TiersBelow(rs: seq<Reason>, k: nat) {
    forall i :: 0 <= i < |rs| ==> Tier(rs[i]) < k
  }

  /** `calculateRiskScore`. */
  function CalculateRiskScore(d: RiskInput): (v: RiskVerdict)
    ensures 0 <= v.score <= ScoreCap
    ensures v.score == TotalPoints(v.reasons)
    ensures TiersIncrease(v.reasons)
    ensures |v.reasons| <= 4
    ensures v.reasons == Reasons(d)
  {
    ReasonsFacts(d);
    var score := TotalPoints(Reasons(d));
    RiskVerdict(if score < ScoreCap then score else ScoreCap, Reasons(d))
  }

  /** The four tiers together are worth at most 25 + 20 + 15 + 40 = 100, so
      the cap never bites; they come out in tier order. */
  lemma ReasonsFacts(d: RiskInput)
    ensures 0 <= TotalPoints(Reasons(d)) <= ScoreCap
    ensures TiersIncrease(Reasons(d)) && |Reasons(d)| <= 4
  {
    FourParts(VolumeReasons(d), RsiReasons(d), CeilingReasons(d), MismatchReasons(d));
  }

  /** A tier's contribution: nothing, or one reason of tier `k` worth at
      most `cap` points. */
  predicate Part(p: seq<Reason>, k: nat, cap: int) {
    p == [] || (|p| == 1 && Tier(p[0]) == k && 0 <= Points(p[0]) <= cap)
  }

  lemma FourParts(a: seq<Reason>, b: seq<Reason>, c: seq<Reason>, e: seq<Reason>)
    requires Part(a, 0, 25) && Part(b, 1, 20) && Part(c, 2, 15) && Part(e, 3, 40)
    ensures 0 <= TotalPoints(a + b + c + e) <= 25 + 20 + 15 + 40
    ensures TiersIncrease(a + b + c + e) && |a + b + c + e| <= 4
  {
    Extend([], a, 0);
    assert [] + a == a;
    Extend(a, b, 1);
    Extend(a + b, c, 2);
    Extend(a + b + c, e, 3);
  }

  /** The points of a tier's contribution (none or one reason). */
  function PartPoints(part: seq<Reason>): (p: int)
    requires |part| <= 1
    ensures p == TotalPoints(part)
  {
    if |part| == 0 then 0 else Points(part[0])
  }

  /** Appending at most one reason of tier `k` to reasons of lower tiers. */
  lemma Extend(xs: seq<Reason>, part: seq<Reason>, k: nat)
    requires TiersIncrease(xs) && TiersBelow(xs, k)
    requires part == [] || (|part| == 1 && Tier(part[0]) == k)
    ensures TiersIncrease(xs + part) && TiersBelow(xs + part, k + 1)
    ensures |xs + part| <= |xs| + 1
    ensures TotalPoints(xs + part) == TotalPoints(xs) + PartPoints(part)
  {
    TotalPointsAppend(xs, part);
  }

  lemma {:induction false} TotalPointsAppend(xs: seq<Reason>, ys: seq<Reason>)
    ensures TotalPoints(xs + ys) == TotalPoints(xs) + TotalPoints(ys)
    decreases |xs|
  {
    if |xs| > 0 {
      assert (xs + ys)[1..] == xs[1..] + ys;
      TotalPointsAppend(xs[1..], ys);
    } else {
      assert xs + ys == ys;
    }
  }

  /** Which reasons appear: each exactly when its rule fires, the stronger
      reason of a tier shadowing the weaker one. */
  lemma ReasonsFired(d: RiskInput)
    ensures var rs := CalculateRiskScore(d).reasons;
            && (AbnormalVolume in rs <==> VolumeRatio(d) > 3.0)
            && (HighVolume in rs <==> 2.0 < VolumeRatio(d) <= 3.0)
            && (RsiSaturated in rs <==> d.rsi > 80.0)
            && (RsiHigh in rs <==> 70.0 < d.rsi <= 80.0)
            && (CeilingMove in rs <==> d.changePercent > 9.0)
            && (FundamentalMismatch in rs <==> SuspiciousPe(d.peRatio) && d.changePercent > 5.0)
  {
    ReasonsMembership(d);
    VolumeFired(d);
    RsiFired(d);
    LateTiersFired(d);
  }

  lemma VolumeFired(d: RiskInput)
    requires forall x :: x in Reasons(d) <==>
      x in VolumeReasons(d) || x in RsiReasons(d) || x in CeilingReasons(d) || x in MismatchReasons(d)
    ensures AbnormalVolume in Reasons(d) <==> VolumeRatio(d) > 3.0
    ensures HighVolume in Reasons(d) <==> 2.0 < VolumeRatio(d) <= 3.0
  {
    var a, b, c, e := VolumeReasons(d), RsiReasons(d), CeilingReasons(d), MismatchReasons(d);
    OnlyInOwnPart(AbnormalVolume, Reasons(d), a, b, c, e);
    OnlyInOwnPart(HighVolume, Reasons(d), a, b, c, e);
  }

  lemma RsiFired(d: RiskInput)
    requires forall x :: x in Reasons(d) <==>
      x in VolumeReasons(d) || x in RsiReasons(d) || x in CeilingReasons(d) || x in MismatchReasons(d)
    ensures RsiSaturated in Reasons(d) <==> d.rsi > 80.0
    ensures RsiHigh in Reasons(d) <==> 70.0 < d.rsi <= 80.0
  {
    var a, b, c, e := VolumeReasons(d), RsiReasons(d), CeilingReasons(d), MismatchReasons(d);
    OnlyInOwnPart(RsiSaturated, Reasons(d), b, a, c, e);
    OnlyInOwnPart(RsiHigh, Reasons(d), b, a, c, e);
  }

  lemma LateTiersFired(d: RiskInput)
    requires forall x :: x in Reasons(d) <==>
      x in VolumeReasons(d) || x in RsiReasons(d) || x in CeilingReasons(d) || x in MismatchReasons(d)
    ensures CeilingMove in Reasons(d) <==> d.changePercent > 9.0
    ensures FundamentalMismatch in Reasons(d) <==> SuspiciousPe(d.peRatio) && d.changePercent > 5.0
  {
    var a, b, c, e := VolumeReasons(d), RsiReasons(d), CeilingReasons(d), MismatchReasons(d);
    OnlyInOwnPart(CeilingMove, Reasons(d), c, a, b, e);
    OnlyInOwnPart(FundamentalMismatch, Reasons(d), e, a, b, c);
  }

  /** A reason that no other tier can produce is present exactly when its
      own tier produced it. */
  lemma OnlyInOwnPart(x: Reason, rs: seq<Reason>, own: seq<Reason>, o1: seq<Reason>, o2: seq<Reason>, o3: seq<Reason>)
    requires forall y :: y in rs <==> y in own || y in o1 || y in o2 || y in o3
    requires forall y :: y in o1 || y in o2 || y in o3 ==> Tier(y) != Tier(x)
    ensures x in rs <==> x in own
  {
  }

  lemma ReasonsMembership(d: RiskInput)
    ensures forall x :: x in Reasons(d) <==>
      x in VolumeReasons(d) || x in RsiReasons(d) || x in CeilingReasons(d) || x in MismatchReasons(d)
  {
    var a, b, c, e := VolumeReasons(d), RsiReasons(d), CeilingReasons(d), MismatchReasons(d);
    forall x
      ensures x in Reasons(d) <==> x in a || x in b || x in c || x in e
    {
      InParts(x, a, b, c, e);
    }
  }

  lemma InParts(x: Reason, a: seq<Reason>, b: seq<Reason>, c: seq<Reason>, e: seq<Reason>)
    ensures x in a + b + c + e <==> x in a || x in b || x in c || x in e
  {
  }

  /** Without a positive average volume no volume reason is given. */
  lemma NoAverageNoVolumeReason(d: RiskInput)
    requires d.avgVolume <= 0.0
    ensures AbnormalVolume !in CalculateRiskScore(d).reasons
    ensures HighVolume !in CalculateRiskScore(d).reasons
  {
  }

  /** The points of each tier. */
  lemma PointsByTier(d: RiskInput)
    ensures TotalPoints(Reasons(d))
         == TotalPoints(VolumeReasons(d)) + TotalPoints(RsiReasons(d))
            + TotalPoints(CeilingReasons(d)) + TotalPoints(MismatchReasons(d))
  {
    var a, b, c, e := VolumeReasons(d), RsiReasons(d), CeilingReasons(d), MismatchReasons(d);
    TotalPointsAppend(a, b);
    TotalPointsAppend(a + b, c);
    TotalPointsAppend(a + b + c, e);
  }

  /** Raising the RSI, all else equal, never lowers the score. */
  lemma MonotoneInRsi(d: RiskInput, rsi: real)
    requires d.rsi <= rsi
    ensures CalculateRiskScore(d).score <= CalculateRiskScore(d.(rsi := rsi)).score
  {
    var e := d.(rsi := rsi);
    ScoreByTier(d);
    ScoreByTier(e);
    OtherTiersIgnoreRsi(d, e);
    RsiTierMonotone(d, e);
  }

  lemma OtherTiersIgnoreRsi(d: RiskInput, e: RiskInput)
    requires e == d.(rsi := e.rsi)
    ensures VolumeReasons(e) == VolumeReasons(d) && CeilingReasons(e) == CeilingReasons(d)
    ensures MismatchReasons(e) == MismatchReasons(d)
  {
  }

  lemma RsiTierMonotone(d: RiskInput, e: RiskInput)
    requires d.rsi <= e.rsi
    ensures PartPoints(RsiReasons(d)) <= PartPoints(RsiReasons(e))
  {
  }

  /** The score is the sum of the four tiers' points. */
  lemma ScoreByTier(d: RiskInput)
    ensures CalculateRiskScore(d).score
         == PartPoints(VolumeReasons(d)) + PartPoints(RsiReasons(d))
            + PartPoints(CeilingReasons(d)) + PartPoints(MismatchReasons(d))
  {
    PointsByTier(d);
  }

  /** Raising the volume, all else equal, never lowers the score. */
  lemma MonotoneInVolume(d: RiskInput, volume: real)
    requires d.volume <= volume
    ensures CalculateRiskScore(d).score <= CalculateRiskScore(d.(volume := volume)).score
  {
    var e := d.(volume := volume);
    if d.avgVolume > 0.0 {
      QuotientMonotone(d.volume, volume, d.avgVolume);
    }
    assert PartPoints(VolumeReasons(d)) <= PartPoints(VolumeReasons(e));
    ScoreByTier(d);
    ScoreByTier(e);
    assert RsiReasons(e) == RsiReasons(d) && CeilingReasons(e) == CeilingReasons(d);
    assert MismatchReasons(e) == MismatchReasons(d);
  }

  lemma QuotientMonotone(x: real, y: real, a: real)
    requires a > 0.0 && x <= y
    ensures x / a <= y / a
  {
    assert y / a - x / a == (y - x) / a;
  }

  /** A reported P/E of 0 is treated exactly like a missing one. */
  lemma ZeroPeIsMissing(d: RiskInput)
    ensures CalculateRiskScore(d.(peRatio := Some(0.0))) == CalculateRiskScore(d.(peRatio := None))
  {
  }
}

=== FILE: lists.dfy ===
/** Generic sequence helpers shared by the scoring, store and scanner modules:
    order-preserving filtering, first-occurrence deduplication (the semantics
    of `Array.from(new Set(xs))`) and the sub-list relation. */
module Lists {

  /** No element occurs twice. */
  predicate NoDups<T(==)>(xs: seq<T>) {
    forall i, j :: 0 <= i < j < |xs| ==> xs[i] != xs[j]
  }

  /** `a` can be obtained from `b` by deleting elements (order is kept). */
  predicate IsSubsequence<T(==)>(a: seq<T>, b: seq<T>)
    decreases |b|
  {
    if |a| == 0 then true
    else if |b| == 0 then false
    else (a[0] == b[0] && IsSubsequence(a[1..], b[1..])) || IsSubsequence(a, b[1..])
  }

  /** Number of elements satisfying `p`. */
  function Count<T>(xs: seq<T>, p: T -> bool): nat
    decreases |xs|
  {
    if |xs| == 0 then 0 else (if p(xs[0]) then 1 else 0) + Count(xs[1..], p)
  }

  /** Keeps, in their original order, exactly the elements satisfying `p`
      (JavaScript's `Array.prototype.filter`): every occurrence of such an
      element, duplicates included, since the result has one entry per
      counted element. */
  function Filter<T(==,!new)>(xs: seq<T>, p: T -> bool): (r: seq<T>)
    ensures |r| == Count(xs, p) <= |xs|
    ensures forall x :: x in r <==> x in xs && p(x)
    ensures IsSubsequence(r, xs)
    decreases |xs|
  {
    if |xs| == 0 then []
    else
      var rest := Filter(xs[1..], p);
      if p(xs[0]) then
        assert ([xs[0]] + rest)[1..] == rest;
        [xs[0]] + rest
      else
        rest
  }

  /** Filtering an already filtered list changes nothing. */
  lemma {:induction false} FilterIdempotent<T(!new)>(xs: seq<T>, p: T -> bool)
    ensures Filter(Filter(xs, p), p) == Filter(xs, p)
    decreases |xs|
  {
    if |xs| > 0 {
      FilterIdempotent(xs[1..], p);
      if p(xs[0]) {
        assert ([xs[0]] + Filter(xs[1..], p))[1..] == Filter(xs[1..], p);
      }
    }
  }

  /** A filter whose predicate holds everywhere is the identity. */
  lemma {:induction false} FilterKeepsAll<T(!new)>(xs: seq<T>, p: T -> bool)
    requires forall x :: x in xs ==> p(x)
    ensures Filter(xs, p) == xs
    decreases |xs|
  {
    if |xs| > 0 {
      assert forall x :: x in xs[1..] ==> x in xs;
      FilterKeepsAll(xs[1..], p);
      assert [xs[0]] + xs[1..] == xs;
    }
  }

  /** A filter whose predicate holds nowhere keeps nothing. */
  lemma {:induction false} FilterDropsAll<T(!new)>(xs: seq<T>, p: T -> bool)
    requires forall x :: x in xs ==> !p(x)
    ensures Filter(xs, p) == []
    decreases |xs|
  {
    if |xs| > 0 {
      assert forall x :: x in xs[1..] ==> x in xs;
      FilterDropsAll(xs[1..], p);
    }
  }

  /** Filtering distributes over concatenation. */
  lemma {:induction false} FilterAppend<T(!new)>(xs: seq<T>, ys: seq<T>, p: T -> bool)
    ensures Filter(xs + ys, p) == Filter(xs, p) + Filter(ys, p)
    decreases |xs|
  {
    if |xs| > 0 {
      assert (xs + ys)[1..] == xs[1..] + ys;
      FilterAppend(xs[1..], ys, p);
    } else {
      assert xs + ys == ys;
    }
  }

  /** Counting distributes over concatenation. */
  lemma {:induction false} CountAppend<T>(xs: seq<T>, ys: seq<T>, p: T -> bool)
    ensures Count(xs + ys, p) == Count(xs, p) + Count(ys, p)
    decreases |xs|
  {
    if |xs| == 0 {
      assert xs + ys == ys;
    } else {
      assert (xs + ys)[1..] == xs[1..] + ys;
      CountAppend(xs[1..], ys, p);
    }
  }

  /** The first `n` elements, or all of them when there are fewer
      (JavaScript's `slice(0, n)`). */
  function Take<T>(xs: seq<T>, n: nat): (r: seq<T>)
    ensures |r| == if |xs| < n then |xs| else n
    ensures forall i :: 0 <= i < |r| ==> r[i] == xs[i]
  {
    if |xs| < n then xs else xs[..n]
  }

  /** The position of the first occurrence of `x` in `xs`. */
  function FirstIndex<T(==)>(xs: seq<T>, x: T): (i: nat)
    requires x in xs
    ensures i < |xs| && xs[i] == x
    ensures forall j :: 0 <= j < i ==> xs[j] != x
    decreases |xs|
  {
    if xs[0] == x then 0 else 1 + FirstIndex(xs[1..], x)
  }

  /** Appending an element does not move any first occurrence before it. */
  lemma FirstIndexAppend<T>(xs: seq<T>, x: T)
    ensures forall y :: y in xs ==> FirstIndex(xs + [x], y) == FirstIndex(xs, y)
    ensures x !in xs ==> FirstIndex(xs + [x], x) == |xs|
  {
    forall y | y in xs
      ensures FirstIndex(xs + [x], y) == FirstIndex(xs, y)
    {
      var k, k' := FirstIndex(xs, y), FirstIndex(xs + [x], y);
      assert (xs + [x])[k] == y;
      assert k' <= k;
      assert xs[k'] == (xs + [x])[k'];
    }
  }

  /** Insertion-ordered deduplication: every element once, in the order of
      its first occurrence, so the first occurrence of every element is kept
      and later ones are dropped. */
  function Dedup<T(==,!new)>(xs: seq<T>): (r: seq<T>)
    ensures NoDups(r)
    ensures forall x :: x in r <==> x in xs
    ensures |r| <= |xs|
    ensures forall i, j :: 0 <= i < j < |r| ==> FirstIndex(xs, r[i]) < FirstIndex(xs, r[j])
    decreases |xs|
  {
    if |xs| == 0 then []
    else
      var init := xs[..|xs| - 1];
      var x := xs[|xs| - 1];
      assert xs == init + [x];
      var d := Dedup(init);
      FirstIndexAppend(init, x);
      if x in d then d else d + [x]
  }

  /** Deduplicating a list that has no duplicates returns it unchanged. */
  lemma {:induction false} DedupOfDistinct<T(!new)>(xs: seq<T>)
    requires NoDups(xs)
    ensures Dedup(xs) == xs
    decreases |xs|
  {
    if |xs| > 0 {
      var init := xs[..|xs| - 1];
      assert NoDups(init);
      DedupOfDistinct(init);
      assert xs[|xs| - 1] !in init;
      assert init + [xs[|xs| - 1]] == xs;
    }
  }

  /** Appending an element already present leaves the deduplication alone. */
  lemma DedupAppendSeen<T(!new)>(xs: seq<T>, x: T)
    requires x in xs
    ensures Dedup(xs + [x]) == Dedup(xs)
  {
    assert (xs + [x])[..|xs + [x]| - 1] == xs;
  }

  /** Appending a fresh element puts it last. */
  lemma DedupAppendFresh<T(!new)>(xs: seq<T>, x: T)
    requires x !in xs
    ensures Dedup(xs + [x]) == Dedup(xs) + [x]
  {
    assert (xs + [x])[..|xs + [x]| - 1] == xs;
  }

  /** Every list is a sub-list of itself. */
  lemma {:induction false} SubsequenceOfSelf<T>(xs: seq<T>)
    ensures IsSubsequence(xs, xs)
    decreases |xs|
  {
    if |xs| > 0 {
      SubsequenceOfSelf(xs[1..]);
    }
  }

  /** The list read back to front. */
  function Reverse<T>(xs: seq<T>): (r: seq<T>)
    ensures |r| == |xs|
    ensures forall i :: 0 <= i < |r| ==> r[i] == xs[|xs| - 1 - i]
    ensures multiset(r) == multiset(xs)
    decreases |xs|
  {
    if |xs| == 0 then []
    else
      assert xs == [xs[0]] + xs[1..];
      Reverse(xs[1..]) + [xs[0]]
  }

  /** Equal multisets with equal heads have equal tails. */
  lemma MultisetTail<T>(a: seq<T>, b: seq<T>)
    requires |a| > 0 && |b| > 0 && a[0] == b[0]
    requires multiset(a) == multiset(b)
    ensures multiset(a[1..]) == multiset(b[1..])
  {
    assert a == [a[0]] + a[1..] && b == [b[0]] + b[1..];
    assert multiset(a) == multiset{a[0]} + multiset(a[1..]);
    assert multiset(b) == multiset{b[0]} + multiset(b[1..]);
    assert multiset(a[1..]) == multiset(a) - multiset{a[0]};
    assert multiset(b[1..]) == multiset(b) - multiset{b[0]};
  }
}

=== FILE: market.dfy ===
/** The instrument record shared by every screen (the `Stock` interface of
    src/lib/api.ts) and the symbol lookup `stocks.find(s => s.symbol === x)`
    used by the aggregator and the portfolio page. */
module Market {
  import opened Wrappers

  datatype Exchange = BIST | NASDAQ | CRYPTO
  datatype Currency = TRY | USD

  datatype Stock = Stock(
    symbol: string,
    name: string,
    price: real,
    change: real,
    changePercent: real,
    volume: int,
    exchange: Exchange,
    currency: Currency,
    history: seq<real>,
    open: real,
    prevClose: real,
    dayHigh: real,
    dayLow: real)

  /** The first stock carrying `symbol`, if any (`Array.prototype.find`). */
  function FindStock(stocks: seq<Stock>, symbol: string): (r: Option<Stock>)
    ensures r.None? <==> forall i :: 0 <= i < |stocks| ==> stocks[i].symbol != symbol
    ensures r.Some? ==> r.value.symbol == symbol && r.value in stocks
    ensures forall i :: FirstWith(stocks, symbol, i) ==> r == Some(stocks[i])
    decreases |stocks|
  {
    if |stocks| == 0 then None
    else if stocks[0].symbol == symbol then Some(stocks[0])
    else
      var r := FindStock(stocks[1..], symbol);
      assert forall i :: 1 <= i < |stocks| ==> stocks[i] == stocks[1..][i - 1];
      r
  }

  /** The stock passes the `s.exchange === e` test. */
  function OnExchange(e: Exchange): Stock -> bool {
    (s: Stock) => s.exchange == e
  }

  /** Position `i` holds the first stock carrying `symbol`. */
  predicate FirstWith(stocks: seq<Stock>, symbol: string, i: int) {
    && 0 <= i < |stocks|
    && stocks[i].symbol == symbol
    && forall j :: 0 <= j < i ==> stocks[j].symbol != symbol
  }
}

=== FILE: mock_api.dfy ===
/** The mock market API (src/lib/api.ts): the random-walk generator behind
    every quote, the price-dependent display precision, the history
    generator of the chart and the selection of the search box. Every
    `Math.random()` is a parameter ("draw"); delays, timers and the ticker
    interval are not modelled, and neither is the `toFixed` rounding of the
    displayed fields. */
module MockApi {
  import opened Wrappers
  import opened Lists
  import opened Market

  // ------------------------------------------------------------ precision

  /** `decimalPlaces(price)`: six decimals below one cent, four below one
      unit, two otherwise. */
  function DecimalPlaces(price: real): (d: nat)
    ensures d == 6 <==> price < 0.01
    ensures d == 4 <==> 0.01 <= price < 1.0
    ensures d == 2 <==> price >= 1.0
  {
    if price < 0.01 then 6 else if price < 1.0 then 4 else 2
  }

  /** A dearer instrument never shows more decimals. */
  lemma DecimalPlacesNonIncreasing(p1: real, p2: real)
    requires p1 <= p2
    ensures DecimalPlaces(p1) >= DecimalPlaces(p2)
  {
  }

  // ------------------------------------------------------------ generator

  const MinPrice: real := 0.000001
  const HistoryLength: nat := 20
  const DefaultBasePrice: real := 100.0
  const VolatileSymbols: seq<string> := ["DOGE-USD", "SHIB-USD", "SASA", "XRP-USD", "TSLA", "NVDA", "GME"]
  const HighVolatilityTag: string := "High Volatility"

  /** What the generator reads from its argument. A ticker-table entry has
      a base price; a generated `Stock` has none. */
  datatype Listing = Listing(symbol: string, name: string, basePrice: Option<real>, exchange: Exchange)

  /** The random draws of one generator call, in the order they are taken. */
  datatype Draws = Draws(variation: real, gap: real, high: real, low: real, walk: seq<real>, volume: real)

  predicate WellShaped(d: Draws) { |d.walk| == HistoryLength - 1 }

  predicate Unit(x: real) { 0.0 <= x < 1.0 }

  predicate UnitDraws(d: Draws) {
    && Unit(d.variation) && Unit(d.gap) && Unit(d.high) && Unit(d.low) && Unit(d.volume)
    && forall i :: 0 <= i < |d.walk| ==> Unit(d.walk[i])
  }

  /** `s` occurs in `text` as a contiguous piece (`String.prototype.includes`). */
  predicate Contains(text: string, s: string)
    decreases |text|
  {
    s <= text || (|text| > 0 && Contains(text[1..], s))
  }

  lemma ContainsSelf(s: string)
    ensures Contains(s, s)
  {
  }

  /** `base.basePrice || 100`: a missing or zero base price falls back to 100. */
  function EffectiveBase(l: Listing): (b: real)
    ensures b != 0.0
    ensures l.basePrice.Some? && l.basePrice.value != 0.0 ==> b == l.basePrice.value
    ensures !(l.basePrice.Some? && l.basePrice.value != 0.0) ==> b == DefaultBasePrice
  {
    if l.basePrice.Some? && l.basePrice.value != 0.0 then l.basePrice.value else DefaultBasePrice
  }

  /** The generator's risky names: a fixed symbol list, or "High
      Volatility" in the name. Every symbol the chart treats as risky is
      among them. */
  function IsVolatile(l: Listing): (b: bool)
    ensures Contains(l.name, HighVolatilityTag) ==> b
    ensures l.symbol in HistoryVolatileSymbols ==> b
  {
    l.symbol in VolatileSymbols || Contains(l.name, HighVolatilityTag)
  }

  function MaxReal(a: real, b: real): real { if a >= b then a else b }
  function MinReal(a: real, b: real): real { if a <= b then a else b }

  /** One step of the history walk, floored at the minimum price. */
  function WalkStep(prev: real, draw: real, factor: real): real {
    MaxReal(MinPrice, prev + prev * (draw - 0.5) * factor)
  }

  /** The points after the first: each is one floored step from the one
      before. */
  function Walk(prev: real, draws: seq<real>, factor: real): (h: seq<real>)
    ensures |h| == |draws|
    ensures forall i :: 0 <= i < |h| ==> h[i] >= MinPrice
    decreases |draws|
  {
    if |draws| == 0 then []
    else
      var next := WalkStep(prev, draws[0], factor);
      [next] + Walk(next, draws[1..], factor)
  }

  /** `(Math.random() - 0.5) * volatilityFactor`: a band 15% wide for the
      risky names and 5% wide otherwise, centred on zero. */
  function PercentVariation(draw: real, volatile: bool): (pv: real)
    ensures Unit(draw) ==> -0.075 <= pv < 0.075
    ensures Unit(draw) && !volatile ==> -0.025 <= pv < 0.025
  {
    (draw - 0.5) * (if volatile then 0.15 else 0.05)
  }

  /** `change` is `percent` per cent of `base`. */
  predicate PercentOf(change: real, percent: real, base: real) {
    change * 100.0 == base * percent
  }

  /** The day's move from the base, absolute and in percent. */
  function Move(base: real, draw: real, volatile: bool): (m: (real, real))
    ensures PercentOf(m.0, m.1, base)
    ensures Unit(draw) ==> -7.5 <= m.1 < 7.5
  {
    var pv := PercentVariation(draw, volatile);
    PercentOfBase(base, pv);
    (base * pv, pv * 100.0)
  }

  lemma GapWithin(base: real, draw: real)
    requires base > 0.0 && Unit(draw)
    ensures base * 0.995 <= base + base * (draw - 0.5) * 0.01 < base * 1.005
  {
    var g := (draw - 0.5) * 0.01;
    assert -0.005 <= g < 0.005;
    assert base * (draw - 0.5) * 0.01 == base * g;
    assert base * g >= base * -0.005 by { NonNegative(base, g + 0.005); }
    assert base * g < base * 0.005 by { Positive(base, 0.005 - g); }
  }

  /** The open: the base moved by a gap of at most half a percent. */
  function OpenPrice(base: real, draw: real): (o: real)
    ensures base > 0.0 && Unit(draw) ==> o > 0.0
    ensures base > 0.0 && Unit(draw) ==> base * 0.995 <= o < base * 1.005
  {
    if base > 0.0 && Unit(draw) then
      Positive(base, 1.0 + (draw - 0.5) * 0.01);
      GapWithin(base, draw);
      base + base * (draw - 0.5) * 0.01
    else base + base * (draw - 0.5) * 0.01
  }

  /** The day's high: the largest of price, open and previous close, raised
      by up to 2%. */
  function DayHigh(price: real, open: real, prev: real, draw: real): (h: real)
    ensures price > 0.0 && open > 0.0 && prev > 0.0 && Unit(draw) ==> price <= h && open <= h && prev <= h
  {
    var top := MaxReal(MaxReal(price, open), prev);
    if top > 0.0 && Unit(draw) then Widen(top, draw); top * (1.0 + draw * 0.02)
    else top * (1.0 + draw * 0.02)
  }

  /** The day's low: the smallest of the three, lowered by up to 2%. */
  function DayLow(price: real, open: real, prev: real, draw: real): (l: real)
    ensures price > 0.0 && open > 0.0 && prev > 0.0 && Unit(draw) ==> 0.0 < l <= price && l <= open && l <= prev
  {
    var bottom := MinReal(MinReal(price, open), prev);
    if bottom > 0.0 && Unit(draw) then Narrow(bottom, draw); bottom * (1.0 - draw * 0.02)
    else bottom * (1.0 - draw * 0.02)
  }

  /** `Math.floor(Math.random() * 9000000) + 1000000`. */
  function Volume(draw: real): (v: int)
    ensures Unit(draw) ==> 1000000 <= v <= 9999999
  {
    (draw * 9000000.0).Floor + 1000000
  }

  /** `generateRandomStockData(base)`, without the display rounding. */
  function Generate(l: Listing, d: Draws): (s: Stock)
    requires WellShaped(d)
    ensures s.symbol == l.symbol && s.name == l.name && s.exchange == l.exchange
    ensures s.currency == TRY <==> l.exchange == BIST
    ensures s.prevClose == EffectiveBase(l)
    ensures |s.history| == HistoryLength && s.history[0] == s.price
    ensures forall i :: 0 <= i < |s.history| ==> s.history[i] >= MinPrice
    ensures s.price == MaxReal(MinPrice, s.prevClose + s.change)
    ensures (s.change, s.changePercent) == Move(s.prevClose, d.variation, IsVolatile(l))
    ensures Unit(d.volume) ==> 1000000 <= s.volume <= 9999999
    ensures Unit(d.variation) ==> -7.5 <= s.changePercent < 7.5
    ensures UnitDraws(d) && s.prevClose > 0.0 ==>
      && 0.0 < s.dayLow <= s.price <= s.dayHigh
      && s.dayLow <= s.open <= s.dayHigh
      && s.dayLow <= s.prevClose <= s.dayHigh
  {
    var base := EffectiveBase(l);
    var volatile := IsVolatile(l);
    var (change, changePercent) := Move(base, d.variation, volatile);
    var price := MaxReal(MinPrice, base + change);
    var open := OpenPrice(base, d.gap);
    Stock(l.symbol, l.name, price, change, changePercent, Volume(d.volume),
          l.exchange, if l.exchange == BIST then TRY else USD,
          [price] + Walk(price, d.walk, if volatile then 0.08 else 0.02),
          open, base, DayHigh(price, open, base, d.high), DayLow(price, open, base, d.low))
  }

  /** The absolute change is the percentage change of the previous close. */
  lemma ChangeIsPercentOfClose(l: Listing, d: Draws)
    requires WellShaped(d)
    ensures var s := Generate(l, d); PercentOf(s.change, s.changePercent, s.prevClose)
  {
  }

  lemma PercentOfBase(base: real, pv: real)
    ensures (base * pv) * 100.0 == base * (pv * 100.0)
    ensures -0.075 <= pv < 0.075 ==> -7.5 <= pv * 100.0 < 7.5
  {
  }

  lemma Positive(a: real, b: real)
    requires a > 0.0 && b > 0.0
    ensures a * b > 0.0
  {
  }

  lemma NonNegative(a: real, b: real)
    requires a >= 0.0 && b >= 0.0
    ensures a * b >= 0.0
  {
  }

  lemma Widen(x: real, r: real)
    requires x > 0.0 && Unit(r)
    ensures x <= x * (1.0 + r * 0.02)
  {
  }

  lemma Narrow(x: real, r: real)
    requires x > 0.0 && Unit(r)
    ensures 0.0 < x * (1.0 - r * 0.02) <= x
  {
    Positive(x, 1.0 - r * 0.02);
  }

  /** The price a point of the walk moved from. */
  function Before(prev: real, h: seq<real>, i: int): real
    requires 0 <= i < |h|
  {
    if i == 0 then prev else h[i - 1]
  }

  function Low(x: real, factor: real): real { x * (1.0 - factor / 2.0) }
  function High(x: real, factor: real): real { x * (1.0 + factor / 2.0) }

  /** Each point is within half the factor of the one before it. */
  predicate StepsWithin(prev: real, h: seq<real>, factor: real) {
    forall i :: 0 <= i < |h| ==> Low(Before(prev, h, i), factor) <= h[i] <= High(Before(prev, h, i), factor)
  }

  /** With draws in [0, 1) a walk step moves a price of at least the
      minimum by at most half the factor, either way: the floor never lifts
      a point above that band. */
  lemma {:induction false} WalkStepsBounded(prev: real, draws: seq<real>, factor: real)
    requires prev >= MinPrice && 0.0 <= factor <= 1.0
    requires forall i :: 0 <= i < |draws| ==> Unit(draws[i])
    ensures StepsWithin(prev, Walk(prev, draws, factor), factor)
    decreases |draws|
  {
    if |draws| > 0 {
      var next := WalkStep(prev, draws[0], factor);
      StepBounded(prev, draws[0], factor);
      WalkStepsBounded(next, draws[1..], factor);
      ShiftSteps(prev, next, Walk(next, draws[1..], factor), factor);
    }
  }

  /** A generated history moves at most 1% per point (4% for the risky
      names) from one point to the next. */
  lemma HistoryStepsBounded(l: Listing, d: Draws)
    requires WellShaped(d) && UnitDraws(d)
    ensures var s := Generate(l, d);
            StepsWithin(s.price, s.history[1..], if IsVolatile(l) then 0.08 else 0.02)
  {
    var s := Generate(l, d);
    var factor := if IsVolatile(l) then 0.08 else 0.02;
    WalkStepsBounded(s.price, d.walk, factor);
    assert s.history[1..] == Walk(s.price, d.walk, factor);
  }

  lemma ShiftSteps(prev: real, next: real, t: seq<real>, factor: real)
    requires Low(prev, factor) <= next <= High(prev, factor)
    requires StepsWithin(next, t, factor)
    ensures StepsWithin(prev, [next] + t, factor)
  {
    var h := [next] + t;
    forall i | 0 <= i < |h|
      ensures Low(Before(prev, h, i), factor) <= h[i] <= High(Before(prev, h, i), factor)
    {
      if i > 0 {
        assert h[i] == t[i - 1] && Before(prev, h, i) == Before(next, t, i - 1);
      }
    }
  }

  lemma StepBounded(prev: real, draw: real, factor: real)
    requires prev >= MinPrice && 0.0 <= factor <= 1.0 && Unit(draw)
    ensures Low(prev, factor) <= WalkStep(prev, draw, factor) <= High(prev, factor)
  {
    var m := (draw - 0.5) * factor;
    assert -factor / 2.0 <= m <= factor / 2.0;
    assert prev + prev * (draw - 0.5) * factor == prev * (1.0 + m);
    assert prev * (1.0 + m) <= prev * (1.0 + factor / 2.0) by {
      Scale(prev, 1.0 + m, 1.0 + factor / 2.0);
    }
    assert prev * (1.0 - factor / 2.0) <= prev * (1.0 + m) by {
      Scale(prev, 1.0 - factor / 2.0, 1.0 + m);
    }
    assert MinPrice <= prev * (1.0 + factor / 2.0) by {
      Scale(prev, 1.0, 1.0 + factor / 2.0);
    }
  }

  lemma Scale(p: real, a: real, b: real)
    requires p >= 0.0 && a <= b
    ensures p * a <= p * b
  {
  }

  // ------------------------------------------------------------ the table

  datatype TableEntry = TableEntry(symbol: string, name: string, basePrice: real)

  /** `populateStock`: a ticker-table entry with its exchange, through the
      generator. */
  function Populate(e: TableEntry, exchange: Exchange, d: Draws): (s: Stock)
    requires WellShaped(d)
    ensures s.symbol == e.symbol && s.exchange == exchange
    ensures e.basePrice != 0.0 ==> s.prevClose == e.basePrice
  {
    Generate(Listing(e.symbol, e.name, Some(e.basePrice), exchange), d)
  }

  // -------------------------------------------------------------- refresh

  /** What a refresh hands to the generator as written: the stored `Stock`
      carries no `basePrice`, so the fallback of 100 applies. */
  function AsListingAsWritten(s: Stock): Listing {
    Listing(s.symbol, s.name, None, s.exchange)
  }

  /** The refresh as evidently intended: re-centre on the stock's own
      reference price, its previous close. */
  function AsListing(s: Stock): Listing {
    Listing(s.symbol, s.name, Some(s.prevClose), s.exchange)
  }

  predicate AllWellShaped(draws: seq<Draws>) {
    forall i :: 0 <= i < |draws| ==> WellShaped(draws[i])
  }

  /** `MOCK_STOCKS.map(generateRandomStockData)` as written: every stock is
      regenerated around 100, whatever its own reference price. */
  function RefreshAsWritten(stocks: seq<Stock>, draws: seq<Draws>): (r: seq<Stock>)
    requires |draws| == |stocks| && AllWellShaped(draws)
    ensures |r| == |stocks|
    ensures forall i :: 0 <= i < |r| ==> r[i].symbol == stocks[i].symbol && r[i].exchange == stocks[i].exchange
    ensures forall i :: 0 <= i < |r| ==> r[i].prevClose == DefaultBasePrice
  {
    seq(|stocks|, i requires 0 <= i < |stocks| => Generate(AsListingAsWritten(stocks[i]), draws[i]))
  }

  /** The corrected refresh: every stock keeps its reference price. The
      overview, the ticker and the search below follow the code as written
      and use `RefreshAsWritten`. */
  function Refresh(stocks: seq<Stock>, draws: seq<Draws>): (r: seq<Stock>)
    requires |draws| == |stocks| && AllWellShaped(draws)
    ensures |r| == |stocks|
    ensures forall i :: 0 <= i < |r| ==> r[i].symbol == stocks[i].symbol && r[i].exchange == stocks[i].exchange
    ensures forall i :: 0 <= i < |r| && stocks[i].prevClose != 0.0 ==> r[i].prevClose == stocks[i].prevClose
  {
    seq(|stocks|, i requires 0 <= i < |stocks| => Generate(AsListing(stocks[i]), draws[i]))
  }

  /** `getMarketOverview` and each ticker update, as written: the table in
      order, every stock regenerated with the fallback reference of 100. */
  function GetMarketOverview(table: seq<Stock>, draws: seq<Draws>): (r: seq<Stock>)
    requires |draws| == |table| && AllWellShaped(draws)
    ensures |r| == |table|
    ensures forall i :: 0 <= i < |r| ==> r[i].symbol == table[i].symbol && r[i].exchange == table[i].exchange
    ensures forall i :: 0 <= i < |r| ==> r[i].prevClose == DefaultBasePrice
  {
    RefreshAsWritten(table, draws)
  }

  /** The overview as written agrees with the corrected refresh on a stock
      exactly when that stock's reference price is 100 (or 0, which the
      generator replaces by 100 anyway). */
  lemma OverviewMatchesCorrectedRefresh(table: seq<Stock>, draws: seq<Draws>, i: nat)
    requires |draws| == |table| && AllWellShaped(draws) && i < |table|
    ensures GetMarketOverview(table, draws)[i] == Refresh(table, draws)[i]
            <==> table[i].prevClose == DefaultBasePrice || table[i].prevClose == 0.0
  {
    var s := table[i];
    var asWritten := Generate(AsListingAsWritten(s), draws[i]);
    var corrected := Generate(AsListing(s), draws[i]);
    if s.prevClose == DefaultBasePrice || s.prevClose == 0.0 {
      assert EffectiveBase(AsListing(s)) == EffectiveBase(AsListingAsWritten(s));
      assert IsVolatile(AsListing(s)) == IsVolatile(AsListingAsWritten(s));
      assert asWritten == corrected;
    } else {
      assert corrected.prevClose == s.prevClose != asWritten.prevClose;
    }
  }

  /** As written, every refresh re-centres a stock on 100, whatever it was
      listed at: the reference becomes 100 and the price stays below 107.5. */
  lemma RefreshForgetsBasePrice(s: Stock, d: Draws)
    requires WellShaped(d) && Unit(d.variation)
    ensures var refreshed := Generate(AsListingAsWritten(s), d);
            refreshed.prevClose == 100.0 && refreshed.price < 107.5
  {
    var refreshed := Generate(AsListingAsWritten(s), d);
    ChangeIsPercentOfClose(AsListingAsWritten(s), d);
    PriceNear(refreshed.prevClose, refreshed.change, refreshed.changePercent, refreshed.price);
  }

  /** THYAO is listed at its table base price of 285, so its first refresh
      as written drops it by more than 60%. */
  lemma ThyaoListedAt285(d: Draws)
    requires WellShaped(d)
    ensures Populate(TableEntry("THYAO", "Türk Hava Yolları", 285.0), BIST, d).prevClose == 285.0
  {
  }

  lemma PriceNear(prev: real, change: real, changePercent: real, price: real)
    requires prev == 100.0 && PercentOf(change, changePercent, prev) && changePercent < 7.5
    requires price == MaxReal(MinPrice, prev + change)
    ensures price < 107.5
  {
  }

  /** With the corrected refresh a listed stock keeps its base price as its
      reference however often it is refreshed. */
  lemma {:induction false} RefreshKeepsBasePrice(e: TableEntry, exchange: Exchange, d0: Draws, ds: seq<Draws>)
    requires e.basePrice != 0.0 && WellShaped(d0) && AllWellShaped(ds)
    ensures RefreshedStock(Populate(e, exchange, d0), ds).prevClose == e.basePrice
    decreases |ds|
  {
    if |ds| > 0 {
      RefreshKeepsBasePrice(e, exchange, d0, ds[..|ds| - 1]);
    }
  }

  /** A stock after a run of corrected refreshes, one draw set each. */
  function RefreshedStock(s: Stock, ds: seq<Draws>): (r: Stock)
    requires AllWellShaped(ds)
    ensures r.symbol == s.symbol && r.exchange == s.exchange
    decreases |ds|
  {
    if |ds| == 0 then s
    else Generate(AsListing(RefreshedStock(s, ds[..|ds| - 1])), ds[|ds| - 1])
  }

  // -------------------------------------------------------------- history

  const HistoryVolatileSymbols: seq<string> := ["DOGE-USD", "SASA", "XRP-USD", "TSLA"]

  /** Points per chart range; any other range gets 20. */
  function PointCount(range: string): (n: nat)
    ensures n != 20 <==> range in ["5M", "1H", "1D", "1W", "1M", "1Y", "5Y"]
    ensures 7 <= n <= 60
    ensures range == "5M" ==> n == 10
    ensures range == "1H" ==> n == 24
    ensures range == "1D" ==> n == 48
    ensures range == "1W" ==> n == 7
    ensures range == "1M" ==> n == 30
    ensures range == "1Y" ==> n == 52
    ensures range == "5Y" ==> n == 60
  {
    if range == "5M" then 10
    else if range == "1H" then 24
    else if range == "1D" then 48
    else if range == "1W" then 7
    else if range == "1M" then 30
    else if range == "1Y" then 52
    else if range == "5Y" then 60
    else 20
  }

  /** Per-step volatility of a range before the risk multiplier. */
  function RangeVolatility(range: string): (v: real)
    ensures 0.005 <= v <= 0.4
  {
    if range == "5M" then 0.005
    else if range == "1H" then 0.01
    else if range == "1D" then 0.02
    else if range == "1W" then 0.05
    else if range == "1M" then 0.08
    else if range == "1Y" then 0.2
    else if range == "5Y" then 0.4
    else 0.05
  }

  /** The unfloored random walk of the chart: one point per draw, each
      point the one before it (the start for the first) moved by
      `(draw - 0.5) * volatility` of itself. */
  function Drift(price: real, draws: seq<real>, volatility: real): (h: seq<real>)
    ensures |h| == |draws|
    ensures |h| > 0 ==> h[0] == Step(price, draws[0], volatility)
    ensures forall i :: 0 < i < |h| ==> h[i] == Step(h[i - 1], draws[i], volatility)
    decreases |draws|
  {
    if |draws| == 0 then []
    else
      var next := Step(price, draws[0], volatility);
      [next] + Drift(next, draws[1..], volatility)
  }

  /** One step of the walk: `p` moved by `(draw - 0.5) * volatility` of
      itself. */
  function Step(p: real, draw: real, volatility: real): real {
    p + p * (draw - 0.5) * volatility
  }

  /** `getHistory(symbol, range)`: a walk from the listed stock's previous
      close (100 when unlisted), four times as volatile for the risky
      names. */
  function GetHistory(table: seq<Stock>, symbol: string, range: string, draws: seq<real>): (h: seq<real>)
    requires |draws| == PointCount(range)
    ensures |h| == PointCount(range)
  {
    var stock := FindStock(table, symbol);
    var base := if stock.Some? then stock.value.prevClose else DefaultBasePrice;
    var volatile := symbol in HistoryVolatileSymbols || (stock.Some? && Contains(stock.value.name, HighVolatilityTag));
    Drift(base, draws, RangeVolatility(range) * (if volatile then 4.0 else 1.0))
  }

  /** The chart never crosses zero: from a positive start, each step keeps
      more than a fifth of the price, since the volatility is below 2. */
  lemma {:induction false} DriftPositive(price: real, draws: seq<real>, volatility: real)
    requires price > 0.0 && 0.0 <= volatility <= 1.6
    requires forall i :: 0 <= i < |draws| ==> Unit(draws[i])
    ensures forall i :: 0 <= i < |Drift(price, draws, volatility)| ==> Drift(price, draws, volatility)[i] > 0.0
    decreases |draws|
  {
    if |draws| > 0 {
      var m := (draws[0] - 0.5) * volatility;
      assert m >= -0.5 * volatility by {
        NonNegative(draws[0], volatility);
        assert m == draws[0] * volatility - 0.5 * volatility;
      }
      var next := Step(price, draws[0], volatility);
      assert next == price * (1.0 + m);
      Positive(price, 1.0 + m);
      DriftPositive(next, draws[1..], volatility);
      assert Drift(price, draws, volatility) == [next] + Drift(next, draws[1..], volatility);
    }
  }

  /** For a listed stock with a positive reference price every chart point
      is positive. */
  lemma HistoryPositive(table: seq<Stock>, symbol: string, range: string, draws: seq<real>)
    requires |draws| == PointCount(range)
    requires forall i :: 0 <= i < |draws| ==> Unit(draws[i])
    requires forall s :: s in table ==> s.prevClose > 0.0
    ensures forall i :: 0 <= i < |draws| ==> GetHistory(table, symbol, range, draws)[i] > 0.0
  {
    var stock := FindStock(table, symbol);
    var base := if stock.Some? then stock.value.prevClose else DefaultBasePrice;
    var volatile := symbol in HistoryVolatileSymbols || (stock.Some? && Contains(stock.value.name, HighVolatilityTag));
    DriftPositive(base, draws, RangeVolatility(range) * (if volatile then 4.0 else 1.0));
  }

  // --------------------------------------------------------------- search

  const SampleSize: nat := 5

  function ExchangeRank(e: Exchange): nat {
    match e
    case BIST => 0
    case NASDAQ => 1
    case CRYPTO => 2
  }

  /** The default view: the first five of each exchange, BIST first. */
  function DefaultSample(table: seq<Stock>): seq<Stock> {
    Take(Filter(table, OnExchange(BIST)), SampleSize)
    + Take(Filter(table, OnExchange(NASDAQ)), SampleSize)
    + Take(Filter(table, OnExchange(CRYPTO)), SampleSize)
  }

  /** The lower-cased symbol or name contains the lower-cased query. */
  predicate Matches(s: Stock, lower: string -> string, lowerQuery: string) {
    Contains(lower(s.symbol), lowerQuery) || Contains(lower(s.name), lowerQuery)
  }

  function Matching(lower: string -> string, lowerQuery: string): Stock -> bool {
    (s: Stock) => Matches(s, lower, lowerQuery)
  }

  /** Which table entries `searchStocks(query)` returns, before they are
      regenerated. `lower` is `toLowerCase`. */
  function SearchSelection(table: seq<Stock>, query: string, lower: string -> string): (r: seq<Stock>)
    ensures forall s :: s in r ==> s in table
    ensures |query| > 0 ==> forall s :: s in r <==> s in table && Matches(s, lower, lower(query))
    ensures |query| > 0 ==> IsSubsequence(r, table)
    ensures |query| > 0 ==> |r| == Count(table, Matching(lower, lower(query)))
    ensures |query| == 0 ==> ExchangesInOrder(r)
    ensures |query| == 0 ==> forall e: Exchange :: Filter(r, OnExchange(e)) == Take(Filter(table, OnExchange(e)), SampleSize)
  {
    if |query| == 0 then
      DefaultSampleShape(table);
      DefaultSample(table)
    else Filter(table, Matching(lower, lower(query)))
  }

  /** `searchStocks(query)`: the selection, each entry regenerated around
      the fallback reference of 100, as the overview is. */
  function SearchStocks(table: seq<Stock>, query: string, lower: string -> string, draws: seq<Draws>): (r: seq<Stock>)
    requires |draws| == |SearchSelection(table, query, lower)| && AllWellShaped(draws)
    ensures |r| == |SearchSelection(table, query, lower)|
    ensures forall i :: 0 <= i < |r| ==> r[i].symbol == SearchSelection(table, query, lower)[i].symbol
    ensures forall i :: 0 <= i < |r| ==> r[i].prevClose == DefaultBasePrice
  {
    RefreshAsWritten(SearchSelection(table, query, lower), draws)
  }

  /** Every stock is on one exchange: the default view lists exchanges in
      the order BIST, NASDAQ, CRYPTO. */
  predicate ExchangesInOrder(r: seq<Stock>) {
    forall i, j :: 0 <= i < j < |r| ==> ExchangeRank(r[i].exchange) <= ExchangeRank(r[j].exchange)
  }

  /** The default view lists, for every exchange, exactly the first five
      of its stocks (fewer when it has fewer), BIST first, then NASDAQ,
      then CRYPTO; so it never shows more than fifteen. */
  lemma DefaultSampleShape(table: seq<Stock>)
    ensures ExchangesInOrder(DefaultSample(table))
    ensures forall e: Exchange :: Filter(DefaultSample(table), OnExchange(e)) == Take(Filter(table, OnExchange(e)), SampleSize)
    ensures |DefaultSample(table)| <= 3 * SampleSize
  {
    var a, b, c := Group(table, BIST), Group(table, NASDAQ), Group(table, CRYPTO);
    assert DefaultSample(table) == a + b + c;
    GroupsInOrder(a, b, c);
    forall e: Exchange
      ensures Filter(a + b + c, OnExchange(e)) == Take(Filter(table, OnExchange(e)), SampleSize)
    {
      GroupFilter(a, b, c, e);
    }
  }

  /** Filtering the three groups by one exchange leaves that exchange's
      group. */
  lemma GroupFilter(a: seq<Stock>, b: seq<Stock>, c: seq<Stock>, e: Exchange)
    requires AllOn(a, BIST) && AllOn(b, NASDAQ) && AllOn(c, CRYPTO)
    ensures Filter(a + b + c, OnExchange(e)) == match e case BIST => a case NASDAQ => b case CRYPTO => c
  {
    var p := OnExchange(e);
    FilterAppend(a + b, c, p);
    FilterAppend(a, b, p);
    OffExchange(a, BIST, e);
    OffExchange(b, NASDAQ, e);
    OffExchange(c, CRYPTO, e);
  }

  /** The first five stocks of one exchange. */
  function Group(table: seq<Stock>, e: Exchange): (g: seq<Stock>)
    ensures |g| <= SampleSize
    ensures forall i :: 0 <= i < |g| ==> g[i].exchange == e
  {
    var all := Filter(table, OnExchange(e));
    assert forall i :: 0 <= i < |all| ==> all[i] in all;
    Take(all, SampleSize)
  }

  predicate AllOn(g: seq<Stock>, e: Exchange) {
    forall i :: 0 <= i < |g| ==> g[i].exchange == e
  }

  lemma GroupsInOrder(a: seq<Stock>, b: seq<Stock>, c: seq<Stock>)
    requires AllOn(a, BIST) && AllOn(b, NASDAQ) && AllOn(c, CRYPTO)
    ensures ExchangesInOrder(a + b + c)
  {
    var r := a + b + c;
    forall i | 0 <= i < |r|
      ensures ExchangeRank(r[i].exchange) == if i < |a| then 0 else if i < |a| + |b| then 1 else 2
    {
      if i < |a| { assert r[i] == a[i]; }
      else if i < |a| + |b| { assert r[i] == b[i - |a|]; }
      else { assert r[i] == c[i - |a| - |b|]; }
    }
  }

  /** A group is kept whole by its own exchange's test and dropped by any
      other's. */
  lemma OffExchange(g: seq<Stock>, on: Exchange, e: Exchange)
    requires AllOn(g, on)
    ensures on == e ==> Filter(g, OnExchange(e)) == g
    ensures on != e ==> Filter(g, OnExchange(e)) == []
  {
    if on == e {
      FilterKeepsAll(g, OnExchange(e));
    } else {
      FilterDropsAll(g, OnExchange(e));
    }
  }

  /** Searching for a stock's own symbol, in any case the lower-casing
      folds together, finds it. */
  lemma SymbolSearchFinds(table: seq<Stock>, query: string, lower: string -> string, s: Stock)
    requires |query| > 0 && s in table && lower(s.symbol) == lower(query)
    ensures s in SearchSelection(table, query, lower)
  {
    ContainsSelf(lower(query));
  }
}

=== FILE: portfolio.dfy ===
/** The totals of the portfolio page (src/app/portfolio/page.tsx): market
    value, cost, gain and gain percentage of the store's holdings. Each lot
    is priced with the first listed stock of its symbol; a lot without one
    is worth nothing but still counts at cost. */
module Portfolio {
  import opened Wrappers
  import opened Lists
  import opened Market
  import opened Store

  /** One lot's market value. */
  function LotValue(stocks: seq<Stock>, h: Holding): real {
    var s := FindStock(stocks, h.symbol);
    if s.Some? then s.value.price * h.quantity else 0.0
  }

  function LotCost(h: Holding): real { h.buyPrice * h.quantity }

  /** No lot holds a negative quantity. */
  predicate NonNegativeQuantities(holdings: seq<Holding>) {
    forall i :: 0 <= i < |holdings| ==> holdings[i].quantity >= 0.0
  }

  /** No lot was bought at a negative price. */
  predicate NonNegativeBuyPrices(holdings: seq<Holding>) {
    forall i :: 0 <= i < |holdings| ==> holdings[i].buyPrice >= 0.0
  }

  /** No stock is quoted at a negative price. */
  predicate NonNegativePrices(stocks: seq<Stock>) {
    forall s :: s in stocks ==> s.price >= 0.0
  }

  /** `portfolioValue`: the running sum of lot values, left to right. With
      non-negative prices and quantities it is never negative. */
  function PortfolioValue(stocks: seq<Stock>, holdings: seq<Holding>): (v: real)
    ensures NonNegativeQuantities(holdings) && NonNegativePrices(stocks) ==> v >= 0.0
    decreases |holdings|
  {
    if |holdings| == 0 then 0.0
    else
      var init, last := holdings[..|holdings| - 1], holdings[|holdings| - 1];
      assert NonNegativeQuantities(holdings) ==> NonNegativeQuantities(init);
      LotValueNonNegative(stocks, last);
      PortfolioValue(stocks, init) + LotValue(stocks, last)
  }

  lemma LotValueNonNegative(stocks: seq<Stock>, h: Holding)
    ensures h.quantity >= 0.0 && NonNegativePrices(stocks) ==> LotValue(stocks, h) >= 0.0
  {
    var s := FindStock(stocks, h.symbol);
    if s.Some? && h.quantity >= 0.0 && NonNegativePrices(stocks) {
      assert s.value in stocks;
      ProductNonNegative(s.value.price, h.quantity);
    }
  }

  lemma ProductNonNegative(a: real, b: real)
    requires a >= 0.0 && b >= 0.0
    ensures a * b >= 0.0
  {
  }

  /** `totalCost`: the running sum of lot costs, matched or not. With
      non-negative buy prices and quantities it is never negative. */
  function TotalCost(holdings: seq<Holding>): (c: real)
    ensures NonNegativeQuantities(holdings) && NonNegativeBuyPrices(holdings) ==> c >= 0.0
    decreases |holdings|
  {
    if |holdings| == 0 then 0.0
    else
      var init, last := holdings[..|holdings| - 1], holdings[|holdings| - 1];
      assert forall i :: 0 <= i < |init| ==> init[i] == holdings[i];
      assert last.quantity >= 0.0 && last.buyPrice >= 0.0 ==> last.buyPrice * last.quantity >= 0.0;
      TotalCost(init) + LotCost(last)
  }

  datatype Totals = Totals(value: real, cost: real, gain: real, gainPercent: real)

  /** The four figures the page shows. The percentage is 0 unless the cost
      is positive. */
  function PortfolioTotals(stocks: seq<Stock>, holdings: seq<Holding>): (t: Totals)
    ensures t.value == PortfolioValue(stocks, holdings) && t.cost == TotalCost(holdings)
    ensures t.gain == t.value - t.cost
    ensures t.cost <= 0.0 ==> t.gainPercent == 0.0
    ensures t.cost > 0.0 ==> PercentOfCost(t.gainPercent, t.gain, t.cost)
    ensures t.gainPercent > 0.0 <==> t.cost > 0.0 && t.value > t.cost
    ensures t.gainPercent < 0.0 <==> t.cost > 0.0 && t.value < t.cost
  {
    var value := PortfolioValue(stocks, holdings);
    var cost := TotalCost(holdings);
    var gain := value - cost;
    Totals(value, cost, gain, GainPercent(gain, cost))
  }

  /** `percent` per cent of `cost` is `gain`. */
  predicate PercentOfCost(percent: real, gain: real, cost: real) {
    percent * cost == gain * 100.0
  }

  /** `totalCost > 0 ? (totalGain / totalCost) * 100 : 0`. */
  function GainPercent(gain: real, cost: real): (p: real)
    ensures cost <= 0.0 ==> p == 0.0
    ensures cost > 0.0 ==> PercentOfCost(p, gain, cost)
    ensures p > 0.0 <==> cost > 0.0 && gain > 0.0
    ensures p < 0.0 <==> cost > 0.0 && gain < 0.0
  {
    if cost > 0.0 then gain / cost * 100.0 else 0.0
  }

  /** With no holdings all four figures are zero. */
  lemma EmptyPortfolio(stocks: seq<Stock>)
    ensures PortfolioTotals(stocks, []) == Totals(0.0, 0.0, 0.0, 0.0)
  {
  }

  /** Adding a lot raises the cost by its cost and the value by its market
      value, whatever came before. */
  lemma AddHoldingTotals(st: MarketState, symbol: string, quantity: real, buyPrice: real)
    ensures var after := AddHolding(st, symbol, quantity, buyPrice).holdings;
            && TotalCost(after) == TotalCost(st.holdings) + buyPrice * quantity
            && PortfolioValue(st.stocks, after)
               == PortfolioValue(st.stocks, st.holdings) + LotValue(st.stocks, Holding(symbol, quantity, buyPrice))
  {
    var after := AddHolding(st, symbol, quantity, buyPrice).holdings;
    assert after[..|after| - 1] == st.holdings;
  }

  function Listed(stocks: seq<Stock>): Holding -> bool {
    (h: Holding) => FindStock(stocks, h.symbol).Some?
  }

  /** The value only sees the lots whose symbol is listed: dropping the
      others leaves it unchanged. */
  lemma {:induction false} ValueOfListedLots(stocks: seq<Stock>, holdings: seq<Holding>)
    ensures PortfolioValue(stocks, Filter(holdings, Listed(stocks))) == PortfolioValue(stocks, holdings)
    decreases |holdings|
  {
    if |holdings| > 0 {
      var init, last := holdings[..|holdings| - 1], holdings[|holdings| - 1];
      assert holdings == init + [last];
      ValueOfListedLots(stocks, init);
      FilterAppend(init, [last], Listed(stocks));
      ListedStep(stocks, init, Filter(init, Listed(stocks)), last);
      ValueAppend(stocks, init, last);
    }
  }

  /** One more lot: kept and counted when listed, dropped and worth nothing
      otherwise. */
  lemma ListedStep(stocks: seq<Stock>, init: seq<Holding>, kept: seq<Holding>, last: Holding)
    requires PortfolioValue(stocks, kept) == PortfolioValue(stocks, init)
    ensures PortfolioValue(stocks, kept + Filter([last], Listed(stocks)))
         == PortfolioValue(stocks, init) + LotValue(stocks, last)
  {
    if Listed(stocks)(last) {
      assert Filter([last], Listed(stocks)) == [last];
      ValueAppend(stocks, kept, last);
    } else {
      assert Filter([last], Listed(stocks)) == [];
      assert kept + [] == kept;
      UnlistedLot(stocks, last);
    }
  }

  lemma ValueAppend(stocks: seq<Stock>, xs: seq<Holding>, h: Holding)
    ensures PortfolioValue(stocks, xs + [h]) == PortfolioValue(stocks, xs) + LotValue(stocks, h)
  {
    assert (xs + [h])[..|xs|] == xs;
  }

  lemma UnlistedLot(stocks: seq<Stock>, h: Holding)
    requires FindStock(stocks, h.symbol).None?
    ensures LotValue(stocks, h) == 0.0
  {
  }

  /** A portfolio none of whose symbols is listed is worth nothing, and its
      whole cost shows as a loss. */
  lemma {:induction false} UnlistedLotsAreWorthless(stocks: seq<Stock>, holdings: seq<Holding>)
    requires forall i :: 0 <= i < |holdings| ==> FindStock(stocks, holdings[i].symbol).None?
    ensures PortfolioValue(stocks, holdings) == 0.0
    ensures PortfolioTotals(stocks, holdings).gain == -TotalCost(holdings)
    decreases |holdings|
  {
    if |holdings| > 0 {
      UnlistedLotsAreWorthless(stocks, holdings[..|holdings| - 1]);
    }
  }

  /** The lot is listed at exactly its buying price. */
  predicate AtCost(stocks: seq<Stock>, h: Holding) {
    var s := FindStock(stocks, h.symbol);
    s.Some? && s.value.price == h.buyPrice
  }

  /** When every lot is listed at its buying price the value equals the
      cost and the gain percentage is zero. */
  lemma AtCostNoGain(stocks: seq<Stock>, holdings: seq<Holding>)
    requires forall i :: 0 <= i < |holdings| ==> AtCost(stocks, holdings[i])
    ensures PortfolioTotals(stocks, holdings).gain == 0.0
    ensures PortfolioTotals(stocks, holdings).gainPercent == 0.0
  {
    AtCostValue(stocks, holdings);
  }

  lemma {:induction false} AtCostValue(stocks: seq<Stock>, holdings: seq<Holding>)
    requires forall i :: 0 <= i < |holdings| ==> AtCost(stocks, holdings[i])
    ensures PortfolioValue(stocks, holdings) == TotalCost(holdings)
    decreases |holdings|
  {
    if |holdings| > 0 {
      var init := holdings[..|holdings| - 1];
      assert forall i :: 0 <= i < |init| ==> init[i] == holdings[i];
      AtCostValue(stocks, init);
      LotAtCost(stocks, holdings[|holdings| - 1]);
    }
  }

  lemma LotAtCost(stocks: seq<Stock>, h: Holding)
    requires AtCost(stocks, h)
    ensures LotValue(stocks, h) == LotCost(h)
  {
    var s := FindStock(stocks, h.symbol);
    SamePriceSameValue(s.value.price, h.buyPrice, h.quantity);
  }

  lemma SamePriceSameValue(a: real, b: real, q: real)
    requires a == b
    ensures a * q == b * q
  {
  }
}

=== FILE: risk_card.dfy ===
/** The label of the detective's risk card
    (src/components/detective/RiskScoreCard.tsx): a score is SAFE below 40,
    WARNING from 40 and DANGER from 80. Colours and icons follow the label
    and are not modelled. */
module RiskCard {

  datatype Label = Safe | Warning | Danger

  const WarningFrom: int := 40
  const DangerFrom: int := 80

  /** Severity order of the labels. */
  function Severity(l: Label): nat {
    match l
    case Safe => 0
    case Warning => 1
    case Danger => 2
  }

  /** The card's label: SAFE by default, overridden first by the danger test
      and otherwise by the warning test. */
  function CardLabel(score: int): (l: Label)
    ensures l == Danger <==> score >= DangerFrom
    ensures l == Warning <==> WarningFrom <= score < DangerFrom
    ensures l == Safe <==> score < WarningFrom
  {
    if score >= DangerFrom then Danger
    else if score >= WarningFrom then Warning
    else Safe
  }

  /** A higher score never gets a milder label. */
  lemma LabelMonotone(s1: int, s2: int)
    requires s1 <= s2
    ensures Severity(CardLabel(s1)) <= Severity(CardLabel(s2))
  {
  }

  /** The band edges: 39 and 40, 79 and 80 fall on different sides. */
  lemma LabelBandEdges()
    ensures CardLabel(WarningFrom - 1) == Safe && CardLabel(WarningFrom) == Warning
    ensures CardLabel(DangerFrom - 1) == Warning && CardLabel(DangerFrom) == Danger
  {
  }
}

=== FILE: risk_engine.dfy ===
/** The per-stock risk scorer `analyzeStock` of src/lib/analysisUtils.ts: an
    additive score starting from a base of 20, fed by four rules evaluated in
    a fixed order (RSI, step moves, Bollinger breakout, short-window pump),
    capped at 100, banded into LOW/MEDIUM/HIGH, with the fired hints
    deduplicated in insertion order. */
module RiskEngine {
  import opened Wrappers
  import opened Lists
  import opened Stats

  datatype Hint = RsiHigh | RsiLow | VolatilityExtreme | PumpRisk
  datatype RiskLevel = Low | Medium | High

  /** The source's `AnalysisResult`; the volatility is carried squared
      (see the `Stats` module). */
  datatype Analysis = Analysis(
    riskScore: int,
    riskLevel: RiskLevel,
    hints: seq<Hint>,
    rsi: real,
    volatilitySquared: real)

  const BaseRisk: int := 20
  const MaxRisk: int := 100
  const RsiPeriod: nat := 14
  const RsiCritical: real := 85.0
  const RsiOverbought: real := 70.0
  const RsiOversold: real := 25.0
  const AverageMoveLimit: real := 0.03
  const SingleMoveLimit: real := 0.07
  const BandPeriod: nat := 20
  const BreakoutMargin: real := 1.01
  const PumpFactor: real := 1.20
  const HighCut: int := 75
  const MediumCut: int := 40

  /** Well-formed price series: every price is positive (each step move
      divides by the previous price). */
  predicate PositivePrices(data: seq<real>) {
    forall i :: 0 <= i < |data| ==> data[i] > 0.0
  }

  function Abs(x: real): real { if x < 0.0 then -x else x }

  // ------------------------------------------------------------ the rules

  /** The RSI rule's points: 30 above 85, 15 above 70, none otherwise. */
  function RsiPoints(rsi: real): (p: int)
    ensures p == 30 <==> rsi > RsiCritical
    ensures p == 15 <==> RsiOverbought < rsi <= RsiCritical
    ensures p == 0 <==> rsi <= RsiOverbought
  {
    if rsi > RsiCritical then 30 else if rsi > RsiOverbought then 15 else 0
  }

  /** The hint the RSI rule pushes, if any: "rsi_high" exactly when the
      rule scores, "rsi_low" below 25. */
  function RsiHints(rsi: real): (h: seq<Hint>)
    ensures h == [RsiHigh] <==> RsiPoints(rsi) > 0
    ensures h == [RsiLow] <==> rsi < RsiOversold
    ensures h == [] <==> RsiOversold <= rsi <= RsiOverbought
  {
    if rsi > RsiCritical then [RsiHigh]
    else if rsi > RsiOverbought then [RsiHigh]
    else if rsi < RsiOversold then [RsiLow]
    else []
  }

  /** `m` is the size of the step from `a` to `b` relative to `a`. */
  predicate IsMove(m: real, a: real, b: real) {
    m >= 0.0 && m * a == Abs(b - a)
  }

  /** Relative size of one step, `|(b - a) / a|`. */
  function Move(a: real, b: real): real
    requires a > 0.0
  {
    Abs((b - a) / a)
  }

  /** Relative size of every single step, `|(p[i] - p[i-1]) / p[i-1]|`. */
  function Moves(data: seq<real>): (m: seq<real>)
    requires PositivePrices(data)
    ensures |data| < 2 ==> |m| == 0
    ensures |data| >= 2 ==> |m| == |data| - 1
    ensures forall i :: 0 <= i < |m| ==> m[i] >= 0.0
    ensures forall i {:trigger m[i]} :: 0 <= i < |m| ==> IsMove(m[i], data[i], data[i + 1])
  {
    if |data| < 2 then []
    else
      var m := seq(|data| - 1, i requires 0 <= i < |data| - 1 => Move(data[i], data[i + 1]));
      StepMoves(data, m);
      m
  }

  /** The relative step size times the earlier price is the absolute step. */
  lemma StepMove(a: real, b: real)
    requires a > 0.0
    ensures IsMove(Move(a, b), a, b)
  {
    var q := (b - a) / a;
    assert q * a == b - a;
  }

  lemma StepMoves(data: seq<real>, m: seq<real>)
    requires PositivePrices(data) && |data| >= 2 && |m| == |data| - 1
    requires forall i :: 0 <= i < |m| ==> m[i] == Move(data[i], data[i + 1])
    ensures forall i {:trigger m[i]} :: 0 <= i < |m| ==> IsMove(m[i], data[i], data[i + 1])
  {
    forall i | 0 <= i < |m|
      ensures IsMove(m[i], data[i], data[i + 1])
    {
      StepMove(data[i], data[i + 1]);
    }
  }

  /** The running maximum of the loop, starting from 0. */
  function MaxOrZero(xs: seq<real>): (m: real)
    ensures m >= 0.0
    ensures forall i :: 0 <= i < |xs| ==> xs[i] <= m
    ensures m > 0.0 ==> m in xs
    decreases |xs|
  {
    if |xs| == 0 then 0.0
    else
      var m := MaxOrZero(xs[..|xs| - 1]);
      assert forall i :: 0 <= i < |xs| - 1 ==> xs[i] == xs[..|xs| - 1][i];
      assert xs == xs[..|xs| - 1] + [xs[|xs| - 1]];
      if xs[|xs| - 1] > m then xs[|xs| - 1] else m
  }

  /** The running maximum passes a non-negative limit exactly when some
      element does. */
  lemma MaxOrZeroAbove(xs: seq<real>, limit: real)
    requires limit >= 0.0
    ensures MaxOrZero(xs) > limit <==> exists x :: x in xs && x > limit
  {
    if MaxOrZero(xs) > limit {
      assert MaxOrZero(xs) in xs;
    }
  }

  /** `totalMove / (data.length - 1 || 1)`: a zero divisor falls back to 1
      (and an empty series divides by -1). */
  function AverageMove(data: seq<real>): (a: real)
    requires PositivePrices(data)
    ensures a >= 0.0
    ensures |data| >= 2 ==> a == Mean(Moves(data))
    ensures |data| < 2 ==> a == 0.0
  {
    MeanMove(Moves(data), |data|)
  }

  /** `totalMove / (len - 1 || 1)` over the `len - 1` moves of a series of
      length `len`. */
  function MeanMove(moves: seq<real>, len: int): (a: real)
    requires forall i :: 0 <= i < |moves| ==> moves[i] >= 0.0
    requires len < 2 ==> |moves| == 0
    requires len >= 2 ==> |moves| == len - 1
    ensures a >= 0.0
    ensures len >= 2 ==> a == Mean(moves)
    ensures len < 2 ==> a == 0.0
  {
    var divisor := if len - 1 != 0 then len - 1 else 1;
    MovesTotal(moves);
    Quotient(Sum(moves), divisor)
  }

  /** The moves add up to a non-negative total. */
  lemma MovesTotal(moves: seq<real>)
    requires forall i :: 0 <= i < |moves| ==> moves[i] >= 0.0
    ensures Sum(moves) >= 0.0
  {
    SumBounds(moves, 0.0, MaxOrZero(moves));
  }

  /** `s / n` for a non-zero integer divisor. */
  function Quotient(s: real, n: int): (q: real)
    requires n != 0
    ensures q * (n as real) == s
    ensures s >= 0.0 && n > 0 ==> q >= 0.0
    ensures s == 0.0 ==> q == 0.0
  {
    s / (n as real)
  }

  /** Extreme volatility: the average move is above 3%, or some single move
      is above 7%. */
  function ExtremeVolatility(data: seq<real>): (b: bool)
    requires PositivePrices(data)
    ensures b <==> AverageMove(data) > AverageMoveLimit
                   || exists x :: x in Moves(data) && x > SingleMoveLimit
  {
    MaxOrZeroAbove(Moves(data), SingleMoveLimit);
    AverageMove(data) > AverageMoveLimit || MaxOrZero(Moves(data)) > SingleMoveLimit
  }

  /** The last price exceeds the upper 20-period band by more than 1%,
      measured against the band computed from the root of the variance. */
  function BollingerBreakout(data: seq<real>): (b: bool)
    ensures Bollinger(data, BandPeriod).None? ==> !b
    ensures forall s :: Bollinger(data, BandPeriod).Some? && IsRoot(Bollinger(data, BandPeriod).value.variance, s) ==>
              (b <==> data[|data| - 1] > Upper(Bollinger(data, BandPeriod).value, s) * BreakoutMargin)
  {
    var bb := Bollinger(data, BandPeriod);
    if bb.Some? then
      BreakoutIffRoot(data[|data| - 1], bb.value);
      AboveUpper(data[|data| - 1], bb.value, BreakoutMargin)
    else false
  }

  lemma BreakoutIffRoot(x: real, b: Bands)
    ensures forall s :: IsRoot(b.variance, s) ==>
              (AboveUpper(x, b, BreakoutMargin) <==> x > Upper(b, s) * BreakoutMargin)
  {
    forall s | IsRoot(b.variance, s)
      ensures AboveUpper(x, b, BreakoutMargin) <==> x > Upper(b, s) * BreakoutMargin
    {
      AboveUpperIffRoot(x, b, BreakoutMargin, s);
    }
  }

  /** The last price is more than 20% above `data[len - 5]`, four steps
      back: on positive prices, growth over those four steps above 20%. */
  function PumpPattern(data: seq<real>): (b: bool)
    ensures b ==> |data| > 5
    ensures PositivePrices(data) && |data| > 5 ==> (b <==> data[|data| - 1] / data[|data| - 5] > PumpFactor)
  {
    if |data| > 5 then
      GrowthAbove(data[|data| - 1], data[|data| - 5], PumpFactor);
      data[|data| - 1] > data[|data| - 5] * PumpFactor
    else false
  }

  lemma GrowthAbove(x: real, y: real, f: real)
    ensures y > 0.0 ==> (x > y * f <==> x / y > f)
  {
    if y > 0.0 {
      assert x / y * y == x;
      if x / y > f {
        assert x / y * y > f * y;
      }
    }
  }

  /** The level of a score: HIGH above 75, MEDIUM above 40, LOW otherwise. */
  function Band(score: int): (level: RiskLevel)
    ensures level == High <==> score > HighCut
    ensures level == Medium <==> MediumCut < score <= HighCut
    ensures level == Low <==> score <= MediumCut
  {
    if score > HighCut then High else if score > MediumCut then Medium else Low
  }

  /** The score is capped at 100. */
  function Cap(score: int): (c: int)
    ensures c <= MaxRisk && (c == score || c == MaxRisk)
    ensures c == MaxRisk <==> score >= MaxRisk
  {
    if score < MaxRisk then score else MaxRisk
  }

  /** The hint list `Array.from(new Set(hints))` yields for the four rules. */
  lemma DedupHints(rsiPart: seq<Hint>, vol: bool, bb: bool, pump: bool)
    requires rsiPart == [] || rsiPart == [RsiHigh] || rsiPart == [RsiLow]
    ensures Dedup(rsiPart + (if vol then [VolatilityExtreme] else [])
                  + (if bb then [PumpRisk] else []) + (if pump then [PumpRisk] else []))
         == rsiPart + (if vol then [VolatilityExtreme] else []) + (if bb || pump then [PumpRisk] else [])
  {
    var pre := rsiPart + (if vol then [VolatilityExtreme] else []);
    PrefixDistinct(rsiPart, vol);
    if bb && pump {
      DedupPumpTwice(pre);
    } else if bb || pump {
      assert pre + (if bb then [PumpRisk] else []) + (if pump then [PumpRisk] else []) == pre + [PumpRisk];
      DedupPumpOnce(pre);
    } else {
      assert pre + [] + [] == pre;
      DedupOfDistinct(pre);
    }
  }

  /** The RSI hint and the volatility hint never repeat and are never the
      pump hint. */
  lemma PrefixDistinct(rsiPart: seq<Hint>, vol: bool)
    requires rsiPart == [] || rsiPart == [RsiHigh] || rsiPart == [RsiLow]
    ensures var pre := rsiPart + (if vol then [VolatilityExtreme] else []);
            NoDups(pre) && PumpRisk !in pre
  {
  }

  lemma DedupPumpOnce(pre: seq<Hint>)
    requires NoDups(pre) && PumpRisk !in pre
    ensures Dedup(pre + [PumpRisk]) == pre + [PumpRisk]
  {
    DedupAppendFresh(pre, PumpRisk);
    DedupOfDistinct(pre);
  }

  lemma DedupPumpTwice(pre: seq<Hint>)
    requires NoDups(pre) && PumpRisk !in pre
    ensures Dedup(pre + [PumpRisk] + [PumpRisk]) == pre + [PumpRisk]
  {
    DedupPumpOnce(pre);
    DedupAppendSeen(pre + [PumpRisk], PumpRisk);
  }

  /** The uncapped additive score: base 20, +30/+15 for RSI above 85/70,
      +30 for extreme moves, +25 for a band breakout, +25 for a pump. */
  function RawScore(rsi: real, vol: bool, bb: bool, pump: bool): int {
    BaseRisk + RsiPoints(rsi) + (if vol then 30 else 0) + (if bb then 25 else 0) + (if pump then 25 else 0)
  }

  /** Range and banding of the capped score, for any firing of the rules. */
  lemma ScoreFacts(rsi: real, vol: bool, bb: bool, pump: bool)
    ensures var score := RawScore(rsi, vol, bb, pump);
            && BaseRisk <= Cap(score) <= MaxRisk
            && (Band(score) == High <==> Cap(score) > 75)
            && (Band(score) == Medium <==> 40 < Cap(score) <= 75)
            && (Band(score) == Low <==> Cap(score) <= 40)
  {
  }

  /** The score stays at the base exactly when no rule other than the
      point-free oversold rule fired. */
  lemma QuietIffBase(rsi: real, vol: bool, bb: bool, pump: bool)
    ensures var score := RawScore(rsi, vol, bb, pump);
            var hints := RsiHints(rsi) + (if vol then [VolatilityExtreme] else [])
                         + (if bb || pump then [PumpRisk] else []);
            Cap(score) == BaseRisk <==> forall h :: h in hints ==> h == RsiLow
  {
    var hints := RsiHints(rsi) + (if vol then [VolatilityExtreme] else [])
                 + (if bb || pump then [PumpRisk] else []);
    assert vol ==> VolatilityExtreme in hints;
    assert bb || pump ==> PumpRisk in hints;
    assert rsi > RsiOverbought ==> RsiHigh in hints;
  }

  /** The analysis for a given firing of the four rules. */
  function Assess(rsi: real, vol: bool, bb: bool, pump: bool, volatilitySquared: real): (r: Analysis)
    ensures BaseRisk <= r.riskScore <= MaxRisk
    ensures r.riskLevel == High <==> r.riskScore > 75
    ensures r.riskLevel == Medium <==> 40 < r.riskScore <= 75
    ensures r.riskLevel == Low <==> r.riskScore <= 40
    ensures NoDups(r.hints)
    ensures r.hints == RsiHints(rsi) + (if vol then [VolatilityExtreme] else []) + (if bb || pump then [PumpRisk] else [])
    ensures r.riskScore == BaseRisk <==> forall h :: h in r.hints ==> h == RsiLow
    ensures r.rsi == rsi && r.volatilitySquared == volatilitySquared
  {
    var score := RawScore(rsi, vol, bb, pump);
    QuietIffBase(rsi, vol, bb, pump);
    ScoreFacts(rsi, vol, bb, pump);
    Analysis(Cap(score), Band(score), DistinctHints(rsi, vol, bb, pump), rsi, volatilitySquared)
  }

  /** The hints in firing order, each once (`Array.from(new Set(hints))`). */
  function DistinctHints(rsi: real, vol: bool, bb: bool, pump: bool): (hints: seq<Hint>)
    ensures NoDups(hints)
    ensures hints == RsiHints(rsi) + (if vol then [VolatilityExtreme] else []) + (if bb || pump then [PumpRisk] else [])
  {
    DedupHints(RsiHints(rsi), vol, bb, pump);
    Dedup(RsiHints(rsi)
          + (if vol then [VolatilityExtreme] else [])
          + (if bb then [PumpRisk] else [])
          + (if pump then [PumpRisk] else []))
  }

  /** `analyzeStock(data, volume)`. */
  function AnalyzeStock(data: seq<real>, volume: real): (r: Analysis)
    requires PositivePrices(data)
    ensures BaseRisk <= r.riskScore <= MaxRisk
    ensures r.riskLevel == High <==> r.riskScore > 75
    ensures r.riskLevel == Medium <==> 40 < r.riskScore <= 75
    ensures r.riskLevel == Low <==> r.riskScore <= 40
    ensures NoDups(r.hints)
    ensures r.hints == RsiHints(r.rsi)
                       + (if ExtremeVolatility(data) then [VolatilityExtreme] else [])
                       + (if BollingerBreakout(data) || PumpPattern(data) then [PumpRisk] else [])
    ensures r.riskScore == BaseRisk <==> forall h :: h in r.hints ==> h == RsiLow
    ensures r.rsi == Rsi(data, RsiPeriod) && r.volatilitySquared == VolatilitySquared(data)
  {
    Assess(Rsi(data, RsiPeriod), ExtremeVolatility(data), BollingerBreakout(data), PumpPattern(data),
           VolatilitySquared(data))
  }

  /** The score `AnalyzeStock` reports, spelled out rule by rule. */
  lemma ScoreOf(data: seq<real>, volume: real)
    requires PositivePrices(data)
    ensures AnalyzeStock(data, volume).riskScore
         == Cap(RawScore(Rsi(data, RsiPeriod), ExtremeVolatility(data), BollingerBreakout(data), PumpPattern(data)))
  {
  }

  /** Banding the uncapped score or the capped one gives the same level. */
  lemma BandIgnoresCap(score: int)
    ensures Band(Cap(score)) == Band(score)
  {
  }

  /** The volume argument plays no part in the analysis. */
  lemma VolumeIgnored(data: seq<real>, v1: real, v2: real)
    requires PositivePrices(data)
    ensures AnalyzeStock(data, v1) == AnalyzeStock(data, v2)
  {
  }

  /** A series of fewer than two points scores the base risk with no hints. */
  lemma ShortSeriesScoresBase(data: seq<real>, volume: real)
    requires PositivePrices(data) && |data| < 2
    ensures AnalyzeStock(data, volume).riskScore == BaseRisk
    ensures AnalyzeStock(data, volume).hints == []
    ensures AnalyzeStock(data, volume).riskLevel == Low
  {
    assert Moves(data) == [];
  }

  /** A flat positive series has no step moves, no breakout and no pump. */
  lemma FlatSeriesIsQuiet(data: seq<real>, c: real)
    requires c > 0.0 && forall i :: 0 <= i < |data| ==> data[i] == c
    ensures !ExtremeVolatility(data) && !BollingerBreakout(data) && !PumpPattern(data)
    ensures VolatilitySquared(data) == 0.0
  {
    FlatHasNoMoves(data, c);
    FlatHasNoBreakout(data, c);
    if |data| >= 2 {
      VarianceOfConstant(data, c);
    }
  }

  lemma FlatHasNoMoves(data: seq<real>, c: real)
    requires c > 0.0 && forall i :: 0 <= i < |data| ==> data[i] == c
    ensures !ExtremeVolatility(data)
  {
    FlatMovesAreZero(data, c);
    ZeroMovesAreQuiet(data);
  }

  lemma ZeroMovesAreQuiet(data: seq<real>)
    requires PositivePrices(data)
    requires forall i :: 0 <= i < |Moves(data)| ==> Moves(data)[i] == 0.0
    ensures !ExtremeVolatility(data)
  {
    var m := Moves(data);
    SumConstant(m, 0.0);
    assert Sum(m) == 0.0;
    MaxOrZeroOfZeros(m);
    NoMoveNoAverage(data);
  }

  lemma NoMoveNoAverage(data: seq<real>)
    requires PositivePrices(data) && Sum(Moves(data)) == 0.0
    ensures AverageMove(data) == 0.0
  {
    var divisor := if |data| - 1 != 0 then |data| - 1 else 1;
    ZeroOver(divisor as real);
  }

  lemma ZeroOver(n: real)
    requires n != 0.0
    ensures 0.0 / n == 0.0
  {
  }

  lemma FlatMovesAreZero(data: seq<real>, c: real)
    requires c > 0.0 && forall i :: 0 <= i < |data| ==> data[i] == c
    ensures forall i :: 0 <= i < |Moves(data)| ==> Moves(data)[i] == 0.0
  {
    var m := Moves(data);
    forall i | 0 <= i < |m|
      ensures m[i] == 0.0
    {
      assert data[i + 1] - data[i] == 0.0;
      assert m[i] == Abs(0.0 / data[i]);
    }
  }

  lemma FlatHasNoBreakout(data: seq<real>, c: real)
    requires c > 0.0 && forall i :: 0 <= i < |data| ==> data[i] == c
    ensures !BollingerBreakout(data)
  {
    if |data| >= BandPeriod {
      var w := Window(data, BandPeriod);
      MeanConstant(w, c);
      var bb := Bollinger(data, BandPeriod).value;
      assert bb.middle == c;
      assert data[|data| - 1] / BreakoutMargin < c;
    }
  }

  lemma {:induction false} MaxOrZeroOfZeros(xs: seq<real>)
    requires forall i :: 0 <= i < |xs| ==> xs[i] == 0.0
    ensures MaxOrZero(xs) == 0.0
    decreases |xs|
  {
    if |xs| > 0 {
      MaxOrZeroOfZeros(xs[..|xs| - 1]);
    }
  }

  /** A short flat series (too short for an RSI reading) fires no rule:
      the `[50, 50, 50, 50, 50]` example scores the base risk only. */
  lemma ShortFlatSeriesScoresBase(data: seq<real>, c: real, volume: real)
    requires c > 0.0 && forall i :: 0 <= i < |data| ==> data[i] == c
    requires |data| < RsiPeriod + 1
    ensures AnalyzeStock(data, volume).riskScore == BaseRisk
    ensures AnalyzeStock(data, volume).hints == []
    ensures AnalyzeStock(data, volume).volatilitySquared == 0.0
  {
    FlatSeriesIsQuiet(data, c);
  }

  /** A flat series long enough for an RSI reading has no losses, so its
      RSI is 100 and it is flagged `rsi_high` (score 20 + 30). */
  lemma LongFlatSeriesReadsOverbought(data: seq<real>, c: real, volume: real)
    requires c > 0.0 && forall i :: 0 <= i < |data| ==> data[i] == c
    requires |data| >= RsiPeriod + 1
    ensures AnalyzeStock(data, volume).rsi == 100.0
    ensures AnalyzeStock(data, volume).riskScore == 50
    ensures AnalyzeStock(data, volume).riskLevel == Medium
  {
    FlatSeriesIsQuiet(data, c);
    FlatRsiIsFull(data, c);
    ScoreOf(data, volume);
  }

  /** ... and `rsi_high` is the only hint it raises. */
  lemma LongFlatSeriesHints(data: seq<real>, c: real, volume: real)
    requires c > 0.0 && forall i :: 0 <= i < |data| ==> data[i] == c
    requires |data| >= RsiPeriod + 1
    ensures AnalyzeStock(data, volume).hints == [RsiHigh]
  {
    FlatSeriesIsQuiet(data, c);
    FlatRsiIsFull(data, c);
    QuietSeriesHints(data, volume);
    assert RsiHints(100.0) == [RsiHigh];
  }

  /** When none of the price rules fire, only the RSI rule can add a hint. */
  lemma QuietSeriesHints(data: seq<real>, volume: real)
    requires PositivePrices(data)
    requires !ExtremeVolatility(data) && !BollingerBreakout(data) && !PumpPattern(data)
    ensures AnalyzeStock(data, volume).hints == RsiHints(Rsi(data, RsiPeriod))
  {
    assert RsiHints(Rsi(data, RsiPeriod)) + [] + [] == RsiHints(Rsi(data, RsiPeriod));
  }

  lemma FlatRsiIsFull(data: seq<real>, c: real)
    requires forall i :: 0 <= i < |data| ==> data[i] == c
    requires |data| >= RsiPeriod + 1
    ensures Rsi(data, RsiPeriod) == 100.0
  {
    assert NoRecentFall(data, RsiPeriod);
  }

  /** The end-to-end example `[100, 102, 104, 106, 108, 130]`: the last step
      (+20.4%) trips the step-move rule and the pump rule, RSI and the bands
      have too little data, so the score is 20 + 30 + 25. */
  lemma PumpExample(volume: real)
    ensures AnalyzeStock([100.0, 102.0, 104.0, 106.0, 108.0, 130.0], volume)
         == Analysis(75, Medium, [VolatilityExtreme, PumpRisk], 50.0,
                     VolatilitySquared([100.0, 102.0, 104.0, 106.0, 108.0, 130.0]))
  {
    var d := [100.0, 102.0, 104.0, 106.0, 108.0, 130.0];
    PumpExampleRules(d);
    VolatileAndPumped(VolatilitySquared(d));
  }

  /** Extreme moves and a pump at a neutral RSI: 20 + 30 + 25, MEDIUM. */
  lemma VolatileAndPumped(v: real)
    ensures Assess(50.0, true, false, true, v) == Analysis(75, Medium, [VolatilityExtreme, PumpRisk], 50.0, v)
  {
    assert RsiHints(50.0) == [];
    assert [] + [VolatilityExtreme] + [PumpRisk] == [VolatilityExtreme, PumpRisk];
  }

  lemma PumpExampleRules(d: seq<real>)
    requires d == [100.0, 102.0, 104.0, 106.0, 108.0, 130.0]
    ensures PositivePrices(d)
    ensures ExtremeVolatility(d) && PumpPattern(d) && !BollingerBreakout(d)
    ensures Rsi(d, RsiPeriod) == 50.0
  {
    var m := Moves(d);
    assert m[4] == 22.0 / 108.0;
    assert MaxOrZero(m) > SingleMoveLimit;
  }
}

=== FILE: scanner.dfy ===
/** The market scanner of src/hooks/useMarketAnalysis.ts: an exchange filter,
    one risk analysis and one trend reading per surviving stock, and a sort
    of the rows by one of four keys in either direction, together with the
    `handleSort` toggle of the sort configuration.

    `Array.prototype.sort` is stable; it is modelled as a stable insertion
    sort driven by the same three-way comparator. */
module Scanner {
  import opened Lists
  import opened Market
  import RiskEngine
  import Trend

  // ------------------------------------------------------------ selection

  datatype Selection = All | Only(exchange: Exchange)

  /** `'ALL'` keeps every stock; an exchange keeps exactly its stocks, in
      input order. */
  function SelectExchange(stocks: seq<Stock>, sel: Selection): (r: seq<Stock>)
    ensures sel.All? ==> r == stocks
    ensures sel.Only? ==> forall s :: s in r <==> s in stocks && s.exchange == sel.exchange
    ensures IsSubsequence(r, stocks)
    ensures sel.Only? ==> |r| == Count(stocks, OnExchange(sel.exchange))
  {
    if sel.All? then
      SubsequenceOfSelf(stocks);
      stocks
    else Filter(stocks, OnExchange(sel.exchange))
  }

  // ------------------------------------------------------------- analysis

  /** A stock decorated with its analysis and trend reading. */
  datatype Row = Row(stock: Stock, analysis: RiskEngine.Analysis, trend: Trend.Direction, confidence: int)

  /** Every price history is positive, so every step move is defined. */
  predicate Analysable(stocks: seq<Stock>) {
    forall s :: s in stocks ==> RiskEngine.PositivePrices(s.history)
  }

  /** The row invariants the scanner relies on. */
  predicate WellFormedRow(r: Row) {
    && RiskEngine.BaseRisk <= r.analysis.riskScore <= RiskEngine.MaxRisk
    && 0 <= r.confidence <= Trend.ConfidenceCap
  }

  function AnalyzeRow(s: Stock): (r: Row)
    requires RiskEngine.PositivePrices(s.history)
    ensures r.stock == s && WellFormedRow(r)
    ensures r.trend == Trend.Bullish <==> |s.history| < 2 || s.history[|s.history| - 1] > s.history[0]
    ensures r.analysis == RiskEngine.AnalyzeStock(s.history, s.volume as real)
    ensures r.confidence == Trend.CalculateTrend(s.history, Wrappers.Some(s.symbol)).confidence
  {
    var reading := Trend.CalculateTrend(s.history, Wrappers.Some(s.symbol));
    Row(s, RiskEngine.AnalyzeStock(s.history, s.volume as real), reading.trend, reading.confidence)
  }

  /** `analyzedMarket`: one well-formed row per selected stock, in order. */
  function AnalyzedMarket(stocks: seq<Stock>, sel: Selection): (rows: seq<Row>)
    requires Analysable(stocks)
    ensures |rows| == |SelectExchange(stocks, sel)|
    ensures forall i :: 0 <= i < |rows| ==> rows[i].stock == SelectExchange(stocks, sel)[i]
    ensures forall i :: 0 <= i < |rows| ==> WellFormedRow(rows[i])
    ensures forall i :: 0 <= i < |rows| ==> rows[i] == AnalyzeRow(SelectExchange(stocks, sel)[i])
  {
    var selected := SelectExchange(stocks, sel);
    seq(|selected|, i requires 0 <= i < |selected| => AnalyzeRow(selected[i]))
  }

  // ----------------------------------------------------------------- keys

  datatype SortKey = SymbolKey | PriceKey | RiskScoreKey | TrendKey
  datatype SortDirection = Asc | Desc
  datatype SortConfig = SortConfig(key: SortKey, direction: SortDirection)

  /** The configuration the scanner starts with. */
  const InitialSort: SortConfig := SortConfig(RiskScoreKey, Desc)

  /** A comparable key: the symbol key is a string, the others numbers. */
  datatype KeyVal = Num(n: real) | Str(s: string)

  /** The trend composite: Bullish weighs 1000, plus the confidence. */
  function TrendScore(r: Row): int {
    (if r.trend == Trend.Bullish then 1 else 0) * 1000 + r.confidence
  }

  function KeyOf(r: Row, key: SortKey): KeyVal {
    match key
    case SymbolKey => Str(r.stock.symbol)
    case PriceKey => Num(r.stock.price)
    case RiskScoreKey => Num(r.analysis.riskScore as real)
    case TrendKey => Num(TrendScore(r) as real)
  }

  /** JavaScript's `<` on strings: lexicographic order on characters, a
      proper prefix coming first. Dafny characters are Unicode scalar values
      where JavaScript compares UTF-16 code units; the two orders agree on
      the Basic Multilingual Plane. */
  predicate StrLess(a: string, b: string)
    decreases |a|
  {
    if |a| == 0 then |b| > 0
    else if |b| == 0 then false
    else if a[0] == b[0] then StrLess(a[1..], b[1..])
    else a[0] < b[0]
  }

  lemma {:induction false} StrLessIrreflexive(a: string)
    ensures !StrLess(a, a)
    decreases |a|
  {
    if |a| > 0 {
      StrLessIrreflexive(a[1..]);
    }
  }

  lemma {:induction false} StrLessTransitive(a: string, b: string, c: string)
    requires StrLess(a, b) && StrLess(b, c)
    ensures StrLess(a, c)
    decreases |a|
  {
    if |a| > 0 && |b| > 0 && |c| > 0 && a[0] == b[0] && b[0] == c[0] {
      StrLessTransitive(a[1..], b[1..], c[1..]);
    }
  }

  lemma {:induction false} StrLessTotal(a: string, b: string)
    ensures a == b || StrLess(a, b) || StrLess(b, a)
    decreases |a|
  {
    if |a| > 0 && |b| > 0 && a[0] == b[0] {
      StrLessTotal(a[1..], b[1..]);
      if a[1..] == b[1..] {
        assert a == [a[0]] + a[1..] && b == [b[0]] + b[1..];
      }
    }
  }

  /** A strict total order on keys. A key always yields values of one kind,
      so the cross-kind case (numbers first) never decides a comparison. */
  predicate KeyLess(a: KeyVal, b: KeyVal) {
    match (a, b)
    case (Num(x), Num(y)) => x < y
    case (Str(x), Str(y)) => StrLess(x, y)
    case (Num(_), Str(_)) => true
    case (Str(_), Num(_)) => false
  }

  lemma KeyLessIrreflexive(a: KeyVal)
    ensures !KeyLess(a, a)
  {
    if a.Str? {
      StrLessIrreflexive(a.s);
    }
  }

  lemma KeyLessTransitive(a: KeyVal, b: KeyVal, c: KeyVal)
    requires KeyLess(a, b) && KeyLess(b, c)
    ensures KeyLess(a, c)
  {
    if a.Str? && b.Str? && c.Str? {
      StrLessTransitive(a.s, b.s, c.s);
    }
  }

  lemma KeyLessTotal(a: KeyVal, b: KeyVal)
    ensures a == b || KeyLess(a, b) || KeyLess(b, a)
  {
    if a.Str? && b.Str? {
      StrLessTotal(a.s, b.s);
    }
  }

  /** Neither key below the other means the keys are equal. */
  lemma KeyLessTrichotomy(a: KeyVal, b: KeyVal)
    ensures !KeyLess(a, b) && !KeyLess(b, a) <==> a == b
  {
    KeyLessTotal(a, b);
    KeyLessIrreflexive(a);
  }

  // ----------------------------------------------------------- comparator

  /** `a` belongs strictly before `b` in the given direction. */
  predicate Precedes(a: KeyVal, b: KeyVal, dir: SortDirection) {
    if dir == Asc then KeyLess(a, b) else KeyLess(b, a)
  }

  /** The comparator handed to `sort`: -1, 1 or 0 by the selected key,
      flipped for a descending sort. */
  function Compare(a: Row, b: Row, cfg: SortConfig): (c: int)
    ensures c == -1 || c == 0 || c == 1
    ensures c == 0 <==> KeyOf(a, cfg.key) == KeyOf(b, cfg.key)
    ensures c < 0 <==> Precedes(KeyOf(a, cfg.key), KeyOf(b, cfg.key), cfg.direction)
    ensures c > 0 <==> Precedes(KeyOf(b, cfg.key), KeyOf(a, cfg.key), cfg.direction)
  {
    var ka, kb := KeyOf(a, cfg.key), KeyOf(b, cfg.key);
    KeyLessTrichotomy(ka, kb);
    KeyLessIrreflexive(ka);
    assert KeyLess(ka, kb) ==> !KeyLess(kb, ka) by {
      if KeyLess(ka, kb) && KeyLess(kb, ka) {
        KeyLessTransitive(ka, kb, ka);
      }
    }
    if KeyLess(ka, kb) then (if cfg.direction == Asc then -1 else 1)
    else if KeyLess(kb, ka) then (if cfg.direction == Asc then 1 else -1)
    else 0
  }

  /** Swapping the arguments negates the comparison. */
  lemma CompareAntisymmetric(a: Row, b: Row, cfg: SortConfig)
    ensures Compare(b, a, cfg) == -Compare(a, b, cfg)
  {
    var ka, kb := KeyOf(a, cfg.key), KeyOf(b, cfg.key);
    if KeyLess(ka, kb) && KeyLess(kb, ka) {
      KeyLessTransitive(ka, kb, ka);
      KeyLessIrreflexive(ka);
    }
  }

  /** "Not after" is transitive. */
  lemma CompareTransitive(a: Row, b: Row, c: Row, cfg: SortConfig)
    requires Compare(a, b, cfg) <= 0 && Compare(b, c, cfg) <= 0
    ensures Compare(a, c, cfg) <= 0
  {
    var ka, kb, kc := KeyOf(a, cfg.key), KeyOf(b, cfg.key), KeyOf(c, cfg.key);
    KeyLessTotal(ka, kb);
    KeyLessTotal(kb, kc);
    if cfg.direction == Asc {
      if KeyLess(kc, ka) && KeyLess(ka, kb) {
        KeyLessTransitive(kc, ka, kb);
      }
    } else {
      if KeyLess(ka, kc) && KeyLess(kc, kb) {
        KeyLessTransitive(ka, kc, kb);
      }
    }
  }

  // ----------------------------------------------------------------- sort

  predicate AdjacentOrdered(xs: seq<Row>, cfg: SortConfig) {
    forall i :: 0 <= i < |xs| - 1 ==> Compare(xs[i], xs[i + 1], cfg) <= 0
  }

  /** No element compares after a later one. */
  predicate Sorted(xs: seq<Row>, cfg: SortConfig) {
    forall i, j :: 0 <= i < j < |xs| ==> Compare(xs[i], xs[j], cfg) <= 0
  }

  /** Inserts `x` after every element that does not compare after it. */
  function Insert(s: seq<Row>, x: Row, cfg: SortConfig): (r: seq<Row>)
    ensures |r| == |s| + 1
    ensures multiset(r) == multiset(s) + multiset{x}
    decreases |s|
  {
    if |s| == 0 || Compare(x, s[|s| - 1], cfg) >= 0 then s + [x]
    else
      var init, last := s[..|s| - 1], s[|s| - 1];
      assert s == init + [last];
      Insert(init, x, cfg) + [last]
  }

  /** Inserting into an ordered list keeps it ordered; the new last element
      is `x` or the old last one. */
  lemma {:induction false} InsertOrdered(s: seq<Row>, x: Row, cfg: SortConfig)
    requires AdjacentOrdered(s, cfg)
    ensures AdjacentOrdered(Insert(s, x, cfg), cfg)
    ensures var r := Insert(s, x, cfg);
            r[|r| - 1] == x || (|s| > 0 && r[|r| - 1] == s[|s| - 1])
    decreases |s|
  {
    if |s| > 0 {
      var last := s[|s| - 1];
      if Compare(x, last, cfg) >= 0 {
        CompareAntisymmetric(x, last, cfg);
        AppendOrdered(s, x, cfg);
      } else {
        var init := s[..|s| - 1];
        assert s == init + [last];
        assert AdjacentOrdered(init, cfg);
        InsertOrdered(init, x, cfg);
        var r0 := Insert(init, x, cfg);
        assert Compare(r0[|r0| - 1], last, cfg) <= 0 by {
          if r0[|r0| - 1] != x {
            assert r0[|r0| - 1] == init[|init| - 1] == s[|s| - 2];
          }
        }
        AppendOrdered(r0, last, cfg);
      }
    }
  }

  /** An element not before the last one extends an ordered list. */
  lemma AppendOrdered(r: seq<Row>, y: Row, cfg: SortConfig)
    requires AdjacentOrdered(r, cfg)
    requires |r| > 0 ==> Compare(r[|r| - 1], y, cfg) <= 0
    ensures AdjacentOrdered(r + [y], cfg)
  {
  }

  /** The sorted rows (`[...analyzedMarket].sort(cmp)`). */
  function SortRows(xs: seq<Row>, cfg: SortConfig): (r: seq<Row>)
    ensures |r| == |xs|
    ensures multiset(r) == multiset(xs)
    ensures AdjacentOrdered(r, cfg)
    decreases |xs|
  {
    if |xs| == 0 then []
    else
      var init := xs[..|xs| - 1];
      assert xs == init + [xs[|xs| - 1]];
      InsertOrdered(SortRows(init, cfg), xs[|xs| - 1], cfg);
      Insert(SortRows(init, cfg), xs[|xs| - 1], cfg)
  }

  /** Adjacent order extends to every pair. */
  lemma {:induction false} AdjacentIsSorted(xs: seq<Row>, cfg: SortConfig)
    requires AdjacentOrdered(xs, cfg)
    ensures Sorted(xs, cfg)
    decreases |xs|
  {
    if |xs| > 1 {
      var tail := xs[1..];
      assert AdjacentOrdered(tail, cfg);
      AdjacentIsSorted(tail, cfg);
      forall j | 1 <= j < |xs|
        ensures Compare(xs[0], xs[j], cfg) <= 0
      {
        if j > 1 {
          assert Compare(xs[1], xs[j], cfg) <= 0 by {
            assert xs[1] == tail[0] && xs[j] == tail[j - 1];
          }
          CompareTransitive(xs[0], xs[1], xs[j], cfg);
        }
      }
    }
  }

  /** The scanner's output is a sorted permutation of its input. */
  lemma SortRowsSorted(xs: seq<Row>, cfg: SortConfig)
    ensures Sorted(SortRows(xs, cfg), cfg)
    ensures multiset(SortRows(xs, cfg)) == multiset(xs)
  {
    AdjacentIsSorted(SortRows(xs, cfg), cfg);
  }

  // ------------------------------------------------------------ stability

  function SameKey(key: SortKey, k: KeyVal): Row -> bool {
    (r: Row) => KeyOf(r, key) == k
  }

  lemma {:induction false} FilterInsert(s: seq<Row>, x: Row, cfg: SortConfig, k: KeyVal)
    ensures Filter(Insert(s, x, cfg), SameKey(cfg.key, k))
         == Filter(s, SameKey(cfg.key, k)) + Filter([x], SameKey(cfg.key, k))
    decreases |s|
  {
    var p := SameKey(cfg.key, k);
    if |s| == 0 {
    } else if Compare(x, s[|s| - 1], cfg) >= 0 {
      FilterAppend(s, [x], p);
    } else {
      var init, last := s[..|s| - 1], s[|s| - 1];
      assert s == init + [last];
      assert Insert(s, x, cfg) == Insert(init, x, cfg) + [last];
      FilterInsert(init, x, cfg, k);
      FilterAppend(Insert(init, x, cfg), [last], p);
      FilterAppend(init, [last], p);
      SwapSingletons(Filter(init, p), x, last, p);
    }
  }

  /** Two rows with different keys can trade places under a key filter. */
  lemma SwapSingletons(prefix: seq<Row>, x: Row, y: Row, p: Row -> bool)
    requires !(p(x) && p(y))
    ensures prefix + Filter([x], p) + Filter([y], p) == prefix + Filter([y], p) + Filter([x], p)
  {
    if p(x) {
      assert Filter([y], p) == [];
    } else {
      assert Filter([x], p) == [];
    }
  }

  /** Stability: the rows sharing any one key value come out in their input
      order, because the comparator reports 0 for them. */
  lemma {:induction false} SortStable(xs: seq<Row>, cfg: SortConfig, k: KeyVal)
    ensures Filter(SortRows(xs, cfg), SameKey(cfg.key, k)) == Filter(xs, SameKey(cfg.key, k))
    decreases |xs|
  {
    if |xs| > 0 {
      var init, x := xs[..|xs| - 1], xs[|xs| - 1];
      assert xs == init + [x];
      SortStable(init, cfg, k);
      FilterInsert(SortRows(init, cfg), x, cfg, k);
      FilterAppend(init, [x], SameKey(cfg.key, k));
    }
  }

  // ------------------------------------------------------- two directions

  /** Ascending by the key with no later row below an earlier one. */
  predicate AscendingBy(xs: seq<Row>, key: SortKey) {
    forall i, j :: 0 <= i < j < |xs| ==> !KeyLess(KeyOf(xs[j], key), KeyOf(xs[i], key))
  }

  /** Distinct rows never share a key value. */
  predicate NoTies(xs: seq<Row>, key: SortKey) {
    forall a, b :: a in xs && b in xs && KeyOf(a, key) == KeyOf(b, key) ==> a == b
  }

  /** Two ascending arrangements of the same rows coincide when no two
      distinct rows tie. */
  lemma {:induction false} AscendingUnique(a: seq<Row>, b: seq<Row>, key: SortKey)
    requires multiset(a) == multiset(b)
    requires AscendingBy(a, key) && AscendingBy(b, key)
    requires NoTies(a, key)
    ensures a == b
    decreases |a|
  {
    assert |b| == |multiset(b)| == |a|;
    if |a| > 0 {
      AscendingHeads(a, b, key);
      MultisetTail(a, b);
      assert forall r :: r in a[1..] ==> r in a;
      AscendingUnique(a[1..], b[1..], key);
    }
  }

  /** Both arrangements start with the same row: each head is not above the
      other, so they tie, and tied rows are equal. */
  lemma AscendingHeads(a: seq<Row>, b: seq<Row>, key: SortKey)
    requires |a| > 0 && multiset(a) == multiset(b)
    requires AscendingBy(a, key) && AscendingBy(b, key)
    requires NoTies(a, key)
    ensures |b| > 0 && a[0] == b[0]
  {
    assert a[0] in multiset(b) && |b| > 0;
    assert b[0] in multiset(a);
    var j :| 0 <= j < |b| && b[j] == a[0];
    var i :| 0 <= i < |a| && a[i] == b[0];
    var ka, kb := KeyOf(a[0], key), KeyOf(b[0], key);
    KeyLessIrreflexive(ka);
    KeyLessIrreflexive(kb);
    assert !KeyLess(kb, ka) by {
      if i > 0 {
        assert !KeyLess(KeyOf(a[i], key), KeyOf(a[0], key));
      }
    }
    assert !KeyLess(ka, kb) by {
      if j > 0 {
        assert !KeyLess(KeyOf(b[j], key), KeyOf(b[0], key));
      }
    }
    KeyLessTrichotomy(ka, kb);
  }

  lemma SortedAscIsAscending(xs: seq<Row>, key: SortKey)
    requires Sorted(xs, SortConfig(key, Asc))
    ensures AscendingBy(xs, key)
  {
    forall i, j | 0 <= i < j < |xs|
      ensures !KeyLess(KeyOf(xs[j], key), KeyOf(xs[i], key))
    {
      assert Compare(xs[i], xs[j], SortConfig(key, Asc)) <= 0;
      KeyLessIrreflexive(KeyOf(xs[i], key));
    }
  }

  lemma ReversedDescIsAscending(xs: seq<Row>, key: SortKey)
    requires Sorted(xs, SortConfig(key, Desc))
    ensures AscendingBy(Reverse(xs), key)
  {
    var r := Reverse(xs);
    forall i, j | 0 <= i < j < |r|
      ensures !KeyLess(KeyOf(r[j], key), KeyOf(r[i], key))
    {
      assert Compare(xs[|xs| - 1 - j], xs[|xs| - 1 - i], SortConfig(key, Desc)) <= 0;
      KeyLessIrreflexive(KeyOf(r[i], key));
    }
  }

  /** With no ties, the ascending sort is the descending sort reversed. */
  lemma AscReversesDesc(xs: seq<Row>, key: SortKey)
    requires NoTies(xs, key)
    ensures SortRows(xs, SortConfig(key, Asc)) == Reverse(SortRows(xs, SortConfig(key, Desc)))
  {
    var asc, desc := SortRows(xs, SortConfig(key, Asc)), SortRows(xs, SortConfig(key, Desc));
    AscSortAscends(xs, key);
    DescSortDescends(xs, key);
    NoTiesPermuted(xs, asc, key);
    AscendingUnique(asc, Reverse(desc), key);
  }

  lemma AscSortAscends(xs: seq<Row>, key: SortKey)
    ensures AscendingBy(SortRows(xs, SortConfig(key, Asc)), key)
    ensures multiset(SortRows(xs, SortConfig(key, Asc))) == multiset(xs)
  {
    SortRowsSorted(xs, SortConfig(key, Asc));
    SortedAscIsAscending(SortRows(xs, SortConfig(key, Asc)), key);
  }

  lemma DescSortDescends(xs: seq<Row>, key: SortKey)
    ensures AscendingBy(Reverse(SortRows(xs, SortConfig(key, Desc))), key)
    ensures multiset(Reverse(SortRows(xs, SortConfig(key, Desc)))) == multiset(xs)
  {
    SortRowsSorted(xs, SortConfig(key, Desc));
    ReversedDescIsAscending(SortRows(xs, SortConfig(key, Desc)), key);
  }

  /** A rearrangement of rows without ties has no ties either. */
  lemma NoTiesPermuted(xs: seq<Row>, ys: seq<Row>, key: SortKey)
    requires NoTies(xs, key) && multiset(ys) == multiset(xs)
    ensures NoTies(ys, key)
  {
    assert forall r :: r in ys ==> r in multiset(xs);
  }

  /** Sorting by trend, descending, lists every Bullish row before every
      Bearish one, because a confidence never reaches 1000. */
  lemma TrendDescBullishFirst(xs: seq<Row>)
    requires forall i :: 0 <= i < |xs| ==> WellFormedRow(xs[i])
    ensures var r := SortRows(xs, SortConfig(TrendKey, Desc));
            forall i, j :: 0 <= i < j < |r| && r[j].trend == Trend.Bullish ==> r[i].trend == Trend.Bullish
  {
    var r := SortRows(xs, SortConfig(TrendKey, Desc));
    SortRowsSorted(xs, SortConfig(TrendKey, Desc));
    PermutationKeepsWellFormed(xs, r);
    BullishFirstWhenSorted(r);
  }

  lemma PermutationKeepsWellFormed(xs: seq<Row>, r: seq<Row>)
    requires multiset(r) == multiset(xs)
    requires forall i :: 0 <= i < |xs| ==> WellFormedRow(xs[i])
    ensures forall k :: 0 <= k < |r| ==> WellFormedRow(r[k])
  {
    forall k | 0 <= k < |r|
      ensures WellFormedRow(r[k])
    {
      assert r[k] in multiset(xs);
    }
  }

  lemma BullishFirstWhenSorted(r: seq<Row>)
    requires Sorted(r, SortConfig(TrendKey, Desc))
    requires forall k :: 0 <= k < |r| ==> WellFormedRow(r[k])
    ensures forall i, j :: 0 <= i < j < |r| && r[j].trend == Trend.Bullish ==> r[i].trend == Trend.Bullish
  {
    forall i, j | 0 <= i < j < |r| && r[j].trend == Trend.Bullish
      ensures r[i].trend == Trend.Bullish
    {
      assert Compare(r[i], r[j], SortConfig(TrendKey, Desc)) <= 0;
      assert TrendScore(r[j]) >= 1000;
    }
  }

  // --------------------------------------------------------- handleSort

  /** `handleSort(key)`: the same key while descending flips to ascending;
      anything else selects the key descending. */
  function HandleSort(current: SortConfig, key: SortKey): (r: SortConfig)
    ensures r.key == key
    ensures r.direction == Asc <==> current == SortConfig(key, Desc)
  {
    SortConfig(key, if current.key == key && current.direction == Desc then Asc else Desc)
  }

  /** Selecting the same key twice restores the configuration exactly when
      that key was already the current one. */
  lemma HandleSortTwice(current: SortConfig, key: SortKey)
    ensures HandleSort(HandleSort(current, key), key) == current <==> current.key == key
  {
  }

  /** The scanner's result: the analysed rows, sorted. */
  function SortedMarket(stocks: seq<Stock>, sel: Selection, cfg: SortConfig): (r: seq<Row>)
    requires Analysable(stocks)
    ensures multiset(r) == multiset(AnalyzedMarket(stocks, sel))
    ensures AdjacentOrdered(r, cfg)
  {
    SortRows(AnalyzedMarket(stocks, sel), cfg)
  }
}

=== FILE: social.dfy ===
/** `getSocialSignals` of src/lib/socialMediaService.ts: a mock sentiment
    feed that reacts to the day's price change with one Twitter and one
    Reddit signal. The two volume draws (`Math.random()`) are parameters;
    the half-second delay is not modelled. */
module Social {

  datatype Source = Twitter | Reddit | News

  /** The fixed summary sentences, as tags. */
  datatype Summary = PanicSelling | Euphoria | MixedSentiment | BuyTheDip | MemeHype

  datatype SocialSignal = SocialSignal(
    source: Source,
    sentimentScore: real,
    volume: int,
    summary: Summary,
    trendingTopics: seq<string>)

  const BearishTopics: seq<string> := ["#crash", "#bearmarket"]
  const BullishTopics: seq<string> := ["#bullrun", "#mooning"]
  const RedditTopics: seq<string> := ["r/wallstreetbets", "HODL"]

  /** Twitter mood: panic below -2%, euphoria above +2%, mild otherwise. */
  function TwitterScore(priceChange: real): (s: real)
    ensures -1.0 <= s <= 1.0
    ensures s < 0.0 <==> priceChange < -2.0
    ensures priceChange < -2.0 ==> s == -0.8
    ensures priceChange > 2.0 ==> s == 0.9
    ensures -2.0 <= priceChange <= 2.0 ==> s == 0.1
  {
    if priceChange < -2.0 then -0.8 else if priceChange > 2.0 then 0.9 else 0.1
  }

  /** The Twitter summary matches its score: panic exactly when the score
      is negative, euphoria exactly when it is 0.9. */
  function TwitterSummary(priceChange: real): (s: Summary)
    ensures s == PanicSelling <==> TwitterScore(priceChange) < 0.0
    ensures s == Euphoria <==> TwitterScore(priceChange) == 0.9
    ensures s == MixedSentiment <==> TwitterScore(priceChange) == 0.1
  {
    if priceChange < -2.0 then PanicSelling else if priceChange > 2.0 then Euphoria else MixedSentiment
  }

  /** Reddit buys the dip: 0.4 below -1%, 0.6 otherwise. */
  function RedditScore(priceChange: real): (s: real)
    ensures 0.0 < s <= 1.0
    ensures priceChange < -1.0 ==> s == 0.4
    ensures priceChange >= -1.0 ==> s == 0.6
  {
    if priceChange < -1.0 then 0.4 else 0.6
  }

  /** `Math.floor(r * 5000) + 1000`. */
  function TwitterVolume(draw: real): (v: int)
    ensures 0.0 <= draw < 1.0 ==> 1000 <= v <= 5999
  {
    (draw * 5000.0).Floor + 1000
  }

  /** `Math.floor(r * 2000)`. */
  function RedditVolume(draw: real): (v: int)
    ensures 0.0 <= draw < 1.0 ==> 0 <= v <= 1999
  {
    (draw * 2000.0).Floor
  }

  /** `getSocialSignals(symbol, priceChange)`; the symbol plays no part. */
  function GetSocialSignals(priceChange: real, twitterDraw: real, redditDraw: real): (r: seq<SocialSignal>)
    ensures |r| == 2 && r[0].source == Twitter && r[1].source == Reddit
    ensures forall i :: 0 <= i < |r| ==> -1.0 <= r[i].sentimentScore <= 1.0
    ensures r[0].sentimentScore == TwitterScore(priceChange) && r[1].sentimentScore == RedditScore(priceChange)
    ensures r[0].summary == TwitterSummary(priceChange)
    ensures r[1].summary == BuyTheDip <==> priceChange < -1.0
    ensures r[1].summary == BuyTheDip || r[1].summary == MemeHype
    ensures r[0].trendingTopics == BearishTopics <==> priceChange < 0.0
    ensures r[0].trendingTopics == BearishTopics || r[0].trendingTopics == BullishTopics
    ensures r[1].trendingTopics == RedditTopics
    ensures 0.0 <= twitterDraw < 1.0 ==> 1000 <= r[0].volume <= 5999
    ensures 0.0 <= redditDraw < 1.0 ==> 0 <= r[1].volume <= 1999
  {
    [ SocialSignal(Twitter, TwitterScore(priceChange), TwitterVolume(twitterDraw),
                   TwitterSummary(priceChange),
                   if priceChange < 0.0 then BearishTopics else BullishTopics),
      SocialSignal(Reddit, RedditScore(priceChange), RedditVolume(redditDraw),
                   if priceChange < -1.0 then BuyTheDip else MemeHype,
                   RedditTopics) ]
  }

  /** The Twitter score is -0.8, 0.9 or 0.1 by the change's band, and the
      Reddit score 0.4 or 0.6; both scores only ever rise with the change. */
  lemma ScoresMonotone(c1: real, c2: real, d1: real, d2: real)
    requires c1 <= c2
    ensures GetSocialSignals(c1, d1, d2)[0].sentimentScore <= GetSocialSignals(c2, d1, d2)[0].sentimentScore
    ensures GetSocialSignals(c1, d1, d2)[1].sentimentScore <= GetSocialSignals(c2, d1, d2)[1].sentimentScore
  {
  }

  /** The average mood of the pair is negative only on a drop below -2%. */
  lemma AverageMood(priceChange: real, d1: real, d2: real)
    ensures var r := GetSocialSignals(priceChange, d1, d2);
            (r[0].sentimentScore + r[1].sentimentScore) / 2.0 < 0.0 <==> priceChange < -2.0
  {
  }
}

=== FILE: stats.dfy ===
/** The statistics kernel of the per-stock risk engine (src/lib/analysisUtils.ts):
    RSI over the most recent deltas, population variance, simple moving average
    and Bollinger bands.

    Square roots are not computed: the source's `Math.sqrt` results (the
    volatility and the Bollinger half-width) are carried as their squares, and
    `IsRoot(v, s)` says that `s` is the non-negative square root of `v`. Every
    comparison the engine makes against a root is decided exactly in squared
    form, and the lemmas below prove it agrees with the root form. */
module Stats {
  import opened Wrappers

  // ---------------------------------------------------------------- sums

  /** Left-to-right sum, the order of `reduce((a, b) => a + b, 0)`. */
  function Sum(xs: seq<real>): real
    decreases |xs|
  {
    if |xs| == 0 then 0.0 else Sum(xs[..|xs| - 1]) + xs[|xs| - 1]
  }

  function Mean(xs: seq<real>): real
    requires |xs| > 0
  {
    Sum(xs) / (|xs| as real)
  }

  function Min(xs: seq<real>): (m: real)
    requires |xs| > 0
    ensures forall i :: 0 <= i < |xs| ==> m <= xs[i]
    ensures exists i :: 0 <= i < |xs| && m == xs[i]
    decreases |xs|
  {
    if |xs| == 1 then xs[0]
    else
      var m := Min(xs[1..]);
      assert forall i :: 1 <= i < |xs| ==> xs[i] == xs[1..][i - 1];
      if xs[0] <= m then xs[0] else m
  }

  function Max(xs: seq<real>): (m: real)
    requires |xs| > 0
    ensures forall i :: 0 <= i < |xs| ==> xs[i] <= m
    ensures exists i :: 0 <= i < |xs| && m == xs[i]
    decreases |xs|
  {
    if |xs| == 1 then xs[0]
    else
      var m := Max(xs[1..]);
      assert forall i :: 1 <= i < |xs| ==> xs[i] == xs[1..][i - 1];
      if xs[0] >= m then xs[0] else m
  }

  /** A sum of values bounded by `lo` and `hi` lies between `n*lo` and `n*hi`. */
  lemma {:induction false} SumBounds(xs: seq<real>, lo: real, hi: real)
    requires forall i :: 0 <= i < |xs| ==> lo <= xs[i] <= hi
    ensures (|xs| as real) * lo <= Sum(xs) <= (|xs| as real) * hi
    decreases |xs|
  {
    if |xs| > 0 {
      var init := xs[..|xs| - 1];
      SumBounds(init, lo, hi);
      var k := |init| as real;
      assert (|xs| as real) * lo == k * lo + lo;
      assert (|xs| as real) * hi == k * hi + hi;
    }
  }

  /** A sum of copies of one value. */
  lemma {:induction false} SumConstant(xs: seq<real>, c: real)
    requires forall i :: 0 <= i < |xs| ==> xs[i] == c
    ensures Sum(xs) == (|xs| as real) * c
    decreases |xs|
  {
    if |xs| > 0 {
      SumConstant(xs[..|xs| - 1], c);
    }
  }

  /** The mean of values bounded by `lo` and `hi` is bounded by them too. */
  lemma MeanWithin(xs: seq<real>, lo: real, hi: real)
    requires |xs| > 0
    requires forall i :: 0 <= i < |xs| ==> lo <= xs[i] <= hi
    ensures lo <= Mean(xs) <= hi
  {
    SumBounds(xs, lo, hi);
    DivideBounds(Sum(xs), |xs| as real, lo, hi);
  }

  /** The mean lies between the smallest and the largest value. */
  lemma MeanBetween(xs: seq<real>)
    requires |xs| > 0
    ensures Min(xs) <= Mean(xs) <= Max(xs)
  {
    MeanWithin(xs, Min(xs), Max(xs));
  }

  lemma DivideBounds(s: real, n: real, lo: real, hi: real)
    requires n > 0.0 && n * lo <= s <= n * hi
    ensures lo <= s / n <= hi
  {
    assert s / n * n == s;
  }

  lemma DivideThenMultiply(s: real, n: real)
    requires n != 0.0
    ensures s / n * n == s
  {
  }

  /** The mean of a constant series is that constant. */
  lemma MeanConstant(xs: seq<real>, c: real)
    requires |xs| > 0
    requires forall i :: 0 <= i < |xs| ==> xs[i] == c
    ensures Mean(xs) == c
  {
    SumConstant(xs, c);
  }

  /** The last `n` values (JavaScript's `slice(-n)` for `n >= 1`). */
  function Window(xs: seq<real>, n: nat): seq<real>
    requires n <= |xs|
  {
    xs[|xs| - n..]
  }

  // ------------------------------------------------------------ variance

  /** Sum of squared deviations from `m`. */
  function SquaredDeviations(xs: seq<real>, m: real): real
    decreases |xs|
  {
    if |xs| == 0 then 0.0
    else
      var d := xs[|xs| - 1] - m;
      SquaredDeviations(xs[..|xs| - 1], m) + d * d
  }

  /** Each squared deviation is non-negative, so their sum is too. Kept as
      a lemma rather than a postcondition so that the expansion below does
      not carry it into its arithmetic. */
  lemma {:induction false} SquaredDeviationsNonNegative(xs: seq<real>, m: real)
    ensures SquaredDeviations(xs, m) >= 0.0
    decreases |xs|
  {
    if |xs| > 0 {
      SquaredDeviationsNonNegative(xs[..|xs| - 1], m);
    }
  }

  lemma {:induction false} SquaredDeviationsOfConstant(xs: seq<real>, c: real)
    requires forall i :: 0 <= i < |xs| ==> xs[i] == c
    ensures SquaredDeviations(xs, c) == 0.0
    decreases |xs|
  {
    if |xs| > 0 {
      SquaredDeviationsOfConstant(xs[..|xs| - 1], c);
    }
  }

  /** Population variance (divides by `n`, as the source does). */
  function Variance(xs: seq<real>): (v: real)
    requires |xs| > 0
    ensures v >= 0.0
  {
    SquaredDeviationsNonNegative(xs, Mean(xs));
    SquaredDeviations(xs, Mean(xs)) / (|xs| as real)
  }

  /** A constant series has no spread. */
  lemma VarianceOfConstant(xs: seq<real>, c: real)
    requires |xs| > 0
    requires forall i :: 0 <= i < |xs| ==> xs[i] == c
    ensures Variance(xs) == 0.0
  {
    MeanConstant(xs, c);
    SquaredDeviationsOfConstant(xs, c);
  }

  /** `s` is the non-negative square root of `v` (the value `Math.sqrt(v)`). */
  predicate IsRoot(v: real, s: real) {
    s >= 0.0 && s * s == v
  }

  /** Square roots are unique, so a squared quantity determines its root. */
  lemma RootUnique(v: real, s: real, t: real)
    requires IsRoot(v, s) && IsRoot(v, t)
    ensures s == t
  {
    var a, b := s - t, s + t;
    assert a * b == s * s - t * t == 0.0;
    if b != 0.0 {
      assert a == a * b / b;
    }
  }

  /** `calculateVolatility`, carried squared: 0 for fewer than two points,
      otherwise the population variance of the raw price levels. The source
      returns the square root of this value. */
  function VolatilitySquared(data: seq<real>): (v: real)
    ensures v >= 0.0
    ensures |data| < 2 ==> v == 0.0
    ensures |data| >= 2 ==> v == Variance(data)
  {
    if |data| < 2 then 0.0 else Variance(data)
  }

  /** Left-to-right sum of squares. */
  function SumOfSquares(xs: seq<real>): real
    decreases |xs|
  {
    if |xs| == 0 then 0.0 else SumOfSquares(xs[..|xs| - 1]) + xs[|xs| - 1] * xs[|xs| - 1]
  }

  /** The expanded square `squares - 2 m sum + k m^2` of a series of `k`
      points with the given sum and sum of squares. */
  function Expanded(squares: real, sum: real, k: nat, m: real): real {
    squares - 2.0 * m * sum + (k as real) * (m * m)
  }

  /** Expanding the square: the squared deviations from `m` are the sum of
      squares, minus `2m` times the sum, plus `n m^2`. */
  lemma {:induction false} SquaredDeviationsExpand(xs: seq<real>, m: real)
    ensures SquaredDeviations(xs, m) == Expanded(SumOfSquares(xs), Sum(xs), |xs|, m)
    decreases |xs|
  {
    if |xs| == 0 {
      ExpandStart(SquaredDeviations(xs, m), SumOfSquares(xs), Sum(xs), |xs|, m);
    } else {
      SquaredDeviationsExpand(xs[..|xs| - 1], m);
      ExpandLast(xs, m);
    }
  }

  /** The expansion survives appending the last element. Each nonlinear
      step is supplied by a lemma over plain numbers, so what is left is
      linear. */
  lemma {:induction false} ExpandLast(xs: seq<real>, m: real)
    requires |xs| > 0
    requires SquaredDeviations(xs[..|xs| - 1], m)
             == Expanded(SumOfSquares(xs[..|xs| - 1]), Sum(xs[..|xs| - 1]), |xs| - 1, m)
    ensures SquaredDeviations(xs, m) == Expanded(SumOfSquares(xs), Sum(xs), |xs|, m)
  {
    LastStep(xs, m);
    SquareOfDifference(xs[|xs| - 1], m);
    Distribute(2.0 * m, Sum(xs[..|xs| - 1]), xs[|xs| - 1]);
    CountTimes(|xs|, m * m);
  }

  /** The three sums after their last element. */
  lemma {:induction false} LastStep(xs: seq<real>, m: real)
    requires |xs| > 0
    ensures SquaredDeviations(xs, m) == SquaredDeviations(xs[..|xs| - 1], m) + (xs[|xs| - 1] - m) * (xs[|xs| - 1] - m)
    ensures SumOfSquares(xs) == SumOfSquares(xs[..|xs| - 1]) + xs[|xs| - 1] * xs[|xs| - 1]
    ensures Sum(xs) == Sum(xs[..|xs| - 1]) + xs[|xs| - 1]
  {
  }

  /** The empty series, over plain numbers. */
  lemma ExpandStart(dev: real, squares: real, sum: real, k: nat, m: real)
    requires dev == 0.0 && squares == 0.0 && sum == 0.0 && k == 0
    ensures dev == Expanded(squares, sum, k, m)
  {
  }

  lemma SquareOfDifference(x: real, m: real)
    ensures (x - m) * (x - m) == x * x - 2.0 * m * x + m * m
  {
  }

  lemma Distribute(a: real, b: real, c: real)
    ensures a * (b + c) == a * b + a * c
  {
  }

  lemma CountTimes(n: nat, q: real)
    requires n > 0
    ensures (n as real) * q == ((n - 1) as real) * q + q
  {
  }

  /** The algebra behind `VarianceBySquares`, over plain numbers: with
      `mu = sum / n`, the expanded deviations divided by `n` are the mean
      square minus `mu^2`. */
  lemma SquaresAlgebra(dev: real, squares: real, sum: real, k: nat, mu: real)
    requires k > 0
    requires sum == mu * (k as real)
    requires dev == Expanded(squares, sum, k, mu)
    ensures dev / (k as real) == squares / (k as real) - mu * mu
  {
    var n := k as real;
    assert dev == squares - n * (mu * mu);
    assert (squares - n * (mu * mu)) / n * n == squares - n * (mu * mu);
    assert (squares / n - mu * mu) * n == squares - n * (mu * mu);
  }

  /** The population variance is the mean of the squares minus the square
      of the mean, an independent way to compute `calculateVolatility`'s
      variance. */
  lemma {:induction false} VarianceBySquares(xs: seq<real>)
    requires |xs| > 0
    ensures Variance(xs) == SumOfSquares(xs) / (|xs| as real) - Mean(xs) * Mean(xs)
  {
    MeanTimesCount(xs);
    DeviationsBySquares(xs, Mean(xs));
  }

  /** The mean times the count gives back the sum. */
  lemma {:induction false} MeanTimesCount(xs: seq<real>)
    requires |xs| > 0
    ensures Sum(xs) == Mean(xs) * (|xs| as real)
  {
    DivideThenMultiply(Sum(xs), |xs| as real);
  }

  /** The deviations from any `mu` with `mu n` equal to the sum, per point,
      are the mean square minus `mu^2`. */
  lemma {:induction false} DeviationsBySquares(xs: seq<real>, mu: real)
    requires |xs| > 0
    requires Sum(xs) == mu * (|xs| as real)
    ensures SquaredDeviations(xs, mu) / (|xs| as real)
            == SumOfSquares(xs) / (|xs| as real) - mu * mu
  {
    SquaredDeviationsExpand(xs, mu);
    SquaresAlgebra(SquaredDeviations(xs, mu), SumOfSquares(xs), Sum(xs), |xs|, mu);
  }

  /** A flat series has volatility 0, and so does its square root. */
  lemma FlatSeriesHasNoVolatility(data: seq<real>, c: real, s: real)
    requires forall i :: 0 <= i < |data| ==> data[i] == c
    requires IsRoot(VolatilitySquared(data), s)
    ensures VolatilitySquared(data) == 0.0 && s == 0.0
  {
    if |data| >= 2 {
      VarianceOfConstant(data, c);
    }
    RootUnique(0.0, s, 0.0);
  }

  // ----------------------------------------------------------------- RSI

  function Gain(d: real): real { if d >= 0.0 then d else 0.0 }
  function Loss(d: real): real { if d >= 0.0 then 0.0 else -d }

  /** Total gain over the `k` most recent deltas, newest first: the order in
      which analysisUtils' `calculateRSI` walks them. */
  function RecentGains(data: seq<real>, k: nat): (g: real)
    requires k < |data|
    ensures g >= 0.0
    decreases k
  {
    if k == 0 then 0.0
    else RecentGains(data, k - 1) + Gain(data[|data| - k] - data[|data| - k - 1])
  }

  /** Total loss (as a positive amount) over the `k` most recent deltas. */
  function RecentLosses(data: seq<real>, k: nat): (l: real)
    requires k < |data|
    ensures l >= 0.0
    decreases k
  {
    if k == 0 then 0.0
    else RecentLosses(data, k - 1) + Loss(data[|data| - k] - data[|data| - k - 1])
  }

  /** None of the `k` most recent steps goes down. */
  predicate NoRecentFall(data: seq<real>, k: nat) {
    forall i :: |data| - k <= i < |data| && 0 < i ==> data[i - 1] <= data[i]
  }

  /** The losses vanish exactly when no recent step goes down. */
  lemma {:induction false} RecentLossesZeroIff(data: seq<real>, k: nat)
    requires k < |data|
    ensures RecentLosses(data, k) == 0.0 <==> NoRecentFall(data, k)
    decreases k
  {
    if k > 0 {
      RecentLossesZeroIff(data, k - 1);
      var i := |data| - k;
      assert NoRecentFall(data, k) <==> NoRecentFall(data, k - 1) && data[i - 1] <= data[i];
    }
  }

  /** The closing formula `100 - 100 / (1 + avgGain / avgLoss)` stays in [0, 100). */
  lemma RsiFormulaRange(avgGain: real, avgLoss: real)
    requires avgGain >= 0.0 && avgLoss > 0.0
    ensures 0.0 <= 100.0 - 100.0 / (1.0 + avgGain / avgLoss) < 100.0
  {
    var rs := avgGain / avgLoss;
    assert rs * avgLoss == avgGain;
    assert rs >= 0.0;
    var q := 1.0 + rs;
    assert 100.0 / q * q == 100.0;
    assert 100.0 / q > 0.0;
    assert 100.0 / q <= 100.0;
  }

  /** analysisUtils' `calculateRSI`: simple (not smoothed) average gain over
      average loss across the last `period` deltas. */
  function Rsi(data: seq<real>, period: nat): (r: real)
    ensures 0.0 <= r <= 100.0
    ensures |data| < period + 1 ==> r == 50.0
    ensures |data| >= period + 1 ==> (r == 100.0 <==> NoRecentFall(data, period))
  {
    if |data| < period + 1 then 50.0
    else
      var gains := RecentGains(data, period);
      var losses := RecentLosses(data, period);
      RecentLossesZeroIff(data, period);
      if losses == 0.0 then 100.0
      else
        var avgGain := gains / (period as real);
        var avgLoss := losses / (period as real);
        RsiFormulaRange(avgGain, avgLoss);
        100.0 - 100.0 / (1.0 + avgGain / avgLoss)
  }

  // --------------------------------------------- moving average and bands

  /** `calculateSMA`: absent when fewer than `period` points exist, otherwise
      the mean of the last `period` of them. */
  function Sma(data: seq<real>, period: nat): (r: Option<real>)
    requires period >= 1
    ensures r.None? <==> |data| < period
    ensures r.Some? ==> Min(Window(data, period)) <= r.value <= Max(Window(data, period))
  {
    if |data| < period then None
    else
      var w := Window(data, period);
      MeanBetween(w);
      Some(Mean(w))
  }

  /** Bollinger bands with the half-width kept squared: the bands are
      `middle ± 2 * s` for the root `s` of `variance`. */
  datatype Bands = Bands(middle: real, variance: real)

  function Upper(b: Bands, s: real): real { b.middle + 2.0 * s }
  function Lower(b: Bands, s: real): real { b.middle - 2.0 * s }

  /** `calculateBollingerBands`: absent under the same condition as the SMA;
      otherwise centred on the SMA with the population variance of the same
      window. */
  function Bollinger(data: seq<real>, period: nat): (r: Option<Bands>)
    requires period >= 1
    ensures r.None? <==> Sma(data, period).None?
    ensures r.Some? ==> Sma(data, period) == Some(r.value.middle)
    ensures r.Some? ==> r.value.variance >= 0.0
    ensures r.Some? ==> r.value.variance == Variance(Window(data, period))
    ensures r.Some? ==> (r.value.variance == 0.0 <==>
                         SquaredDeviations(Window(data, period), r.value.middle) == 0.0)
  {
    if |data| < period then None
    else
      var sma := Sma(data, period);
      var slice := Window(data, period);
      SquaredDeviationsNonNegative(slice, sma.value);
      Some(Bands(sma.value, SquaredDeviations(slice, sma.value) / (period as real)))
  }

  /** The bands bracket the SMA symmetrically. */
  lemma BandsBracketMiddle(b: Bands, s: real)
    requires IsRoot(b.variance, s)
    ensures Lower(b, s) <= b.middle <= Upper(b, s)
    ensures Upper(b, s) - b.middle == b.middle - Lower(b, s)
  {
  }

  /** Squared form of `x > upper * margin`, decided without a square root. */
  predicate AboveUpper(x: real, b: Bands, margin: real)
    requires margin > 0.0
  {
    var d := x / margin - b.middle;
    d > 0.0 && d * d > 4.0 * b.variance
  }

  /** The squared test agrees with the source's comparison against the
      upper band computed from the root. */
  lemma AboveUpperIffRoot(x: real, b: Bands, margin: real, s: real)
    requires margin > 0.0 && IsRoot(b.variance, s)
    ensures AboveUpper(x, b, margin) <==> x > Upper(b, s) * margin
  {
    var d := x / margin - b.middle;
    assert x / margin * margin == x;
    assert x > Upper(b, s) * margin <==> x / margin > Upper(b, s) by {
      if x / margin > Upper(b, s) {
        assert x / margin * margin > Upper(b, s) * margin;
      }
    }
    assert x / margin > Upper(b, s) <==> d > 2.0 * s;
    if d > 2.0 * s {
      assert d * d > (2.0 * s) * (2.0 * s) by {
        assert d * d > d * (2.0 * s) >= (2.0 * s) * (2.0 * s);
      }
    }
  }
}

=== FILE: store.dfy ===
/** The holdings transitions of the market store (src/store/marketStore.ts):
    `addHolding`, `removeHolding` and `resetPortfolio`, as pure functions
    from one state to the next. Fetching, the live ticker and persistence
    are outside this model. */
module Store {
  import opened Wrappers
  import opened Lists
  import opened Market

  datatype Holding = Holding(symbol: string, quantity: real, buyPrice: real)

  datatype MarketState = MarketState(
    stocks: seq<Stock>,
    holdings: seq<Holding>,
    isLoading: bool,
    error: Option<string>)

  /** Only the holdings moved. */
  predicate SameMarket(a: MarketState, b: MarketState) {
    a.stocks == b.stocks && a.isLoading == b.isLoading && a.error == b.error
  }

  function HasSymbol(symbol: string): Holding -> bool {
    (h: Holding) => h.symbol == symbol
  }

  function OtherSymbol(symbol: string): Holding -> bool {
    (h: Holding) => h.symbol != symbol
  }

  /** `addHolding`: appends a new lot at the end, without merging it into an
      earlier lot of the same symbol. */
  function AddHolding(st: MarketState, symbol: string, quantity: real, buyPrice: real): (r: MarketState)
    ensures SameMarket(st, r)
    ensures |r.holdings| == |st.holdings| + 1
    ensures r.holdings[..|st.holdings|] == st.holdings
    ensures r.holdings[|st.holdings|] == Holding(symbol, quantity, buyPrice)
  {
    st.(holdings := st.holdings + [Holding(symbol, quantity, buyPrice)])
  }

  /** `removeHolding`: drops every lot of `symbol`, keeping the others in
      their original order. */
  function RemoveHolding(st: MarketState, symbol: string): (r: MarketState)
    ensures SameMarket(st, r)
    ensures forall h :: h in r.holdings <==> h in st.holdings && h.symbol != symbol
    ensures IsSubsequence(r.holdings, st.holdings)
    ensures |r.holdings| == Count(st.holdings, OtherSymbol(symbol))
  {
    st.(holdings := Filter(st.holdings, OtherSymbol(symbol)))
  }

  /** `resetPortfolio`: no holdings remain. */
  function ResetPortfolio(st: MarketState): (r: MarketState)
    ensures SameMarket(st, r)
    ensures r.holdings == []
  {
    st.(holdings := [])
  }

  /** Adding never merges: the number of lots of that symbol grows by one,
      and the lots of every other symbol are untouched. */
  lemma AddNeverMerges(st: MarketState, symbol: string, quantity: real, buyPrice: real, other: string)
    requires other != symbol
    ensures Count(AddHolding(st, symbol, quantity, buyPrice).holdings, HasSymbol(symbol))
            == Count(st.holdings, HasSymbol(symbol)) + 1
    ensures Count(AddHolding(st, symbol, quantity, buyPrice).holdings, HasSymbol(other))
            == Count(st.holdings, HasSymbol(other))
  {
    var h := Holding(symbol, quantity, buyPrice);
    CountAppend(st.holdings, [h], HasSymbol(symbol));
    CountAppend(st.holdings, [h], HasSymbol(other));
  }

  /** Removing a symbol twice is the same as removing it once. */
  lemma RemoveIdempotent(st: MarketState, symbol: string)
    ensures RemoveHolding(RemoveHolding(st, symbol), symbol) == RemoveHolding(st, symbol)
  {
    FilterIdempotent(st.holdings, OtherSymbol(symbol));
  }

  /** Removing a symbol that no lot carries changes nothing. */
  lemma RemoveAbsentIsNoop(st: MarketState, symbol: string)
    requires forall h :: h in st.holdings ==> h.symbol != symbol
    ensures RemoveHolding(st, symbol) == st
  {
    FilterKeepsAll(st.holdings, OtherSymbol(symbol));
  }

  /** Removing the symbol just added takes away the new lot together with
      every older lot of that symbol. */
  lemma RemoveAfterAdd(st: MarketState, symbol: string, quantity: real, buyPrice: real)
    ensures RemoveHolding(AddHolding(st, symbol, quantity, buyPrice), symbol) == RemoveHolding(st, symbol)
  {
    FilterAppend(st.holdings, [Holding(symbol, quantity, buyPrice)], OtherSymbol(symbol));
    assert Filter([Holding(symbol, quantity, buyPrice)], OtherSymbol(symbol)) == [];
    assert Filter(st.holdings, OtherSymbol(symbol)) + [] == Filter(st.holdings, OtherSymbol(symbol));
  }

  /** Removal of two symbols can be done in either order. */
  lemma {:induction false} RemoveCommutes(st: MarketState, a: string, b: string)
    ensures RemoveHolding(RemoveHolding(st, a), b) == RemoveHolding(RemoveHolding(st, b), a)
  {
    FilterSwap(st.holdings, OtherSymbol(a), OtherSymbol(b));
  }

  lemma {:induction false} FilterSwap<T(!new)>(xs: seq<T>, p: T -> bool, q: T -> bool)
    ensures Filter(Filter(xs, p), q) == Filter(Filter(xs, q), p)
    decreases |xs|
  {
    if |xs| > 0 {
      FilterSwap(xs[1..], p, q);
      if p(xs[0]) {
        assert ([xs[0]] + Filter(xs[1..], p))[1..] == Filter(xs[1..], p);
      }
      if q(xs[0]) {
        assert ([xs[0]] + Filter(xs[1..], q))[1..] == Filter(xs[1..], q);
      }
    }
  }

  /** A reset forgets every earlier holdings transition. */
  lemma ResetForgets(st: MarketState, symbol: string, quantity: real, buyPrice: real)
    ensures ResetPortfolio(AddHolding(st, symbol, quantity, buyPrice)) == ResetPortfolio(st)
    ensures ResetPortfolio(RemoveHolding(st, symbol)) == ResetPortfolio(st)
  {
  }
}

=== FILE: trend.dfy ===
/** `hashString` and `calculateTrend` of src/lib/analysisUtils.ts: a 32-bit
    string hash (JavaScript's `(h << 5) - h + c` followed by `h & h`) that
    seeds a deterministic confidence for the first-versus-last trend reading,
    with a ten-point bonus when the last price confirms the trend against the
    50-period average. */
module Trend {
  import opened Wrappers
  import opened Stats

  const TwoTo31: int := 0x8000_0000
  const TwoTo32: int := 0x1_0000_0000

  predicate IsInt32(x: int) { -TwoTo31 <= x < TwoTo31 }

  /** JavaScript's ToInt32 on an integral number: reduce modulo 2^32 into the
      signed range. */
  function ToInt32(x: int): (r: int)
    ensures IsInt32(r)
    ensures (x - r) % TwoTo32 == 0
  {
    (x + TwoTo31) % TwoTo32 - TwoTo31
  }

  /** ToInt32 is the identity on values already in range. */
  lemma ToInt32OfInt32(x: int)
    requires IsInt32(x)
    ensures ToInt32(x) == x
  {
  }

  /** Two integers congruent modulo 2^32 wrap to the same value. */
  lemma ToInt32Congruent(x: int, y: int)
    requires (x - y) % TwoTo32 == 0
    ensures ToInt32(x) == ToInt32(y)
  {
    var rx, ry := ToInt32(x), ToInt32(y);
    assert (rx - ry) % TwoTo32 == 0 by {
      ModDifference(x - rx, y - ry, x - y);
    }
    assert -TwoTo32 < rx - ry < TwoTo32;
    ModZeroInWindow(rx - ry);
  }

  lemma ModDifference(a: int, b: int, c: int)
    requires a % TwoTo32 == 0 && b % TwoTo32 == 0 && c % TwoTo32 == 0
    ensures ((c - a) + b) % TwoTo32 == 0
  {
    var ka, kb, kc := a / TwoTo32, b / TwoTo32, c / TwoTo32;
    assert a == ka * TwoTo32 && b == kb * TwoTo32 && c == kc * TwoTo32;
    assert (c - a) + b == (kc - ka + kb) * TwoTo32;
  }

  lemma ModZeroInWindow(d: int)
    requires -TwoTo32 < d < TwoTo32 && d % TwoTo32 == 0
    ensures d == 0
  {
  }

  /** One loop iteration on a 32-bit hash: `(h << 5)` wraps `h * 32`, the
      subtraction and addition are exact, and `h & h` wraps the sum. */
  function HashStep(h: int, c: char): (r: int)
    ensures IsInt32(r)
  {
    ToInt32(ToInt32(h * 32) - h + c as int)
  }

  /** The signed hash after the whole string (before `Math.abs`). */
  function HashRaw(s: string): (h: int)
    ensures IsInt32(h)
    decreases |s|
  {
    if |s| == 0 then 0 else HashStep(HashRaw(s[..|s| - 1]), s[|s| - 1])
  }

  /** The unbounded base-31 polynomial of the character codes, which is what
      the loop computes before any wrap-around. */
  function Poly(s: string): int
    decreases |s|
  {
    if |s| == 0 then 0 else 31 * Poly(s[..|s| - 1]) + s[|s| - 1] as int
  }

  /** The wrapped loop agrees with the polynomial reduced once at the end:
      every intermediate wrap-around is harmless. */
  lemma {:induction false} HashRawIsWrappedPoly(s: string)
    ensures HashRaw(s) == ToInt32(Poly(s))
    decreases |s|
  {
    if |s| > 0 {
      var init := s[..|s| - 1];
      HashRawIsWrappedPoly(init);
      StepCongruent(HashRaw(init), Poly(init), s[|s| - 1]);
    }
  }

  /** One wrapped step from a hash congruent to the polynomial lands on the
      wrapped next polynomial. */
  lemma StepCongruent(h: int, p: int, c: char)
    requires h == ToInt32(p)
    ensures HashStep(h, c) == ToInt32(31 * p + c as int)
  {
    assert ToInt32(h * 32) - h + c as int == 31 * h + c as int - (h * 32 - ToInt32(h * 32));
    ToInt32Congruent(ToInt32(h * 32) - h + c as int, 31 * h + c as int);
    assert (h - p) % TwoTo32 == 0;
    ToInt32Congruent(31 * h + c as int, 31 * p + c as int) by {
      ScaleCongruence(h, p);
    }
  }

  lemma ScaleCongruence(h: int, p: int)
    requires (h - p) % TwoTo32 == 0
    ensures (31 * h - 31 * p) % TwoTo32 == 0
  {
    var k := (h - p) / TwoTo32;
    assert h - p == k * TwoTo32;
    assert 31 * h - 31 * p == (31 * k) * TwoTo32;
  }

  function Abs(x: int): int { if x < 0 then -x else x }

  /** `hashString(str)`: the absolute value of the signed hash. The one
      signed value without a positive counterpart, -2^31, gives 2^31. */
  function HashString(s: string): (r: nat)
    ensures r == HashRaw(s) || r == -HashRaw(s)
    ensures r <= TwoTo31
    ensures r == TwoTo31 <==> HashRaw(s) == -TwoTo31
  {
    Abs(HashRaw(s))
  }

  /** The empty string hashes to 0; a one-character string hashes to its code. */
  lemma HashOfEmpty()
    ensures HashString("") == 0
    ensures HashString("A") == 65
  {
  }

  /** JavaScript's `%`, which truncates toward zero: the remainder takes the
      sign of the dividend. */
  function JsRemainder(a: int, b: int): (r: int)
    requires b > 0
    ensures a >= 0 ==> 0 <= r < b
    ensures a < 0 ==> -b < r <= 0
  {
    if a >= 0 then a % b else -((-a) % b)
  }

  /** Truncating remainder is odd in the dividend, unlike Dafny's Euclidean
      `%`, whose remainder is never negative. */
  lemma JsRemainderOdd(a: int, b: int)
    requires b > 0
    ensures JsRemainder(-a, b) == -JsRemainder(a, b)
  {
  }

  /** Example: `-7 % 20` is -7 in JavaScript, where Dafny's `%` gives 13. */
  lemma JsRemainderOfNegative()
    ensures JsRemainder(-7, 20) == -7 && -7 % 20 == 13
  {
  }

  datatype Direction = Bullish | Bearish
  datatype TrendReading = TrendReading(trend: Direction, confidence: int)

  const SmaPeriod: nat := 50
  const ConfirmBonus: int := 10
  const BaseConfidence: int := 70
  const ConfidenceSpread: int := 20
  const ConfidenceCap: int := 99

  /** First versus last price: Bullish iff the last is strictly higher. */
  function Reading(history: seq<real>): (d: Direction)
    requires |history| > 0
  {
    if history[|history| - 1] > history[0] then Bullish else Bearish
  }

  /** The last price sits on the trend's side of a non-zero 50-period
      average (`if (sma50)` treats an average of 0 as absent). */
  predicate Confirmed(history: seq<real>)
    requires |history| > 0
  {
    var sma := Sma(history, SmaPeriod);
    var last := history[|history| - 1];
    && sma.Some? && sma.value != 0.0
    && ((Reading(history) == Bullish && last > sma.value)
        || (Reading(history) == Bearish && last < sma.value))
  }

  /** The seed: the symbol's hash when a non-empty symbol is given
      (`if (symbol)` treats "" as absent), else `floor(last * 100)`. */
  function Seed(history: seq<real>, symbol: Option<string>): (seed: int)
    requires |history| > 0
    ensures history[|history| - 1] >= 0.0 ==> seed >= 0
    ensures symbol.Some? && |symbol.value| > 0 ==> 0 <= seed <= TwoTo31
    ensures symbol.Some? && |symbol.value| > 0 ==> seed == HashString(symbol.value)
    ensures !(symbol.Some? && |symbol.value| > 0) ==>
              seed as real <= history[|history| - 1] * 100.0 < seed as real + 1.0
  {
    if symbol.Some? && |symbol.value| > 0 then HashString(symbol.value)
    else (history[|history| - 1] * 100.0).Floor
  }

  /** `calculateTrend(history, symbol)`: the seed's remainder by 20 above
      70, plus 10 when the 50-period average confirms the direction. The cap
      of 99 never binds: the largest total is 19 + 70 + 10. A negative seed
      (a negative last price without a symbol) has a non-positive
      JavaScript remainder, which lowers the base. */
  function CalculateTrend(history: seq<real>, symbol: Option<string>): (r: TrendReading)
    ensures |history| < 2 ==> r == TrendReading(Bullish, 0)
    ensures |history| >= 2 ==> (r.trend == Bullish <==> history[|history| - 1] > history[0])
    ensures 0 <= r.confidence <= ConfidenceCap
    ensures |history| >= 2 ==> 51 <= r.confidence
    ensures |history| >= 2 && Seed(history, symbol) >= 0 ==> 70 <= r.confidence
    ensures |history| >= 2 && !Confirmed(history) && Seed(history, symbol) >= 0 ==> r.confidence < 90
    ensures |history| >= 2 && Confirmed(history) ==> r.confidence >= 61
    ensures |history| >= 2 && Seed(history, symbol) >= 0 ==>
              r.confidence == Seed(history, symbol) % ConfidenceSpread + BaseConfidence
                              + (if Confirmed(history) then ConfirmBonus else 0)
    ensures |history| >= 2 && Seed(history, symbol) < 0 ==>
              r.confidence == BaseConfidence + (if Confirmed(history) then ConfirmBonus else 0)
                              - (-Seed(history, symbol)) % ConfidenceSpread
    ensures |history| >= 2 && symbol.Some? && |symbol.value| > 0 ==>
              r.confidence == HashString(symbol.value) % ConfidenceSpread + BaseConfidence
                              + (if Confirmed(history) then ConfirmBonus else 0)
  {
    if |history| < 2 then TrendReading(Bullish, 0)
    else
      var offset := if Confirmed(history) then ConfirmBonus else 0;
      var base := JsRemainder(Seed(history, symbol), ConfidenceSpread) + BaseConfidence;
      var total := base + offset;
      TrendReading(Reading(history), if total < ConfidenceCap then total else ConfidenceCap)
  }

  /** The confidence depends on the seed only through its remainder by 20:
      two seeds that agree modulo 20 and have the same sign give the same
      reading for the same prices. */
  lemma {:induction false} SeedResidueDecides(history: seq<real>, s1: Option<string>, s2: Option<string>)
    requires |history| >= 2
    requires Seed(history, s1) >= 0 && Seed(history, s2) >= 0
    requires (Seed(history, s1) - Seed(history, s2)) % ConfidenceSpread == 0
    ensures CalculateTrend(history, s1) == CalculateTrend(history, s2)
  {
    var a, b := Seed(history, s1), Seed(history, s2);
    ResidueOfCongruent(a, b);
  }

  lemma ResidueOfCongruent(a: nat, b: nat)
    requires (a - b) % ConfidenceSpread == 0
    ensures a % ConfidenceSpread == b % ConfidenceSpread
  {
    var k := (a - b) / ConfidenceSpread;
    assert a - b == k * ConfidenceSpread;
    assert a == b + k * ConfidenceSpread;
  }

  /** A symbol fixes the confidence up to the confirmation bonus: the prices
      only choose the direction and whether the bonus applies. */
  lemma SymbolFixesConfidence(h1: seq<real>, h2: seq<real>, sym: string)
    requires |h1| >= 2 && |h2| >= 2 && |sym| > 0
    requires Confirmed(h1) == Confirmed(h2)
    ensures CalculateTrend(h1, Some(sym)).confidence == CalculateTrend(h2, Some(sym)).confidence
  {
  }

  /** The bonus is worth exactly ten points: it is never cut by the cap. */
  lemma BonusAddsTen(h1: seq<real>, h2: seq<real>, sym: string)
    requires |h1| >= 2 && |h2| >= 2 && |sym| > 0
    requires Confirmed(h1) && !Confirmed(h2)
    ensures CalculateTrend(h1, Some(sym)).confidence == CalculateTrend(h2, Some(sym)).confidence + ConfirmBonus
  {
  }
}

=== FILE: vigil.dfy ===
/** `analyzeGlobalMarkets` of src/lib/vigilUtils.ts: a signed vote over four
    proxy instruments (TUR, UUP, VIX, NVDA), the average social sentiment
    and a simulated "whale" scan, mapped to BUY/SELL/NEUTRAL, a risk level
    and a strategy. Messages are tags in push order; the whale scan's random
    draws are parameters, one per target, and alert timestamps are dropped. */
module Vigil {
  import opened Wrappers
  import opened Lists
  import opened Market
  import opened Social

  datatype Decision = Buy | Sell | Neutral
  datatype Risk = RiskLow | RiskMedium | RiskHigh | RiskExtreme
  datatype Strategy = Attack | Defense | Ambush

  /** The pushed messages; the numbers they print are carried along. */
  datatype Message =
    | TurDrop(turChange: real)
    | TurRally(turChange: real)
    | TurNeutral(turChange: real)
    | DollarUp
    | DollarDown
    | VixAlarm(vixPrice: real)
    | TechRally
    | TechCrash
    | SocialNegative(topic: string)
    | SocialPositive(topic: string)

  /** The section of the analysis that pushes a message. */
  function Rank(m: Message): nat {
    match m
    case TurDrop(_) => 0
    case TurRally(_) => 0
    case TurNeutral(_) => 0
    case DollarUp => 1
    case DollarDown => 1
    case VixAlarm(_) => 2
    case TechRally => 3
    case TechCrash => 3
    case SocialNegative(_) => 4
    case SocialPositive(_) => 4
  }

  datatype WhaleKind = Iceberg | DarkRoom
  datatype Severity = SeverityHigh | SeverityMedium
  datatype WhaleAlert = WhaleAlert(symbol: string, kind: WhaleKind, severity: Severity)

  /** `socialSentiment`; a `None` summary is the "Veri Yok" (no data) text. */
  datatype SocialSentiment = SocialSentiment(score: real, summary: Option<Summary>)

  datatype VigilReport = VigilReport(
    score: real,
    decision: Decision,
    messages: seq<Message>,
    riskLevel: Risk,
    socialSentiment: SocialSentiment,
    whaleAlerts: seq<WhaleAlert>,
    strategy: Strategy)

  const ProxySymbols: seq<string> := ["TUR", "SPY", "UUP", "VIX", "NVDA", "GLD"]
  const MaxWhaleTargets: nat := 5
  const IcebergBonus: real := 0.5
  const BuyAt: real := 3.0
  const SellAt: real := -3.0

  // ---------------------------------------------------------- proxy votes

  /** TUR votes -3 below -1.5%, +3 above +1.5%, +0.5 in between, and
      nothing when it is not listed. */
  function TurPoints(tur: Option<Stock>): (p: real)
    ensures p == 0.0 <==> tur.None?
    ensures p < 0.0 <==> tur.Some? && tur.value.changePercent < -1.5
    ensures p == 3.0 <==> tur.Some? && tur.value.changePercent > 1.5
    ensures p == 0.5 <==> tur.Some? && -1.5 <= tur.value.changePercent <= 1.5
  {
    if tur.None? then 0.0
    else if tur.value.changePercent < -1.5 then -3.0
    else if tur.value.changePercent > 1.5 then 3.0
    else 0.5
  }

  function TurMessages(tur: Option<Stock>): (ms: seq<Message>)
    ensures Section(ms, 0) && (|ms| > 0 <==> tur.Some?)
    ensures tur.Some? ==> (ms == [TurDrop(tur.value.changePercent)] <==> TurPoints(tur) < 0.0)
    ensures tur.Some? ==> (ms == [TurRally(tur.value.changePercent)] <==> TurPoints(tur) == 3.0)
    ensures tur.Some? ==> (ms == [TurNeutral(tur.value.changePercent)] <==> TurPoints(tur) == 0.5)
  {
    if tur.None? then []
    else if tur.value.changePercent < -1.5 then [TurDrop(tur.value.changePercent)]
    else if tur.value.changePercent > 1.5 then [TurRally(tur.value.changePercent)]
    else [TurNeutral(tur.value.changePercent)]
  }

  /** The dollar votes -2 when it rises above 0.5%, +2 when it falls below
      -0.3%, and nothing in between or when it is not listed. */
  function DollarPoints(uup: Option<Stock>): (p: real)
    ensures p == -2.0 <==> uup.Some? && uup.value.changePercent > 0.5
    ensures p == 2.0 <==> uup.Some? && uup.value.changePercent < -0.3
    ensures p == 0.0 <==> uup.None? || -0.3 <= uup.value.changePercent <= 0.5
  {
    if uup.None? then 0.0
    else if uup.value.changePercent > 0.5 then -2.0
    else if uup.value.changePercent < -0.3 then 2.0
    else 0.0
  }

  /** The dollar message agrees with the dollar's vote: "up" exactly when
      it votes against, "down" exactly when it votes for, none when it is
      silent. */
  function DollarMessages(uup: Option<Stock>): (ms: seq<Message>)
    ensures Section(ms, 1)
    ensures ms == [DollarUp] <==> DollarPoints(uup) < 0.0
    ensures ms == [DollarDown] <==> DollarPoints(uup) > 0.0
    ensures ms == [] <==> DollarPoints(uup) == 0.0
  {
    if uup.None? then []
    else if uup.value.changePercent > 0.5 then [DollarUp]
    else if uup.value.changePercent < -0.3 then [DollarDown]
    else []
  }

  /** VIX above 20 raises the alarm. */
  predicate VixAlarmed(vix: Option<Stock>) {
    vix.Some? && vix.value.price > 20.0
  }

  /** VIX votes -2 when it alarms and nothing otherwise. */
  function VixPoints(vix: Option<Stock>): (p: real)
    ensures p == -2.0 <==> vix.Some? && vix.value.price > 20.0
    ensures p == 0.0 <==> vix.None? || vix.value.price <= 20.0
  {
    if VixAlarmed(vix) then -2.0 else 0.0
  }

  function VixMessages(vix: Option<Stock>): (ms: seq<Message>)
    ensures Section(ms, 2) && (|ms| > 0 <==> VixAlarmed(vix))
  {
    if VixAlarmed(vix) then [VixAlarm(vix.value.price)] else []
  }

  /** NVDA votes +1 above +1.5%, -1 below -2%, and nothing in between or
      when it is not listed. */
  function TechPoints(nvda: Option<Stock>): (p: real)
    ensures p == 1.0 <==> nvda.Some? && nvda.value.changePercent > 1.5
    ensures p == -1.0 <==> nvda.Some? && nvda.value.changePercent < -2.0
    ensures p == 0.0 <==> nvda.None? || -2.0 <= nvda.value.changePercent <= 1.5
  {
    if nvda.None? then 0.0
    else if nvda.value.changePercent > 1.5 then 1.0
    else if nvda.value.changePercent < -2.0 then -1.0
    else 0.0
  }

  /** The tech message agrees with NVDA's vote in the same way. */
  function TechMessages(nvda: Option<Stock>): (ms: seq<Message>)
    ensures Section(ms, 3)
    ensures ms == [TechRally] <==> TechPoints(nvda) > 0.0
    ensures ms == [TechCrash] <==> TechPoints(nvda) < 0.0
    ensures ms == [] <==> TechPoints(nvda) == 0.0
  {
    if nvda.None? then []
    else if nvda.value.changePercent > 1.5 then [TechRally]
    else if nvda.value.changePercent < -2.0 then [TechCrash]
    else []
  }

  /** The four proxies' votes: TUR's -3..+3, the dollar's -2..+2, VIX's
      -2..0 and NVDA's -1..+1 together stay within -8..+6. */
  function ProxyScore(stocks: seq<Stock>): (r: real)
    ensures -8.0 <= r <= 6.0
  {
    TurPoints(FindStock(stocks, "TUR")) + DollarPoints(FindStock(stocks, "UUP"))
    + VixPoints(FindStock(stocks, "VIX")) + TechPoints(FindStock(stocks, "NVDA"))
  }

  // ------------------------------------------------------ social sentiment

  function SumScores(signals: seq<SocialSignal>): real
    decreases |signals|
  {
    if |signals| == 0 then 0.0 else SumScores(signals[..|signals| - 1]) + signals[|signals| - 1].sentimentScore
  }

  /** The average sentiment, 0 without signals. */
  function SocialScore(signals: seq<SocialSignal>): real {
    if |signals| == 0 then 0.0 else SumScores(signals) / (|signals| as real)
  }

  /** Index of the signal a stable descending sort by volume puts first: the
      first one of maximal volume. */
  function TopIndex(signals: seq<SocialSignal>): (k: nat)
    requires |signals| > 0
    ensures k < |signals|
    ensures forall i :: 0 <= i < |signals| ==> signals[i].volume <= signals[k].volume
    ensures forall i :: 0 <= i < k ==> signals[i].volume < signals[k].volume
    decreases |signals|
  {
    if |signals| == 1 then 0
    else
      var k := TopIndex(signals[..|signals| - 1]);
      assert forall i :: 0 <= i < |signals| - 1 ==> signals[..|signals| - 1][i] == signals[i];
      if signals[|signals| - 1].volume > signals[k].volume then |signals| - 1 else k
  }

  /** The first trending topic, or the fallback when there is none or it is
      the empty string (`topics[0] || fallback`). */
  function TopicOr(topics: seq<string>, fallback: string): (t: string)
    ensures |t| > 0 || t == fallback
  {
    if |topics| > 0 && |topics[0]| > 0 then topics[0] else fallback
  }

  const SellTopic: string := "Satış"
  const BuyTopic: string := "Alım"

  /** A social message appears exactly when the average sentiment leaves
      the band [-0.3, 0.3]; it is negative below it. */
  function SocialMessages(signals: seq<SocialSignal>): (ms: seq<Message>)
    ensures Section(ms, 4)
    ensures |ms| > 0 <==> |signals| > 0 && (SocialScore(signals) < -0.3 || SocialScore(signals) > 0.3)
    ensures |ms| > 0 ==> (ms[0].SocialNegative? <==> SocialScore(signals) < -0.3)
  {
    if |signals| == 0 then []
    else
      var avg := SocialScore(signals);
      var top := signals[TopIndex(signals)];
      if avg < -0.3 then [SocialNegative(TopicOr(top.trendingTopics, SellTopic))]
      else if avg > 0.3 then [SocialPositive(TopicOr(top.trendingTopics, BuyTopic))]
      else []
  }

  /** The reported sentiment: the mean score and the summary of the
      loudest signal, or {0, "Veri Yok"} without signals. */
  function Sentiment(signals: seq<SocialSignal>): (s: SocialSentiment)
    ensures |signals| == 0 <==> s.summary.None?
    ensures |signals| == 0 ==> s.score == 0.0
    ensures |signals| > 0 ==> s.score * (|signals| as real) == SumScores(signals)
    ensures |signals| > 0 ==> s.summary == Some(signals[TopIndex(signals)].summary)
  {
    if |signals| == 0 then SocialSentiment(0.0, None)
    else SocialSentiment(SocialScore(signals), Some(signals[TopIndex(signals)].summary))
  }

  // ------------------------------------------------------------ whale scan

  predicate IsProxy(s: Stock) { s.symbol in ProxySymbols }

  function NotProxy(): Stock -> bool { (s: Stock) => !IsProxy(s) }

  /** The first five stocks, in input order, that are not proxies. */
  function WhaleTargets(stocks: seq<Stock>): (t: seq<Stock>)
    ensures |t| <= MaxWhaleTargets
    ensures forall s :: s in t ==> s in stocks && !IsProxy(s)
    ensures |t| == if Count(stocks, NotProxy()) < MaxWhaleTargets then Count(stocks, NotProxy()) else MaxWhaleTargets
    ensures forall i :: 0 <= i < |t| ==> t[i] == Filter(stocks, NotProxy())[i]
  {
    Take(Filter(stocks, NotProxy()), MaxWhaleTargets)
  }

  /** Whether a draw makes a target raise an alert. */
  predicate Fires(s: Stock, draw: real) {
    (draw > 0.85 && s.volume > 1000000) || draw < 0.1
  }

  /** The one alert a firing draw raises: a high-severity ICEBERG when the
      draw is above 0.85 on a volume over one million, a medium-severity
      DARK_ROOM otherwise. */
  function AlertOf(s: Stock, draw: real): WhaleAlert {
    if draw > 0.85 && s.volume > 1000000 then WhaleAlert(s.symbol, Iceberg, SeverityHigh)
    else WhaleAlert(s.symbol, DarkRoom, SeverityMedium)
  }

  /** The alerts one draw produces for one target: ICEBERG above 0.85 on a
      volume over one million, then DARK_ROOM below 0.1. The two tests are
      independent, but no draw passes both, so a target yields at most one
      alert. */
  function AlertsFor(s: Stock, draw: real): (a: seq<WhaleAlert>)
    ensures |a| <= 1
    ensures forall x :: x in a ==> x.symbol == s.symbol
    ensures a == if Fires(s, draw) then [AlertOf(s, draw)] else []
  {
    (if draw > 0.85 && s.volume > 1000000 then [WhaleAlert(s.symbol, Iceberg, SeverityHigh)] else [])
    + (if draw < 0.1 then [WhaleAlert(s.symbol, DarkRoom, SeverityMedium)] else [])
  }


  /** Every alert in `a` is one some target's draw raised. */
  predicate RaisedByTargets(a: seq<WhaleAlert>, targets: seq<Stock>, draws: seq<real>)
    requires |draws| == |targets|
  {
    forall x :: x in a ==> exists j :: 0 <= j < |targets| && Fires(targets[j], draws[j]) && x == AlertOf(targets[j], draws[j])
  }

  /** Every target whose draw fires has its alert in `a`. */
  predicate CoversFiring(a: seq<WhaleAlert>, targets: seq<Stock>, draws: seq<real>)
    requires |draws| == |targets|
  {
    forall j :: 0 <= j < |targets| && Fires(targets[j], draws[j]) ==> AlertOf(targets[j], draws[j]) in a
  }

  /** How many targets' draws fire. */
  function FiringCount(targets: seq<Stock>, draws: seq<real>): (n: nat)
    requires |draws| == |targets|
    ensures n <= |targets|
    decreases |targets|
  {
    if |targets| == 0 then 0
    else
      var k := |targets| - 1;
      FiringCount(targets[..k], draws[..k]) + if Fires(targets[k], draws[k]) then 1 else 0
  }

  /** The `forEach` over the targets: exactly one alert per target whose
      draw fires: as many alerts as firing targets, every alert is one a
      target's draw raised, and every firing target's alert is present. */
  function ScanWhales(targets: seq<Stock>, draws: seq<real>): (a: seq<WhaleAlert>)
    requires |draws| == |targets|
    ensures |a| == FiringCount(targets, draws) <= |targets|
    ensures forall x :: x in a ==> exists j :: 0 <= j < |targets| && x.symbol == targets[j].symbol
    ensures RaisedByTargets(a, targets, draws) && CoversFiring(a, targets, draws)
    decreases |targets|
  {
    if |targets| == 0 then []
    else
      var n := |targets| - 1;
      var rest := ScanWhales(targets[..n], draws[..n]);
      assert targets == targets[..n] + [targets[n]] && draws == draws[..n] + [draws[n]];
      ScanStep(targets[..n], draws[..n], rest, targets[n], draws[n]);
      CountStep(targets[..n], draws[..n], targets[n], draws[n]);
      var a := rest + AlertsFor(targets[n], draws[n]);
      RaisedNamesTargets(a, targets, draws);
      a
  }

  /** An alert some target raised names that target. */
  lemma RaisedNamesTargets(a: seq<WhaleAlert>, targets: seq<Stock>, draws: seq<real>)
    requires |draws| == |targets| && RaisedByTargets(a, targets, draws)
    ensures forall x :: x in a ==> exists j :: 0 <= j < |targets| && x.symbol == targets[j].symbol
  {
    forall x | x in a
      ensures exists j :: 0 <= j < |targets| && x.symbol == targets[j].symbol
    {
      var j :| 0 <= j < |targets| && Fires(targets[j], draws[j]) && x == AlertOf(targets[j], draws[j]);
      assert x.symbol == targets[j].symbol;
    }
  }

  /** One more target adds one to the firing count exactly when it raises
      an alert. */
  lemma CountStep(ts: seq<Stock>, ds: seq<real>, t: Stock, d: real)
    requires |ds| == |ts|
    ensures FiringCount(ts + [t], ds + [d]) == FiringCount(ts, ds) + |AlertsFor(t, d)|
  {
    assert (ts + [t])[..|ts|] == ts && (ds + [d])[..|ds|] == ds;
  }

  /** What the scan keeps true when it moves on to one more target. */
  lemma ScanStep(ts: seq<Stock>, ds: seq<real>, rest: seq<WhaleAlert>, t: Stock, d: real)
    requires |ds| == |ts|
    requires RaisedByTargets(rest, ts, ds) && CoversFiring(rest, ts, ds)
    ensures RaisedByTargets(rest + AlertsFor(t, d), ts + [t], ds + [d])
    ensures CoversFiring(rest + AlertsFor(t, d), ts + [t], ds + [d])
  {
    var a := rest + AlertsFor(t, d);
    var targets, draws := ts + [t], ds + [d];
    forall x | x in a
      ensures exists j :: 0 <= j < |targets| && Fires(targets[j], draws[j]) && x == AlertOf(targets[j], draws[j])
    {
      if x in rest {
        var j :| 0 <= j < |ts| && Fires(ts[j], ds[j]) && x == AlertOf(ts[j], ds[j]);
        assert targets[j] == ts[j] && draws[j] == ds[j];
      } else {
        assert targets[|ts|] == t && draws[|ts|] == d;
      }
    }
    forall j | 0 <= j < |targets| && Fires(targets[j], draws[j])
      ensures AlertOf(targets[j], draws[j]) in a
    {
      if j < |ts| {
        assert targets[j] == ts[j] && draws[j] == ds[j];
      } else {
        assert targets[j] == t && draws[j] == d;
      }
    }
  }

  /** The scan runs through the targets in order: one more target appends
      its own alerts after those of the targets before it. */
  lemma ScanWhalesAppend(targets: seq<Stock>, draws: seq<real>, t: Stock, d: real)
    requires |draws| == |targets|
    ensures ScanWhales(targets + [t], draws + [d]) == ScanWhales(targets, draws) + AlertsFor(t, d)
  {
    assert (targets + [t])[..|targets|] == targets;
    assert (draws + [d])[..|draws|] == draws;
  }

  predicate IsIceberg(a: WhaleAlert) { a.kind == Iceberg }

  // -------------------------------------------------------------- decision

  function Decide(score: real): (d: Decision)
    ensures d == Buy <==> score >= BuyAt
    ensures d == Sell <==> score <= SellAt
  {
    if score >= BuyAt then Buy else if score <= SellAt then Sell else Neutral
  }

  /** ATTACK exactly on BUY, DEFENSE exactly on SELL, AMBUSH otherwise. */
  function StrategyFor(d: Decision): (s: Strategy)
    ensures s == Attack <==> d == Buy
    ensures s == Defense <==> d == Sell
    ensures s == Ambush <==> d == Neutral
  {
    match d
    case Buy => Attack
    case Sell => Defense
    case Neutral => Ambush
  }

  /** The final risk: the decision overrides the VIX-driven level. */
  function FinalRisk(d: Decision, vixAlarm: bool): (r: Risk)
    ensures r == RiskLow <==> d == Buy
    ensures r == RiskExtreme <==> d == Sell
    ensures r == RiskHigh <==> d == Neutral && vixAlarm
  {
    match d
    case Buy => RiskLow
    case Sell => RiskExtreme
    case Neutral => if vixAlarm then RiskHigh else RiskMedium
  }

  /** The TUR message among `ms` is the drop, rally or neutral reading
      exactly as TUR votes -3, +3 or +0.5. */
  predicate TurSectionReads(ms: seq<Message>, tur: Option<Stock>)
    requires tur.Some?
  {
    var c := tur.value.changePercent;
    && (TurDrop(c) in ms <==> TurPoints(tur) < 0.0)
    && (TurRally(c) in ms <==> TurPoints(tur) == 3.0)
    && (TurNeutral(c) in ms <==> TurPoints(tur) == 0.5)
  }

  /** Whether some message of `ms` comes from section `k`. */
  predicate HasSection(ms: seq<Message>, k: nat) {
    exists m :: m in ms && Rank(m) == k
  }

  /** The pushed messages: a TUR message exactly when TUR is listed, each
      dollar and tech message exactly when that proxy votes that way, the
      VIX alarm exactly when VIX is above 20, and a social message exactly
      when the average sentiment leaves [-0.3, 0.3]. */
  function Messages(stocks: seq<Stock>, signals: seq<SocialSignal>): (ms: seq<Message>)
    ensures HasSection(ms, 0) <==> FindStock(stocks, "TUR").Some?
    ensures FindStock(stocks, "TUR").Some? ==> TurSectionReads(ms, FindStock(stocks, "TUR"))
    ensures DollarUp in ms <==> DollarPoints(FindStock(stocks, "UUP")) < 0.0
    ensures DollarDown in ms <==> DollarPoints(FindStock(stocks, "UUP")) > 0.0
    ensures HasSection(ms, 2) <==> VixAlarmed(FindStock(stocks, "VIX"))
    ensures TechRally in ms <==> TechPoints(FindStock(stocks, "NVDA")) > 0.0
    ensures TechCrash in ms <==> TechPoints(FindStock(stocks, "NVDA")) < 0.0
    ensures HasSection(ms, 4) <==> |signals| > 0 && (SocialScore(signals) < -0.3 || SocialScore(signals) > 0.3)
  {
    var a := TurMessages(FindStock(stocks, "TUR"));
    var b := DollarMessages(FindStock(stocks, "UUP"));
    var c := VixMessages(FindStock(stocks, "VIX"));
    var d := TechMessages(FindStock(stocks, "NVDA"));
    var e := SocialMessages(signals);
    SectionPresent(a, b, c, d, e, 0);
    SectionPresent(a, b, c, d, e, 2);
    SectionPresent(a, b, c, d, e, 4);
    VoteSections(a, b, c, d, e, FindStock(stocks, "UUP"), FindStock(stocks, "NVDA"));
    TurSection(a, b, c, d, e, FindStock(stocks, "TUR"));
    a + b + c + d + e
  }

  /** In five sections laid end to end, a message can only sit in the
      section of its own rank. */
  lemma PlacedByRank(a: seq<Message>, b: seq<Message>, c: seq<Message>, d: seq<Message>, e: seq<Message>, m: Message)
    requires Section(a, 0) && Section(b, 1) && Section(c, 2) && Section(d, 3) && Section(e, 4)
    ensures m in a + b + c + d + e <==>
              || (Rank(m) == 0 && m in a) || (Rank(m) == 1 && m in b) || (Rank(m) == 2 && m in c)
              || (Rank(m) == 3 && m in d) || (Rank(m) == 4 && m in e)
  {
  }

  /** The dollar and technology messages survive the concatenation. */
  lemma VoteSections(a: seq<Message>, b: seq<Message>, c: seq<Message>, d: seq<Message>, e: seq<Message>,
                     uup: Option<Stock>, nvda: Option<Stock>)
    requires b == DollarMessages(uup) && d == TechMessages(nvda)
    requires Section(a, 0) && Section(b, 1) && Section(c, 2) && Section(d, 3) && Section(e, 4)
    ensures DollarUp in a + b + c + d + e <==> DollarPoints(uup) < 0.0
    ensures DollarDown in a + b + c + d + e <==> DollarPoints(uup) > 0.0
    ensures TechRally in a + b + c + d + e <==> TechPoints(nvda) > 0.0
    ensures TechCrash in a + b + c + d + e <==> TechPoints(nvda) < 0.0
  {
    PlacedByRank(a, b, c, d, e, DollarUp);
    PlacedByRank(a, b, c, d, e, DollarDown);
    PlacedByRank(a, b, c, d, e, TechRally);
    PlacedByRank(a, b, c, d, e, TechCrash);
  }

  /** The TUR section's reading survives the concatenation. */
  lemma TurSection(a: seq<Message>, b: seq<Message>, c: seq<Message>, d: seq<Message>, e: seq<Message>, tur: Option<Stock>)
    requires a == TurMessages(tur)
    requires Section(a, 0) && Section(b, 1) && Section(c, 2) && Section(d, 3) && Section(e, 4)
    ensures tur.Some? ==> TurSectionReads(a + b + c + d + e, tur)
  {
    if tur.Some? {
      var x := tur.value.changePercent;
      PlacedByRank(a, b, c, d, e, TurDrop(x));
      PlacedByRank(a, b, c, d, e, TurRally(x));
      PlacedByRank(a, b, c, d, e, TurNeutral(x));
    }
  }

  /** A section shows up in the messages exactly when it pushed one. */
  lemma SectionPresent(a: seq<Message>, b: seq<Message>, c: seq<Message>, d: seq<Message>, e: seq<Message>, k: nat)
    requires Section(a, 0) && Section(b, 1) && Section(c, 2) && Section(d, 3) && Section(e, 4)
    ensures HasSection(a + b + c + d + e, k) <==>
              || (k == 0 && |a| > 0) || (k == 1 && |b| > 0) || (k == 2 && |c| > 0)
              || (k == 3 && |d| > 0) || (k == 4 && |e| > 0)
  {
    var ms := a + b + c + d + e;
    if HasSection(ms, k) {
      var m :| m in ms && Rank(m) == k;
      PlacedByRank(a, b, c, d, e, m);
    }
    if k == 0 && |a| > 0 { PlacedByRank(a, b, c, d, e, a[0]); }
    if k == 1 && |b| > 0 { PlacedByRank(a, b, c, d, e, b[0]); }
    if k == 2 && |c| > 0 { PlacedByRank(a, b, c, d, e, c[0]); }
    if k == 3 && |d| > 0 { PlacedByRank(a, b, c, d, e, d[0]); }
    if k == 4 && |e| > 0 { PlacedByRank(a, b, c, d, e, e[0]); }
  }

  /** Messages come section by section, at most one per section. */
  predicate RanksIncrease(ms: seq<Message>) {
    forall i, j :: 0 <= i < j < |ms| ==> Rank(ms[i]) < Rank(ms[j])
  }

  /** `analyzeGlobalMarkets(stocks, socialSignals)` with one whale draw per
      target. */
  function AnalyzeGlobalMarkets(stocks: seq<Stock>, signals: seq<SocialSignal>, draws: seq<real>): (r: VigilReport)
    requires |draws| == |WhaleTargets(stocks)|
    ensures r.score == ProxyScore(stocks) + r.socialSentiment.score
                       + IcebergBonus * (Count(r.whaleAlerts, IsIceberg) as real)
    ensures r.socialSentiment == Sentiment(signals)
    ensures r.decision == Buy <==> r.score >= BuyAt
    ensures r.decision == Sell <==> r.score <= SellAt
    ensures r.decision == Buy ==> r.riskLevel == RiskLow
    ensures r.decision == Sell ==> r.riskLevel == RiskExtreme
    ensures r.decision == Neutral ==> (r.riskLevel == RiskHigh <==> VixAlarmed(FindStock(stocks, "VIX")))
    ensures r.decision == Neutral ==> (r.riskLevel == RiskHigh || r.riskLevel == RiskMedium)
    ensures RanksIncrease(r.messages) && |r.messages| <= 5
    ensures |r.whaleAlerts| <= MaxWhaleTargets
    ensures r.whaleAlerts == ScanWhales(WhaleTargets(stocks), draws)
    ensures r.messages == Messages(stocks, signals)
    ensures r.strategy == StrategyFor(r.decision)
    ensures r.riskLevel == FinalRisk(r.decision, VixAlarmed(FindStock(stocks, "VIX")))
  {
    var alerts := ScanWhales(WhaleTargets(stocks), draws);
    var sentiment := Sentiment(signals);
    var score := ProxyScore(stocks) + sentiment.score + IcebergBonus * (Count(alerts, IsIceberg) as real);
    var decision := Decide(score);
    MessageFacts(stocks, signals);
    VigilReport(score, decision, Messages(stocks, signals),
                FinalRisk(decision, VixAlarmed(FindStock(stocks, "VIX"))),
                sentiment, alerts, StrategyFor(decision))
  }

  /** A section's contribution: nothing, or one message of rank `k`. */
  predicate Section(p: seq<Message>, k: nat) {
    p == [] || (|p| == 1 && Rank(p[0]) == k)
  }

  predicate RanksBelow(ms: seq<Message>, k: nat) {
    forall i :: 0 <= i < |ms| ==> Rank(ms[i]) < k
  }

  lemma ExtendMessages(xs: seq<Message>, p: seq<Message>, k: nat)
    requires RanksIncrease(xs) && RanksBelow(xs, k) && Section(p, k)
    ensures RanksIncrease(xs + p) && RanksBelow(xs + p, k + 1)
    ensures |xs + p| <= |xs| + 1
  {
  }

  lemma FiveSections(a: seq<Message>, b: seq<Message>, c: seq<Message>, d: seq<Message>, e: seq<Message>)
    requires Section(a, 0) && Section(b, 1) && Section(c, 2) && Section(d, 3) && Section(e, 4)
    ensures RanksIncrease(a + b + c + d + e) && |a + b + c + d + e| <= 5
  {
    ExtendMessages([], a, 0);
    assert [] + a == a;
    ExtendMessages(a, b, 1);
    ExtendMessages(a + b, c, 2);
    ExtendMessages(a + b + c, d, 3);
    ExtendMessages(a + b + c + d, e, 4);
  }

  lemma MessageFacts(stocks: seq<Stock>, signals: seq<SocialSignal>)
    ensures RanksIncrease(Messages(stocks, signals)) && |Messages(stocks, signals)| <= 5
  {
    FiveSections(TurMessages(FindStock(stocks, "TUR")), DollarMessages(FindStock(stocks, "UUP")),
                 VixMessages(FindStock(stocks, "VIX")), TechMessages(FindStock(stocks, "NVDA")),
                 SocialMessages(signals));
  }

  // ---------------------------------------------------------------- lemmas

  /** TUR, when listed, adds exactly one of -3, +3 or +0.5 and exactly one
      message, which comes first; when absent it adds neither. */
  lemma TurContribution(stocks: seq<Stock>, signals: seq<SocialSignal>, draws: seq<real>)
    requires |draws| == |WhaleTargets(stocks)|
    ensures var tur := FindStock(stocks, "TUR");
            var r := AnalyzeGlobalMarkets(stocks, signals, draws);
            && (tur.Some? ==> TurPoints(tur) in {-3.0, 3.0, 0.5} && |r.messages| > 0 && Rank(r.messages[0]) == 0)
            && (tur.None? ==> TurPoints(tur) == 0.0 && forall m :: m in r.messages ==> Rank(m) > 0)
  {
    TurMessageFirst(stocks, signals);
  }

  lemma TurMessageFirst(stocks: seq<Stock>, signals: seq<SocialSignal>)
    ensures var tur := FindStock(stocks, "TUR");
            var ms := Messages(stocks, signals);
            && (tur.Some? ==> |ms| > 0 && Rank(ms[0]) == 0)
            && (tur.None? ==> forall m :: m in ms ==> Rank(m) > 0)
  {
    var tur := FindStock(stocks, "TUR");
    var a := TurMessages(tur);
    var b, c, d, e := DollarMessages(FindStock(stocks, "UUP")), VixMessages(FindStock(stocks, "VIX")),
                      TechMessages(FindStock(stocks, "NVDA")), SocialMessages(signals);
    LaterSections(a, b, c, d, e);
  }

  /** With the first section leading, every later message outranks it. */
  lemma LaterSections(a: seq<Message>, b: seq<Message>, c: seq<Message>, d: seq<Message>, e: seq<Message>)
    requires Section(a, 0) && Section(b, 1) && Section(c, 2) && Section(d, 3) && Section(e, 4)
    ensures |a| > 0 ==> |a + b + c + d + e| > 0 && Rank((a + b + c + d + e)[0]) == 0
    ensures |a| == 0 ==> forall m :: m in a + b + c + d + e ==> Rank(m) > 0
  {
    var rest := b + c + d + e;
    RestOutranksFirst(b, c, d, e);
    assert a + b + c + d + e == a + rest;
    FirstSection(a, rest);
  }

  lemma RestOutranksFirst(b: seq<Message>, c: seq<Message>, d: seq<Message>, e: seq<Message>)
    requires Section(b, 1) && Section(c, 2) && Section(d, 3) && Section(e, 4)
    ensures forall m :: m in b + c + d + e ==> Rank(m) > 0
  {
    forall m | m in b + c + d + e
      ensures Rank(m) > 0
    {
      assert m in b || m in c || m in d || m in e;
    }
  }

  lemma FirstSection(a: seq<Message>, rest: seq<Message>)
    requires Section(a, 0) && forall m :: m in rest ==> Rank(m) > 0
    ensures |a| > 0 ==> |a + rest| > 0 && Rank((a + rest)[0]) == 0
    ensures |a| == 0 ==> forall m :: m in a + rest ==> Rank(m) > 0
  {
    if |a| == 0 {
      assert a + rest == rest;
    }
  }

  /** Every alert names one of the whale targets, and the scan never looks
      at a proxy instrument. */
  lemma AlertsNameTargets(stocks: seq<Stock>, draws: seq<real>)
    requires |draws| == |WhaleTargets(stocks)|
    ensures forall a :: a in ScanWhales(WhaleTargets(stocks), draws) ==>
              exists s :: s in stocks && !IsProxy(s) && s.symbol == a.symbol
  {
    var t := WhaleTargets(stocks);
    forall a | a in ScanWhales(t, draws)
      ensures exists s :: s in stocks && !IsProxy(s) && s.symbol == a.symbol
    {
      var j :| 0 <= j < |t| && a.symbol == t[j].symbol;
      assert t[j] in t;
    }
  }

  /** With no signals, sentiment reads {0, "Veri Yok"} and adds nothing. */
  lemma NoSignalsNoSentiment(stocks: seq<Stock>, draws: seq<real>)
    requires |draws| == |WhaleTargets(stocks)|
    ensures AnalyzeGlobalMarkets(stocks, [], draws).socialSentiment == SocialSentiment(0.0, None)
  {
  }

  /** A quote carrying only what the vote reads. */
  function Quote(symbol: string, price: real, changePercent: real): Stock {
    Stock(symbol, symbol, price, 0.0, changePercent, 0, NASDAQ, USD, [price], price, price, price, price)
  }

  /** A market of proxy instruments alone, with no social signals: no whale
      targets, and the report is the proxies' vote and messages. */
  lemma ProxiesOnlyReport(stocks: seq<Stock>)
    requires forall s :: s in stocks ==> IsProxy(s)
    ensures WhaleTargets(stocks) == []
    ensures var r := AnalyzeGlobalMarkets(stocks, [], []);
            && r.score == ProxyScore(stocks) && r.whaleAlerts == []
            && r.messages == Messages(stocks, [])
            && r.decision == Decide(ProxyScore(stocks))
            && r.riskLevel == FinalRisk(r.decision, VixAlarmed(FindStock(stocks, "VIX")))
  {
    FilterDropsAll(stocks, NotProxy());
  }

  lemma ThreeMessages(a: Message, b: Message, c: Message)
    ensures [a] + [b] + [c] + [] + [] == [a, b, c]
  {
  }

  /** TUR down 2% and VIX at 25, nothing else: -3 - 2 = -5, SELL, EXTREME,
      with the TUR drop message before the VIX alarm. */
  lemma TurDropWithVixAlarm()
    ensures var r := AnalyzeGlobalMarkets([Quote("TUR", 30.0, -2.0), Quote("VIX", 25.0, 0.0)], [], []);
            && r.score == -5.0 && r.decision == Sell && r.riskLevel == RiskExtreme
            && r.messages == [TurDrop(-2.0), VixAlarm(25.0)] && r.whaleAlerts == []
  {
    var stocks := [Quote("TUR", 30.0, -2.0), Quote("VIX", 25.0, 0.0)];
    assert FindStock(stocks, "UUP") == None && FindStock(stocks, "NVDA") == None;
    assert FindStock(stocks, "TUR") == Some(stocks[0]) && FindStock(stocks, "VIX") == Some(stocks[1]);
    assert IsProxy(stocks[0]) && IsProxy(stocks[1]);
    ProxiesOnlyReport(stocks);
  }

  /** TUR up 2%, the dollar down 0.5% and VIX at 25 give 3 + 2 - 2 = 3:
      BUY, and the decision overrides the VIX alarm's HIGH risk with LOW. */
  lemma BuyOverridesVixAlarm()
    ensures var r := AnalyzeGlobalMarkets([Quote("TUR", 30.0, 2.0), Quote("UUP", 28.0, -0.5), Quote("VIX", 25.0, 0.0)], [], []);
            && r.score == 3.0 && r.decision == Buy && r.riskLevel == RiskLow
            && r.messages == [TurRally(2.0), DollarDown, VixAlarm(25.0)]
  {
    var stocks := [Quote("TUR", 30.0, 2.0), Quote("UUP", 28.0, -0.5), Quote("VIX", 25.0, 0.0)];
    BuyMarket(stocks);
    ProxiesOnlyReport(stocks);
  }

  lemma BuyMarket(stocks: seq<Stock>)
    requires stocks == [Quote("TUR", 30.0, 2.0), Quote("UUP", 28.0, -0.5), Quote("VIX", 25.0, 0.0)]
    ensures forall s :: s in stocks ==> IsProxy(s)
    ensures ProxyScore(stocks) == 3.0
    ensures Messages(stocks, []) == [TurRally(2.0), DollarDown, VixAlarm(25.0)]
  {
    BuyLookups(stocks);
    var tur, uup, vix := Some(stocks[0]), Some(stocks[1]), Some(stocks[2]);
    assert TurMessages(tur) == [TurRally(2.0)] && DollarMessages(uup) == [DollarDown] && VixMessages(vix) == [VixAlarm(25.0)];
    ThreeMessages(TurRally(2.0), DollarDown, VixAlarm(25.0));
  }

  lemma BuyLookups(stocks: seq<Stock>)
    requires stocks == [Quote("TUR", 30.0, 2.0), Quote("UUP", 28.0, -0.5), Quote("VIX", 25.0, 0.0)]
    ensures forall s :: s in stocks ==> IsProxy(s)
    ensures FindStock(stocks, "NVDA") == None
    ensures FindStock(stocks, "TUR") == Some(stocks[0]) && FindStock(stocks, "UUP") == Some(stocks[1])
    ensures FindStock(stocks, "VIX") == Some(stocks[2])
  {
    assert IsProxy(stocks[0]) && IsProxy(stocks[1]) && IsProxy(stocks[2]);
  }
}

=== FILE: wrappers.dfy ===
/** Optional values: the model's stand-in for the source's `null` and
    `undefined` results. */
module Wrappers {

  datatype Option<+T> = None | Some(value: T) {

    /** The wrapped value, or `default` when there is none. */
    function GetOr(default: T): T {
      match this
      case Some(v) => v
      case None => default
    }
  }
}
